=== FILE: README.md ===
# Adapter request pipeline — a Dafny model

This project models the runtime core of a TypeScript HTTP client library built around an
`Adapter`. An adapter holds the following:

- a base configuration and base headers;
- four chains of hooks (before-request, after-response, after-build-url, request-error) that it
  inherits from the adapter it `extend`s;
- a transport (`xhr`) that performs the actual network call.

`request` goes through these steps:

1. Merge the call's configuration over the adapter's.
2. Resolve the URL against the base URL and join the base path.
3. Apply the search parameters and run the URL hooks.
4. Run the before-request chain, which may answer the request itself.
5. Call the transport, retrying failed attempts up to `autoRetry` times.
6. Classify the HTTP status, extract and validate the payload, and run the after-response
   chain.
7. On failure, normalise the error into an `AdapterRequestError` and pass it through the
   error chain. Hooks and validators that themselves throw are not modelled (see "Left out").

Around that core the model covers the following:

- **`AdapterEndpoint`**: a declarative endpoint. It resolves positional arguments against a URL
  template, enforces required search parameters and an optional request-body validator, and
  attaches the endpoint's response validator before it delegates to the adapter.
- **`Deduplicator`**: an extension that lets overlapping GETs to one URL share one transport
  round trip. Each URL maps to a `PendingRequest`.
- **`BaseAdapter`**: the older static-class API. It caches a compiled URL template, parses
  arguments, validates requests and responses against per-method type definitions, and sends
  through a legacy transport.
- **`validate`**: a standalone helper that checks a value against either a predicate or a
  Standard Schema v1 object. Nothing else in the library calls it: the adapter calls
  `config.validate(data)` directly, and the endpoint's validators are plain functions.
- **Utilities**: `extend` (prototype layering), `trimCharStart`/`trimCharEnd` and `arrRemove`.

Modules, one file each:

| module | models |
|---|---|
| `Js` | JavaScript values, truthiness, `Result`/`Option` |
| `HeaderMap` | a case-insensitive `Headers` object, as the WHATWG Fetch Standard defines it |
| `Configs` | request configurations as JavaScript objects |
| `Urls` | a `URL` object: resolution, `search`, form serialisation as in section 5.2 of the WHATWG URL Standard |
| `UrlTemplate` | the URL templater used by both adapter APIs |
| `RequestErrors` | `AdapterRequestError` |
| `Transports` | a scripted transport: call `k` gets the `k`-th scripted outcome |
| `Extend` | `extend` |
| `TrimChar` | `trimCharStart`, `trimCharEnd` |
| `ArrRemove` | `arrRemove` |
| `Adapters` | `Adapter` and its pipeline as functions of the adapter's state |
| `AdapterProperties` | retry bounds, merge lookups, the base-path seam |
| `Endpoints` | `AdapterEndpoint`, `endpoint()` |
| `Dedup` | `Deduplicator`, `PendingRequest` |
| `BaseAdapters` | `BaseAdapter`, the dummy transport |
| `StandardSchema` | `validate`, `isStandardSchema` |

Every stateful class is a Dafny `class`. Each method that changes state is proved against a
function of the old state: `Adapters.RequestOutcome` with `Adapters.RequestedCall` (the request
every transport call carries), `Endpoints.EntryOutcome` with `Endpoints.EntryRequest`,
`BaseAdapters.Prepared` and `BaseAdapters.Finished`. The properties the library promises are
then proved about those functions.

## Model

| member | source | states |
|---|---|---|
| Adapters.RunBeforeAppend | src/adapter.ts:177-202 | A before-request chain over the parent's handlers then this adapter's equals running the parent's chain in full and feeding its result to the own handlers; if the parent's chain stopped, its stop is final |
| Adapters.RunBeforeStopped | src/adapter.ts:190-198 | Once a before-request handler returns a response or rejects, no later handler changes the chain's outcome |
| Adapters.Adapter.RunBeforeList | src/adapter.ts:190-201 | The handler loop computes the before-request chain: a truthy triple replaces `[url, config, body]`, a void return keeps it, a response stops the chain |
| Adapters.Adapter.RunBeforeRequestHandlers | src/adapter.ts:177-202 | The result is the before-request chain over the flattened handler lists, root adapter first |
| Adapters.RunAfterAppend | src/adapter.ts:204-216 | The after-response chain is the parent's chain followed by the own handlers; a rejection is final |
| Adapters.RunAfterStopped | src/adapter.ts:204-216 | After a rejecting after-response handler nothing later changes the outcome |
| Adapters.Adapter.RunAfterList | src/adapter.ts:209-215 | The loop computes the after-response chain over one list |
| Adapters.Adapter.RunAfterResponseHandlers | src/adapter.ts:204-216 | The result is the after-response chain over the flattened lists |
| Adapters.RunUrlAppend | src/adapter.ts:218-230 | The URL chain over the parent's then the own handlers is the composition of both chains |
| Adapters.Adapter.RunUrlList | src/adapter.ts:223-229 | The loop computes the URL chain: a truthy return replaces the URL |
| Adapters.Adapter.RunAfterBuildUrlHandlers | src/adapter.ts:218-230 | The result is the URL chain over the flattened lists |
| Adapters.RunErrorsAppend | src/adapter.ts:232-244 | The error chain over the parent's then the own handlers is the composition of both chains |
| Adapters.Adapter.RunErrorList | src/adapter.ts:237-243 | The loop computes the error chain over one list |
| Adapters.Adapter.RunAfterRequestErrorHandlers | src/adapter.ts:232-244 | The result is the error chain over the flattened lists |
| Adapters.OptionsConfig | src/adapter.ts:109-138 | Every configuration key of the base config is the option's value when given, else its default |
| Adapters.InitOptionsToBaseConfig | src/adapter.ts:109-138 | Builds the base configuration and the base headers from the constructor options |
| Adapters.Adapter.constructor | src/adapter.ts:156-175 | A new root adapter: its transport, its base config and headers from the options, and each hook list as given or empty |
| Adapters.Adapter.MergeConfigs | src/adapter.ts:86-107 | Computes the merged configuration and headers (their meaning: MergedConfigLookup, MergedHeadersLookup) |
| HeaderMap.MergeHeaders | src/adapter.ts:93-98 | A header named by the target, in any letter case, reads back with the target's value, and any other reads back with the base's; no name is lost or invented |
| AdapterProperties.MergedConfigLookup | src/adapter.ts:86-107 | A key the target sets wins, even when set to `undefined`, and other keys fall back to the base; `xhr` is layered key-wise only when both sides have one |
| AdapterProperties.MergedHeadersLookup | src/adapter.ts:93-98 | A header is the target's when the target names it, in any letter case, else the base's |
| Adapters.AddContentType | src/adapter.ts:246-250 | A `Content-Type` the caller set is never overwritten; when absent it becomes `application/json;charset=UTF-8` |
| Adapters.AddContentTypeKeepsOthers | src/adapter.ts:246-250 | Every other header is left as it was |
| AdapterProperties.ContentTypeLookup | src/adapter.ts:246-250 | Header lookup after `addContentType`, for every name |
| Adapters.Adapter.CreateRequestConfig | src/adapter.ts:276-305 | The request configuration of a method and an optional call configuration |
| Adapters.Adapter.BaseRequestConfig | src/adapter.ts:280-291 | Without a call configuration: the base configuration with the base headers, plus the content type when the method carries a body |
| Adapters.Adapter.MergedRequestConfig | src/adapter.ts:293-304 | With a call configuration: the merge of both, plus the content type when the method carries a body |
| AdapterProperties.RequestHeadersLookup | src/adapter.ts:276-305 | A request header is the call's when named there, else the adapter's; POST, PATCH, PUT and DELETE get the JSON content type only when none is set; GET and OPTIONS never get one |
| AdapterProperties.RequestConfigHeaders | src/adapter.ts:276-305 | The request headers are the merged headers, with the content type added exactly for methods that carry a body |
| AdapterProperties.DefaultConfigHeaders | src/adapter.ts:280-291 | The same, without a call configuration |
| AdapterProperties.CallConfigHeaders | src/adapter.ts:293-304 | The same, with a call configuration |
| AdapterProperties.RequestConfigLookup | src/adapter.ts:276-305 | Every key other than `headers` and `xhr` is the call's own value when it sets one, else the adapter's |
| Adapters.GetBaseUrl | src/adapter.ts:252-260 | The base URL is `config.baseURL` when truthy, else the page origin, else `http://127.0.0.1` |
| Adapters.PrepareUrl | src/adapter.ts:262-274 | The URL is resolved against the base URL; a base that is not an absolute URL gives a TypeError "Invalid URL" even for an absolute `url`, and any resolution error propagates; with a base path the pathname is the base path joined to the resolved pathname, otherwise the resolved URL is kept; origin and query are the resolved ones |
| Urls.Resolve | src/adapter.ts:266-270 | `new URL(url, base)`: the base is parsed first and one that is not absolute throws a TypeError whatever the input; with a parsed base an absolute input stands alone, and any other input that does not start with `//` resolves, taking the base's origin |
| Urls.AbsoluteInputNeedsBase | src/adapter.ts:252-270 | A page origin of "null" or an empty base makes every request URL fail with a TypeError, absolute ones included |
| Urls.SchemeCaseInsensitive | src/adapter.ts:266-270 | The `http`/`https` scheme is recognised in any letter case, and a parsed origin is lower-case |
| AdapterProperties.JoinPathOneSlash | src/adapter.ts:266-271 | Joining a base path and a pathname yields exactly one `/` at the seam, whether or not either side already had one |
| Adapters.Adapter.BuildUrl | src/adapter.ts:414-422 | The URL `request` uses: prepared, with `searchParams` serialised as the query when set, then the URL chain |
| Transports.Transport.SendRequest | src/adapter.ts:346-353 | Each transport call is logged in order, and call number `k` gets the `k`-th scripted outcome |
| Adapters.StatusFailure | src/adapter.ts:358-373 | Status 400-499 fails with "Request failure: [s] text", status of 500 or more with "Server error: [s] text", and any other status goes on |
| Adapters.Adapter.SendOnce | src/adapter.ts:341-384 | One attempt: exactly one transport call, and the result (status classification, payload extraction, validation, after-response chain) is that of the attempt function |
| Adapters.Adapter.RequestInternal | src/adapter.ts:335-404 | At least one transport call, all with the same request; the result and the number of calls are those of the retry function |
| AdapterProperties.RetryingCallsBounded | src/adapter.ts:385-403 | The transport is called at least once and at most `attemptsLeft + 1` times |
| AdapterProperties.RetryingSettlesAtFirstKept | src/adapter.ts:388-402 | The first attempt that is not retried, because it succeeded, had a 2xx status or was the last allowed, decides the result, after exactly that many calls |
| AdapterProperties.RetryingAllThrow | src/adapter.ts:388-402 | A transport that always throws is called once per allowed attempt, and the last thrown value is the result |
| AdapterProperties.NoRetryAfterSuccessStatus | src/adapter.ts:388 | A failure after a 2xx status (validation, extraction, after-response hook) is never retried: exactly one call |
| Adapters.Normalize | src/adapter.ts:441-452 | An `AdapterRequestError` passes through unchanged; anything else becomes "Unexpected error" with the original as cause |
| Adapters.AttemptsLeft | src/adapter.ts:434-440 | Retries are allowed exactly when `autoRetry` is a number above one, and then `autoRetry - 1` of them; no number means none |
| Adapters.Adapter.Send | src/adapter.ts:434-455 | The transport steps of `request`: `requestInternal` with `autoRetry - 1` attempts left, errors normalised and passed once through the error chain; every transport call carries this method, URL, configuration and body |
| AdapterProperties.SendCallsBounded | src/adapter.ts:434-440 | Sending makes between one and `max(1, autoRetry)` transport calls |
| Adapters.Adapter.Dispatch | src/adapter.ts:424-455 | The steps after the URL: a response from the before-request chain is returned as it is, and every failure is normalised; otherwise each transport call carries the method with the URL, configuration and body the chain hands on, replacements included; no call at all when the URL did not build or the chain ended the request |
| Adapters.Adapter.Request | src/adapter.ts:406-456 | The result and the number of transport calls are those of the request function of the adapter's state, and the transport log grows by that many copies of the one request the pipeline builds |
| Adapters.RetryingCallsTransport | src/adapter.ts:335-404 | Every run of `requestInternal` calls the transport at least once |
| Adapters.SentOnlyWhenDispatched | src/adapter.ts:406-456 | `request` calls the transport exactly when the URL builds and the before-request chain lets the request through |
| AdapterProperties.BodyConfigHasContentType | src/adapter.ts:276-305 | The configuration prepared for POST, PATCH, PUT or DELETE always has a `Content-Type` header |
| AdapterProperties.PostSendsItsBody | src/adapter.ts:406-469 | Without before-request hooks, every call of a POST whose URL builds sends the verb POST, the built URL, the prepared headers with a `Content-Type`, and `config.body` |
| AdapterProperties.RequestTransportCalls | src/adapter.ts:406-456 | No transport call when the URL cannot be built or the before-request chain ends the request; a response from that chain is returned unchanged; otherwise between one and `max(1, autoRetry)` calls |
| Adapters.Adapter.Get | src/adapter.ts:458-461 | `request("GET", url, config)`: the result, the call count and every request the transport receives, with no body |
| Adapters.Adapter.Post | src/adapter.ts:463-469 | `request("POST", url, config, config.body)`: the result, the call count and every request the transport receives, whose body is `config.body` unless a before-request hook replaces it |
| Adapters.Adapter.Patch | src/adapter.ts:471-477 | `request("PATCH", url, config, config.body)`: the result, the call count and every request the transport receives, whose body is `config.body` unless a before-request hook replaces it |
| Adapters.Adapter.Put | src/adapter.ts:479-485 | `request("PUT", url, config, config.body)`: the result, the call count and every request the transport receives, whose body is `config.body` unless a before-request hook replaces it |
| Adapters.Adapter.Delete | src/adapter.ts:487-493 | `request("DELETE", url, config, config.body)`: the result, the call count and every request the transport receives, whose body is `config.body` unless a before-request hook replaces it |
| Adapters.Adapter.Options | src/adapter.ts:495-498 | `request("OPTIONS", url, config)`: the result, the call count and every request the transport receives, with no body |
| Adapters.Adapter.Extending | src/adapter.ts:500-529 | A child adapter: the parent as `extendsFrom`, the same transport, and empty own lists |
| Adapters.Adapter.Extend | src/adapter.ts:500-529 | The child has the parent as `extendsFrom` and the same transport; its base config and headers are the merge of the parent's with the options; its own lists hold only the new handlers; each flattened chain is the parent's followed by the new handlers |
| Adapters.Adapter.AddHandler | src/adapter.ts:577-592 | The handler is appended to the named list only; an unknown kind changes nothing |
| Adapters.Adapter.Removed | src/adapter.ts:598-613 | Removing from one list is `arrRemove` |
| Adapters.Adapter.RemoveHandler | src/adapter.ts:598-613 | The first occurrence is removed from the named list only; other lists, the configuration and an unknown kind are untouched |
| Endpoints.ResolveArgs | src/adapter-endpoint.ts:189-208 | Two arguments are (urlParams, config); one argument is the config when the template has no placeholders and the URL parameters otherwise |
| Endpoints.EndpointUrlIsTemplateText | src/adapter-endpoint.ts:214-219 | For a template without placeholders an entry point requests the template text, with or without URL parameters |
| Endpoints.FirstMissingIsFirst | src/adapter-endpoint.ts:155-187 | No error exactly when every required name is present; otherwise the reported name is required, missing, and the earliest such; names starting with `?` are skipped |
| Endpoints.AdapterEndpoint.ValidateSearchParams | src/adapter-endpoint.ts:155-187 | The result is "Missing a required search param: <name>" for the first missing required name, nothing otherwise, and nothing when no names are declared |
| Endpoints.WithValidatorLookup | src/adapter-endpoint.ts:223-229 | The attached `validate` always overrides the caller's, even when `undefined`; every other key is the caller's |
| Endpoints.EntryChecksOrder | src/adapter-endpoint.ts:214-229 | URL errors come first, then the first missing search parameter whatever the body, then "Invalid request body"; a call passes exactly when none applies, with the URL and the caller's configuration |
| Endpoints.NoBodyForGetOrOptions | src/adapter-endpoint.ts:210-230 | GET and OPTIONS never check a body and send none |
| Endpoints.FailedCheckNeverSent | src/adapter-endpoint.ts:243-258 | A failed check rejects with no transport call; a passed one delegates to `request` with the entry point's own method and its validator attached, and its rejection is the entry point's |
| Endpoints.EntrySendsCheckedBody | src/adapter-endpoint.ts:232-259 | Without before-request hooks, a passed entry point sends its own verb to the built URL; POST, PATCH, PUT and DELETE send the `config.body` that was checked and that the request-body validator accepted; GET and OPTIONS send no body |
| Endpoints.WithValidatorKeepsKey | src/adapter-endpoint.ts:223-229 | Attaching the validator changes no property other than `validate` |
| Endpoints.EntryConfigKeepsKey | src/adapter-endpoint.ts:223-229 | The configuration an entry point hands to `request` agrees with the base configuration extended by the caller's on every key but `headers`, `xhr` and `validate` |
| Endpoints.AdapterEndpoint.constructor | src/adapter-endpoint.ts:135-153 | The template is compiled once from `params.url` |
| Endpoints.AdapterEndpoint.Check | src/adapter-endpoint.ts:212-249 | Runs the entry checks: the URL, the search parameters and the body |
| Endpoints.AdapterEndpoint.Delegate | src/adapter-endpoint.ts:223-229 | Delegates a checked call to the adapter's `request` with the method's validator attached; the result, the call count and the requests sent are those of `request` with the entry point's body |
| Endpoints.AdapterEndpoint.Send | src/adapter-endpoint.ts:210-259 | The result, the number of transport calls and every request the transport receives are those of the entry function of the adapter's state; a failed check sends nothing |
| Endpoints.AdapterEndpoint.Get | src/adapter-endpoint.ts:210-230 | The entry point for GET: result, call count and the requests sent, with no body |
| Endpoints.AdapterEndpoint.Post | src/adapter-endpoint.ts:232-259 | The entry point for POST: result, call count and the requests sent, which carry the checked `config.body` |
| Endpoints.AdapterEndpoint.Patch | src/adapter-endpoint.ts:261-288 | The entry point for PATCH: result, call count and the requests sent, which carry the checked `config.body` |
| Endpoints.AdapterEndpoint.Put | src/adapter-endpoint.ts:290-317 | The entry point for PUT: result, call count and the requests sent, which carry the checked `config.body` |
| Endpoints.AdapterEndpoint.Delete | src/adapter-endpoint.ts:319-348 | The entry point for DELETE: result, call count and the requests sent, which carry the checked `config.body` |
| Endpoints.AdapterEndpoint.Options | src/adapter-endpoint.ts:350-370 | The entry point for OPTIONS: result, call count and the requests sent, with no body |
| Endpoints.AdapterEndpoint.Url | src/adapter-endpoint.ts:372-404 | `url()` builds the URL with no request and no required-parameter check: the template generated with the parameters (an empty record when none are given), prepared against the base configuration extended by the call's, the call's own `searchParams` as the query when present, then the URL chain |
| Endpoints.UrlArgsAsEntryArgs | src/adapter-endpoint.ts:375-382 | With at most two arguments, and two only for a template with placeholders, `url()` reads its arguments as the entry points do |
| Endpoints.BuiltUrlAgrees | src/adapter-endpoint.ts:388-403 | A configuration that agrees with `url()`'s on base URL and base path, with the call's own search parameters, builds the URL `url()` builds |
| Endpoints.EntrySearchParams | src/adapter-endpoint.ts:393-396 | The search parameters an entry point's request carries are the call's own when the base configuration sets none the call does not replace |
| Endpoints.UrlIsEntryUrl | src/adapter-endpoint.ts:372-404 | Under those conditions, with URL parameters given (or none needed) and no before-request hook, `url()` fails exactly when the entry point sends nothing, and otherwise returns the URL every call of the entry point goes to |
| Endpoints.UrlWithoutParamsDiverges | src/adapter-endpoint.ts:214-219 | For a template starting with a required placeholder and no arguments, the entry point requests the template text while `url()` throws |
| Endpoints.NewEndpoint | src/adapter.ts:531-571 | `endpoint()` uses the adapter itself without options, or an extension of it with them, and compiles the template |
| Dedup.Notify | src/extensions/deduplicator.ts:39-49 | Every waiter is notified, in registration order, with the same settlement |
| Dedup.NotifyInforms | src/extensions/deduplicator.ts:39-49 | After settling, every registered waiter has been notified |
| Dedup.PendingRequest.constructor | src/extensions/deduplicator.ts:14-19 | Not done, no result, no waiters |
| Dedup.PendingRequest.Failed | src/extensions/deduplicator.ts:21-23 | Failed only once done, and exactly when the waiters are told of a rejection |
| Dedup.PendingRequest.GetResolvable | src/extensions/deduplicator.ts:25-37 | Once done, the promise is settled at once with the stored result or reason; before that the waiter is appended; nothing else changes |
| Dedup.PendingRequest.NotifyAll | src/extensions/deduplicator.ts:42-48 | The `forEach` loop notifies each waiter in order |
| Dedup.PendingRequest.Resolve | src/extensions/deduplicator.ts:39-43 | Done, the response stored, not failed, every waiter fulfilled with it |
| Dedup.PendingRequest.Reject | src/extensions/deduplicator.ts:45-49 | Done, the reason stored, every waiter rejected with it; failed exactly when no result was stored before |
| Dedup.Deduplicator.constructor | src/extensions/deduplicator.ts:66-78 | No adapters, no entries; `shouldDedup` defaults to accepting every request |
| Dedup.Deduplicator.Register | src/extensions/deduplicator.ts:80-130 | Idempotent per adapter; otherwise one fresh handler is appended to the before-request list and recorded; nothing else changes |
| Dedup.Deduplicator.Unregister | src/extensions/deduplicator.ts:132-138 | The recorded handler's first occurrence is removed from the before-request list and the adapter is forgotten; an unknown adapter is a no-op |
| Dedup.UnregisterUndoesRegister | src/extensions/deduplicator.ts:124-137 | Unregistering right after registering restores the handler list |
| Dedup.RegisteredHandlerIsInert | src/extensions/deduplicator.ts:85-91 | The handler as registered leaves every before-request chain's outcome unchanged (see Findings) |
| Dedup.Deduplicator.Handle | src/extensions/deduplicator.ts:85-122 | Only a GET accepted by `shouldDedup` is handled. An existing entry for the URL is reused: a settled one answers at once, a pending one gets the waiter appended, nothing else about it changes and nothing new is launched. Otherwise one fresh entry holding just this waiter is inserted before the shared request is launched with `autoRetry - 1` attempts |
| Dedup.Deduplicator.Settle | src/extensions/deduplicator.ts:107-117 | The entry is settled and every waiter notified; it is deleted at once if it failed or no time window is set, otherwise it stays |
| Dedup.Deduplicator.Expire | src/extensions/deduplicator.ts:111-113 | The deferred deletion removes exactly that key |
| Dedup.Deduplicator.Complete | src/extensions/deduplicator.ts:100-117 | The shared request runs `requestInternal` once for all waiters, sending the launched GET on every call; the entry stores the response or the reason and notifies every waiter; it is dropped from `pending` if it failed or no time window is set and kept otherwise; the registered adapters are unchanged |
| BaseAdapters.ParseArguments | src/BaseAdapter/base-adapter.ts:26-52 | One argument is the URL parameters when the template has placeholders, and otherwise is spread with empty parameters; two are parameters then spread options; any other count gives empty parameters |
| BaseAdapters.OptionsAloneOrAfterEmptyParams | src/BaseAdapter/base-adapter.ts:32-43 | For a template with no placeholders, `[options]` parses like `[{}, options]` |
| BaseAdapters.RequestValidation | src/BaseAdapter/base-adapter.ts:112-130 | A `TypeError` "Adapter error: invalid request data…" is raised exactly when request validation is on, the method's definition is known, and it rejects the data |
| BaseAdapters.ResponseValidation | src/BaseAdapter/base-adapter.ts:73-110 | Skipped when response validation is off or the method's definition is unknown; otherwise the extracted payload must pass |
| BaseAdapters.FinishedReturnsRaw | src/BaseAdapter/base-adapter.ts:150-169 | A successful `sendRequest` returns the transport's raw response unchanged; a transport failure propagates |
| BaseAdapters.InvalidRequestNotSent | src/BaseAdapter/base-adapter.ts:150-162 | Invalid request data is rejected before the transport is called |
| BaseAdapters.DefaultsNeverValidate | src/BaseAdapter/base-adapter.ts:132-148 | With the default statics nothing is validated |
| BaseAdapters.TypeDefForOwnField | src/BaseAdapter/base-adapter.ts:54-90 | Each method reads a type definition of its own: changing one method's definition changes what that method reads and nothing any other reads; with nothing declared every method reads `Unknown` |
| BaseAdapters.LegacyXhr.Dummy | src/BaseAdapter/dummy-xhr.ts:3-10 | The dummy transport fails every call with "Method not implemented." |
| BaseAdapters.LegacyXhr.SendRequest | src/BaseAdapter/base-adapter.ts:157-162 | Each call is logged in order and gets the scripted reply |
| BaseAdapters.AdapterClass.Base | src/BaseAdapter/base-adapter.ts:132-148 | `BaseAdapter` itself: default statics, no generator yet, the dummy transport |
| BaseAdapters.AdapterClass.Extending | src/BaseAdapter/base-adapter.ts:16-18 | A subclass with its own statics and transport and no generator of its own |
| BaseAdapters.AdapterClass.GetUrlGeneratorAsWritten | src/BaseAdapter/base-adapter.ts:18-24 | As written: a generator found anywhere up the class chain is returned; otherwise the own template is compiled and cached |
| BaseAdapters.InheritedCacheShadowsOwnTemplate | src/BaseAdapter/base-adapter.ts:18-24 | A subclass of a class that already compiled "/a" gets "/a" and not its own template "/b" |
| BaseAdapters.AdapterClass.GetUrlGenerator | src/BaseAdapter/base-adapter.ts:20-24 | The class's own template is compiled at most once; later calls return the cached generator |
| BaseAdapters.AdapterClass.GenerateUrl | src/BaseAdapter/base-adapter.ts:171-176 | The URL is the class's own template generated with the parameters; this uses the corrected per-class cache (see Findings) |
| BaseAdapters.AdapterClass.SendRequest | src/BaseAdapter/base-adapter.ts:150-169 | Parse, generate from the class's own template (the corrected per-class cache, see Findings), validate the request (a failure sends nothing), send exactly one request, validate the response, and return the raw response |
| BaseAdapters.AdapterClass.Delete | src/BaseAdapter/base-adapter.ts:178-183 | `sendRequest("DELETE", args)`, through the corrected per-class cache |
| BaseAdapters.AdapterClass.Get | src/BaseAdapter/base-adapter.ts:185-190 | `sendRequest("GET", args)`, through the corrected per-class cache |
| BaseAdapters.AdapterClass.Options | src/BaseAdapter/base-adapter.ts:192-197 | `sendRequest("OPTIONS", args)`, through the corrected per-class cache |
| BaseAdapters.AdapterClass.Patch | src/BaseAdapter/base-adapter.ts:199-204 | `sendRequest("PATCH", args)`, through the corrected per-class cache |
| BaseAdapters.AdapterClass.Post | src/BaseAdapter/base-adapter.ts:206-211 | `sendRequest("POST", args)`, through the corrected per-class cache |
| BaseAdapters.AdapterClass.Put | src/BaseAdapter/base-adapter.ts:213-218 | `sendRequest("PUT", args)`, through the corrected per-class cache |
| StandardSchema.Validate | src/standar-schema/validate.ts:4-27 | Dispatches on `isStandardSchema`, the "~standard" key that only a schema carries: a predicate's boolean is returned as is; a schema's Promise throws "Asynchronous validation is not supported."; issues give `false` and at most one `getIssues` call with exactly those issues; no issues give `true` with no call |
| StandardSchema.SchemaVerdict | src/standar-schema/validate.ts:13-24 | A schema accepts exactly when it answers synchronously without issues; it rejects exactly when issues are present; a supplied `getIssues` hears the schema's own issues |
| StandardSchema.PredicateAsSchema | src/standar-schema/validate.ts:4-26 | A predicate and a schema that reports issues exactly where the predicate fails give the same verdict |
| Extend.ExtendObject | src/utils/extend.ts:1-12 | The object built key by key is the layered object |
| Extend.LayeredLookup | src/utils/extend.ts:5-9 | Every key of `assign` reads back with `assign`'s value, even `undefined`; every other key falls back to `base` |
| Extend.LayeredNesting | src/utils/extend.ts:1-12 | In `extend(extend(a, b), c)` a lookup tries `c`, then `b`, then `a` |
| TrimChar.TrimCharStart | src/utils/trim-char.ts:1-6 | Exactly the first character is removed when the string starts with `char`, otherwise the string is unchanged; an empty string stays empty |
| TrimChar.TrimCharEnd | src/utils/trim-char.ts:8-13 | Exactly the last character is removed when the string ends with `char`, otherwise the string is unchanged; an empty string stays empty |
| TrimChar.TrimCharStartIsShortSuffix | src/utils/trim-char.ts:1-6 | The result is a suffix of the input, at most one character shorter |
| TrimChar.TrimCharEndIsShortPrefix | src/utils/trim-char.ts:8-13 | The result is a prefix of the input, at most one character shorter |
| TrimChar.TrimCharStartRemovesIff | src/utils/trim-char.ts:1-6 | With a one-character `char`, a character is removed exactly when the string starts with it |
| TrimChar.TrimCharEndRemovesIff | src/utils/trim-char.ts:8-13 | With a one-character `char`, a character is removed exactly when the string ends with it |
| TrimChar.TrimsAreNotIdempotent | src/utils/trim-char.ts:1-13 | "//a" trims to "/a" and only then to "a", and the same holds at the end |
| ArrRemove.IndexOf | src/utils/arr-remove.ts:2 | The index of the first occurrence, or -1 exactly when the item is absent |
| ArrRemove.WithoutFirstSplits | src/utils/arr-remove.ts:2-5 | Removal cuts the array at the first occurrence, and leaves it whole when the item is absent |
| ArrRemove.RemoveFirst | src/utils/arr-remove.ts:1-6 | The first occurrence is removed and the length drops by one; an absent item leaves the array unchanged; the rest keep their order; the multiset loses exactly one copy |
| ArrRemove.RemovingKeepsLaterDuplicates | src/utils/arr-remove.ts:2-4 | A later duplicate of the item is still there, one position earlier |

## Left out

- Timers and cancellation are not modelled:
  - `createTimeout` and the abort signal (src/adapter.ts:307-333);
  - the retry delay;
  - the deduplicator's `setTimeout`.

  A timeout is one of the transport's scripted failures. The retry delay is a no-op. The deferred
  deletion is the separate step `Dedup.Deduplicator.Expire`. An external `abortSignal` takes
  effect only when `timeout` is set, and that is not modelled either.
- Asynchrony is split into steps. `Dedup.Deduplicator.Handle` runs up to the returned promise.
  `Dedup.Deduplicator.Complete` and `Dedup.Deduplicator.Settle` are the shared request and its
  `then`/`catch`/`finally` continuation. Interleavings other than these steps in sequence are
  not modelled.
- Waiting promises are waiter ids, and their settlement is a log of notifications. Reference
  equality of the shared response is represented by the one `Response` value every waiter
  receives.
- The transports (fetch, axios, the JSON serialisation of bodies) are a scripted transport. Call
  `k` gets the `k`-th scripted outcome, and payload extraction is a function of the raw response.
- The foreign libraries are small models in this project, not the real implementations:
  - url-templater: `Compile` and `Generate` support required `{name}` and optional `{?name}`
    placeholders, and no other template syntax;
  - dilswer type definitions: a predicate on values;
  - the platform `URL`, `Headers` and `URLSearchParams`: `Urls`, `HeaderMap` and `Urls.SerializeForm`.

  URL resolution covers absolute `http`/`https` URLs in any letter case, scheme-relative
  `//host` inputs, paths and queries.
- Adapters.PrepareUrl: the URL parser is reduced. Dot segments (`.`, `..`), the percent-encoding
  of paths and queries, backslashes read as slashes, default ports, user info, fragments,
  surrounding whitespace and schemes other than `http`/`https` are not modelled. Such inputs
  resolve as plain text or are rejected, where the platform would normalise them.
- `window.location.origin` is a parameter of the adapter, absent outside a browser.
- Headers are a map from lower-cased names. Iteration order and multi-valued `Set-Cookie` are
  not modelled. Aliasing of a `Headers` object shared between configurations is not modelled.
- `arrRemove` works on handler lists held as `seq` fields, and `splice` in place is a
  reassignment of the field.
- Adapters.Adapter.constructor: the source stores the caller's option arrays themselves
  (src/adapter.ts:171-174), so a later `addHandler` or `removeHandler` also changes the caller's
  array and every other adapter built from it. The model copies the lists, and that sharing is
  not modelled.
- Numbers are integers (`Js.Num`, `Configs.Number`). `NaN`, infinities and fractions are not
  modelled. In particular a fractional `autoRetry` such as 2.5 leaves 1.5 attempts, which allows
  three calls.
- Adapters.AttemptsLeft: stated for integer `autoRetry` only, for the reason above.
- RunAfterBuildUrlHandlers: a URL hook returns a URL or nothing and cannot throw. In the source a
  throwing URL hook runs inside the `try` of `request` (src/adapter.ts:413-422), so its throw
  becomes an "Unexpected error" that goes through the error chain, and nothing is sent.
- RunAfterRequestErrorHandlers: an error hook returns an error or nothing and cannot throw. In the
  source a throwing error hook ends the chain, and its thrown value escapes `request`
  un-normalised (src/adapter.ts:454).
- Validate: a validator is a total predicate and cannot throw. This holds for the response
  validator `config.validate`, the endpoint's request-body validator and
  `StandardSchema.Validate`. In the source a response validator that throws fails that attempt
  (src/adapter.ts:376-380). The attempt is retried unless its status was 2xx, and the error then
  becomes an "Unexpected error". A throwing request-body validator rejects the entry point with
  its own error.
- `searchParams` given as a string, an array of pairs or a `URLSearchParams` object is not
  modelled; only a record is. A record's keys are serialised in insertion order, whereas
  `URLSearchParams` over a JavaScript object lists integer-like keys first, in ascending order.
- `Rejects` (src/utils/rejects-decorator.ts) turns a synchronous throw into a rejected promise.
  Every entry point returns a `Result`, so a rejection and a throw are the same `Err`.
- `src/extensions/async-queue.ts` is not part of this model. It limits concurrency through a
  foreign queue library.
- Type-level code has no runtime behaviour and is not modelled:
  - src/substitutor.ts, src/typed-promise.ts, src/BaseAdapter/types.ts;
  - the conditional types of src/adapter-endpoint.ts.
- `AdapterResponse` (src/response.ts:3-11) declares no static `is`, yet `request` and
  `runBeforeRequestHandlers` call `AdapterResponse.is(...)` (src/adapter.ts:184, 193, 426). As
  written, each of those calls throws a TypeError. The result of the before chain is always a
  truthy tuple or a response, so the call at src/adapter.ts:426 is always reached. Every `request`
  therefore ends in its `catch`, becomes an "Unexpected error" that goes through the error chain,
  and never reaches the transport. On an extended adapter the call at src/adapter.ts:184 throws
  first. The model assumes the evident intent: an `instanceof AdapterResponse` test, which is the
  `Respond` case of a before-request outcome.
- The constructor of `AdapterRequestError` (src/request-error.ts) takes arguments in a different
  order from its call sites. `RequestErrors.RequestError` holds the fields the call sites mean:
  reason, configuration, method, URL, status, response and cause.
- Where the code and its comments or documentation disagree, the model follows the code:
  - `autoRetry: N` allows at most `max(1, N)` transport calls, not `N + 1`, because `request`
    passes `autoRetry - 1` attempts left;
  - a response returned by a before-request handler is returned without running the
    after-response chain;
  - `url()` does not always build the URL an entry point requests. With a template that has
    placeholders and no URL parameters, an entry point requests the template text as written,
    while `url()` generates the template with an empty record (`Endpoints.UrlWithoutParamsDiverges`).
    The two also read a third argument, or a second one for a template without placeholders,
    differently. The base configuration's `searchParams` reach the request but not `url()`.
    `Endpoints.UrlIsEntryUrl` proves them equal outside these cases.

## Findings

| source | as written | input that shows it | evidently intended | confidence | as-written member | corrected member |
|---|---|---|---|---|---|---|
| src/BaseAdapter/base-adapter.ts:18-24 | `getUrlGenerator` reads `this.urlGenerator` through the static prototype chain, so a subclass sees a generator its parent already cached | `class A extends BaseAdapter { static URL_TEMPLATE = "/a" }` and `class B extends A { static URL_TEMPLATE = "/b" }`; calling `A.get()` and then `B.get()` makes B request "/a" | Each class compiles and caches its own template | medium, not executed | BaseAdapters.AdapterClass.GetUrlGeneratorAsWritten, BaseAdapters.InheritedCacheShadowsOwnTemplate | BaseAdapters.AdapterClass.GetUrlGenerator |
| src/extensions/deduplicator.ts:85-91 | The registered handler acts only when its fourth argument `method` is "GET", but `runBeforeRequestHandlers` (src/adapter.ts:177-202) calls handlers with three arguments | Two overlapping `adapter.get("http://localhost/api/devices")` calls on an adapter with a registered `Deduplicator`: the handler returns nothing for both, and both reach the transport | Overlapping GETs to one URL share one transport call, as __tests__/extensions/deduplicator.test.ts:20-62 expects | high, not executed | Dedup.RegisteredHandlerIsInert | Dedup.Deduplicator.Handle |

=== FILE: adapter.dfy ===
/** The request pipeline of `Adapter` (src/adapter.ts). */
module Adapters {
  import opened Js
  import opened HeaderMap
  import opened Configs
  import opened RequestErrors
  import opened Transports
  import opened Urls
  import Objects = Extend
  import TrimChar
  import ArrRemove

  /** `AdapterResponse` (src/response.ts): the adapter, the effective configuration, the
    * validated payload and the raw transport response. */
  datatype Response = Response(adapter: Adapter, config: Config, data: Value, raw: RawResponse)

  /** What a before-request handler resolves to: nothing, a replacement `[url, config, body]`,
    * a ready response, or a rejection. */
  datatype BeforeOutcome =
    | Proceed
    | Override(url: Url, config: Config, body: Value)
    | Respond(response: Response)
    | Reject(thrown: Thrown)

  /** What an after-response handler resolves to: nothing, a replacement response, or a rejection. */
  datatype AfterOutcome = KeepResponse | ReplaceResponse(response: Response) | RejectResponse(thrown: Thrown)

  /** The function a handler is, by the kind of hook it was written for. */
  datatype Behaviour =
    | BeforeRequest(onBefore: (Url, Config, Value) -> BeforeOutcome)
    | AfterResponse(onAfter: Response -> AfterOutcome)
    | AfterBuildUrl(onUrl: Url -> Option<Url>)
    | OnRequestError(onError: RequestError -> Option<RequestError>)

  /** A handler function; its identity is its object identity, as for a JavaScript closure. */
  class Handler {
    const behaviour: Behaviour

    constructor (behaviour: Behaviour)
      ensures this.behaviour == behaviour
    {
      this.behaviour := behaviour;
    }
  }

  // --- hook chains: a truthy return replaces the value, a void return keeps it ---

  /** A chain either continues with a (possibly replaced) state or stops early with an exit value. */
  datatype Flow<S, X> = Continue(state: S) | Stop(exit: X)

  /** The state a before-request chain threads through: `[url, config, body]`. */
  type Prepared = (Url, Config, Value)

  /** How a before-request chain can stop early. */
  datatype BeforeExit = Responded(response: Response) | Raised(thrown: Thrown)

  /** One before-request handler applied to `[url, config, body]`; a handler of another kind
    * is never registered in this list and is modelled as returning nothing. */
  function BeforeStep(h: Handler, p: Prepared): Flow<Prepared, BeforeExit>
  {
    match h.behaviour
    case BeforeRequest(f) =>
      (match f(p.0, p.1, p.2)
       case Proceed => Continue(p)
       case Override(u, c, b) => Continue((u, c, b))
       case Respond(r) => Stop(Responded(r))
       case Reject(t) => Stop(Raised(t)))
    case _ => Continue(p)
  }

  /** One list of before-request handlers, in order; a returned response ends the chain. */
  function RunBefore(hs: seq<Handler>, start: Prepared): Flow<Prepared, BeforeExit>
    decreases |hs|
  {
    if hs == [] then Continue(start)
    else
      match RunBefore(hs[..|hs| - 1], start)
      case Stop(x) => Stop(x)
      case Continue(p) => BeforeStep(hs[|hs| - 1], p)
  }

  /** Running two lists one after the other is running their concatenation. */
  lemma {:induction false} RunBeforeAppend(l: seq<Handler>, hs: seq<Handler>, start: Prepared)
    ensures RunBefore(l, start).Stop? ==> RunBefore(l + hs, start) == RunBefore(l, start)
    ensures RunBefore(l, start).Continue? ==> RunBefore(l + hs, start) == RunBefore(hs, RunBefore(l, start).state)
    decreases |hs|
  {
    if hs == [] {
      assert l + hs == l;
    } else {
      assert (l + hs)[..|l + hs| - 1] == l + hs[..|hs| - 1];
      RunBeforeAppend(l, hs[..|hs| - 1], start);
    }
  }

  /** Once a prefix of the list has stopped the chain, the rest of the list never runs. */
  lemma {:induction false} RunBeforeStopped(hs: seq<Handler>, i: nat, start: Prepared)
    requires i <= |hs| && RunBefore(hs[..i], start).Stop?
    ensures RunBefore(hs, start) == RunBefore(hs[..i], start)
    decreases |hs| - i
  {
    if i < |hs| {
      var init := hs[..|hs| - 1];
      assert init[..i] == hs[..i];
      RunBeforeStopped(init, i, start);
    } else {
      assert hs[..i] == hs;
    }
  }

  /** One after-response handler applied to a response. */
  function AfterStep(h: Handler, r: Response): Flow<Response, Thrown>
  {
    match h.behaviour
    case AfterResponse(f) =>
      (match f(r)
       case KeepResponse => Continue(r)
       case ReplaceResponse(r') => Continue(r')
       case RejectResponse(t) => Stop(t))
    case _ => Continue(r)
  }

  /** One list of after-response handlers, in order; a rejection ends the chain. */
  function RunAfter(hs: seq<Handler>, start: Response): Flow<Response, Thrown>
    decreases |hs|
  {
    if hs == [] then Continue(start)
    else
      match RunAfter(hs[..|hs| - 1], start)
      case Stop(x) => Stop(x)
      case Continue(r) => AfterStep(hs[|hs| - 1], r)
  }

  /** Running two lists one after the other is running their concatenation. */
  lemma {:induction false} RunAfterAppend(l: seq<Handler>, hs: seq<Handler>, start: Response)
    ensures RunAfter(l, start).Stop? ==> RunAfter(l + hs, start) == RunAfter(l, start)
    ensures RunAfter(l, start).Continue? ==> RunAfter(l + hs, start) == RunAfter(hs, RunAfter(l, start).state)
    decreases |hs|
  {
    if hs == [] {
      assert l + hs == l;
    } else {
      assert (l + hs)[..|l + hs| - 1] == l + hs[..|hs| - 1];
      RunAfterAppend(l, hs[..|hs| - 1], start);
    }
  }

  /** Once a prefix of the list has rejected, the rest of the list never runs. */
  lemma {:induction false} RunAfterStopped(hs: seq<Handler>, i: nat, start: Response)
    requires i <= |hs| && RunAfter(hs[..i], start).Stop?
    ensures RunAfter(hs, start) == RunAfter(hs[..i], start)
    decreases |hs| - i
  {
    if i < |hs| {
      var init := hs[..|hs| - 1];
      assert init[..i] == hs[..i];
      RunAfterStopped(init, i, start);
    } else {
      assert hs[..i] == hs;
    }
  }

  /** One build-URL handler applied to a URL. */
  function UrlStep(h: Handler, u: Url): Url
  {
    match h.behaviour
    case AfterBuildUrl(f) => if f(u).Some? then f(u).value else u
    case _ => u
  }

  /** One list of build-URL handlers, in order. */
  function RunUrl(hs: seq<Handler>, start: Url): Url
    decreases |hs|
  {
    if hs == [] then start else UrlStep(hs[|hs| - 1], RunUrl(hs[..|hs| - 1], start))
  }

  /** Running two lists one after the other is running their concatenation. */
  lemma {:induction false} RunUrlAppend(l: seq<Handler>, hs: seq<Handler>, start: Url)
    ensures RunUrl(l + hs, start) == RunUrl(hs, RunUrl(l, start))
    decreases |hs|
  {
    if hs == [] {
      assert l + hs == l;
    } else {
      assert (l + hs)[..|l + hs| - 1] == l + hs[..|hs| - 1];
      RunUrlAppend(l, hs[..|hs| - 1], start);
    }
  }

  /** One request-error handler applied to an error. */
  function ErrorStep(h: Handler, e: RequestError): RequestError
  {
    match h.behaviour
    case OnRequestError(f) => if f(e).Some? then f(e).value else e
    case _ => e
  }

  /** One list of request-error handlers, in order. */
  function RunErrors(hs: seq<Handler>, start: RequestError): RequestError
    decreases |hs|
  {
    if hs == [] then start else ErrorStep(hs[|hs| - 1], RunErrors(hs[..|hs| - 1], start))
  }

  /** Running two lists one after the other is running their concatenation. */
  lemma {:induction false} RunErrorsAppend(l: seq<Handler>, hs: seq<Handler>, start: RequestError)
    ensures RunErrors(l + hs, start) == RunErrors(hs, RunErrors(l, start))
    decreases |hs|
  {
    if hs == [] {
      assert l + hs == l;
    } else {
      assert (l + hs)[..|l + hs| - 1] == l + hs[..|hs| - 1];
      RunErrorsAppend(l, hs[..|hs| - 1], start);
    }
  }

  // --- options and configuration ---

  /** `AdapterOptions`; None is a null or undefined option. */
  datatype AdapterOptions = AdapterOptions(
    defaultTimeout: Option<int>,
    defaultAutoRetry: Option<int>,
    defaultRetryDelay: Option<int>,
    defaultXhr: Option<map<string, Value>>,
    defaultHeaders: Option<seq<(string, string)>>,
    baseURL: Option<string>,
    basePath: Option<string>,
    onBeforeRequest: Option<seq<Handler>>,
    onAfterResponse: Option<seq<Handler>>,
    onAfterBuildUrl: Option<seq<Handler>>,
    onRequestError: Option<seq<Handler>>)

  /** `options` left undefined. */
  const NoOptions := AdapterOptions(None, None, None, None, None, None, None, None, None, None, None)

  function OrEmpty(hs: Option<seq<Handler>>): seq<Handler>
  {
    if hs.Some? then hs.value else []
  }

  /** The configuration entry an option provides, if it is set. */
  function DefaultFor(o: AdapterOptions, k: Key): Option<Prop>
  {
    match k
    case Timeout => if o.defaultTimeout.Some? then Some(Number(o.defaultTimeout.value)) else None
    case AutoRetry => if o.defaultAutoRetry.Some? then Some(Number(o.defaultAutoRetry.value)) else None
    case RetryDelay => if o.defaultRetryDelay.Some? then Some(Number(o.defaultRetryDelay.value)) else None
    case Xhr => if o.defaultXhr.Some? then Some(XhrOptions(o.defaultXhr.value)) else None
    case BaseURL => if o.baseURL.Some? then Some(Text(o.baseURL.value)) else None
    case BasePath => if o.basePath.Some? then Some(Text(o.basePath.value)) else None
    case _ => None
  }

  /** The base configuration the options describe: exactly the entries they set. */
  function OptionsConfig(o: AdapterOptions): (c: Config)
    ensures forall k :: (if k in c then Some(c[k]) else None) == DefaultFor(o, k)
  {
    Put(Put(Put(Put(Put(Put(map[], Timeout, DefaultFor(o, Timeout)), AutoRetry, DefaultFor(o, AutoRetry)),
      RetryDelay, DefaultFor(o, RetryDelay)), Xhr, DefaultFor(o, Xhr)), BaseURL, DefaultFor(o, BaseURL)),
      BasePath, DefaultFor(o, BasePath))
  }

  /** An assignment guarded by `!= null`: the entry is written only when the option is set. */
  function Put(c: Config, k: Key, v: Option<Prop>): Config
  {
    if v.Some? then c[k := v.value] else c
  }

  /** The base headers the options describe: the default headers, or none. */
  function OptionsHeaders(o: AdapterOptions): Headers
  {
    if o.defaultHeaders.Some? then FromEntries(o.defaultHeaders.value) else Empty
  }

  /** `initOptionsToBaseConfig`: copy each non-null default into a fresh configuration. The
    * configuration holds exactly the entries the options set; the headers are the default
    * headers, or none. */
  method InitOptionsToBaseConfig(o: AdapterOptions) returns (conf: Config, headers: Headers)
    ensures conf == OptionsConfig(o) && headers == OptionsHeaders(o)
  {
    conf := map[];
    if o.defaultTimeout.Some? {
      conf := conf[Timeout := Number(o.defaultTimeout.value)];
    }
    if o.defaultAutoRetry.Some? {
      conf := conf[AutoRetry := Number(o.defaultAutoRetry.value)];
    }
    if o.defaultRetryDelay.Some? {
      conf := conf[RetryDelay := Number(o.defaultRetryDelay.value)];
    }
    if o.defaultXhr.Some? {
      conf := conf[Xhr := XhrOptions(o.defaultXhr.value)];
    }
    if o.baseURL.Some? {
      conf := conf[BaseURL := Text(o.baseURL.value)];
    }
    if o.basePath.Some? {
      conf := conf[BasePath := Text(o.basePath.value)];
    }
    if o.defaultHeaders.Some? {
      headers := FromEntries(o.defaultHeaders.value);
    } else {
      headers := Empty;
    }
  }

  /** What `mergeConfigs` computes: headers copied from the base and overwritten by the
    * target's; the target configuration layered over the base's; `xhr` layered when both
    * sides have one. */
  function MergedConfig(baseConf: Config, baseHeaders: Headers, targetConf: Config, targetHeaders: Prop): (Config, Headers)
  {
    var headers := match HeadersInitOf(targetHeaders)
      case Some(t) => baseHeaders + t
      case None => baseHeaders;
    var conf := Objects.Layered(baseConf, Some(targetConf));
    var conf' :=
      if XhrOf(targetConf).Some? && XhrOf(baseConf).Some?
      then conf[Xhr := XhrOptions(Objects.Layered(XhrOf(baseConf).value, XhrOf(targetConf)))]
      else conf;
    (conf', headers)
  }

  const ContentTypeValue := "application/json;charset=UTF-8"

  /** `addContentType`: set the JSON content type unless one is already set. */
  function AddContentType(h: Headers): (r: Headers)
    ensures Has(h, "Content-Type") ==> r == h
    ensures !Has(h, "Content-Type") ==> Get(r, "Content-Type") == Some(ContentTypeValue)
  {
    if Has(h, "Content-Type") then h else Set(h, "Content-Type", ContentTypeValue)
  }

  /** `addContentType` touches no header other than `Content-Type`, whatever its spelling. */
  lemma AddContentTypeKeepsOthers(h: Headers, name: string)
    requires Lower(name) != Lower("Content-Type")
    ensures Get(AddContentType(h), name) == Get(h, name)
  {
  }

  /** What `createRequestConfig` computes from the adapter's base configuration and headers. */
  function RequestConfigFor(m: Method, config: Option<Config>, baseConf: Config, baseHeaders: Headers): Config
  {
    match config
    case None =>
      var headers := if CarriesBody(m) then AddContentType(baseHeaders) else baseHeaders;
      Objects.Layered(baseConf, Some(map[HeadersKey := HeaderObject(headers)]))
    case Some(c) =>
      var merged := MergedConfig(baseConf, baseHeaders, c, PropOf(c, HeadersKey));
      merged.0[HeadersKey := HeaderObject(if CarriesBody(m) then AddContentType(merged.1) else merged.1)]
  }

  /** The path `prepareUrl` builds when a base path is set: exactly one '/' trimmed on each side of the seam. */
  function JoinPath(basePath: string, pathname: string): string
  {
    TrimChar.TrimCharEnd(basePath, "/") + "/" + TrimChar.TrimCharStart(pathname, "/")
  }

  /** `status >= 400 && status < 500` and `status >= 500` classify a reply as failed. */
  function StatusFailure(status: int, statusText: string): (reason: Option<string>)
    ensures reason.Some? <==> status >= 400
    ensures 400 <= status < 500 ==> reason == Some("Request failure: [" + IntToString(status) + "] " + statusText)
    ensures status >= 500 ==> reason == Some("Server error: [" + IntToString(status) + "] " + statusText)
  {
    if 400 <= status < 500 then Some("Request failure: [" + IntToString(status) + "] " + statusText)
    else if status >= 500 then Some("Server error: [" + IntToString(status) + "] " + statusText)
    else None
  }

  /** `config.autoRetry ? config.autoRetry - 1 : undefined`, with `undefined` defaulting to 0. */
  function AttemptsLeft(config: Config): (r: int)
    ensures r > 0 <==> PropOf(config, AutoRetry).Number? && PropOf(config, AutoRetry).n > 1
    ensures r > 0 ==> r + 1 == PropOf(config, AutoRetry).n
    ensures !PropOf(config, AutoRetry).Number? ==> r == 0
  {
    match PropOf(config, AutoRetry)
    case Number(n) => if n != 0 then n - 1 else 0
    case _ => 0
  }

  /** The catch block of `request`: any thrown value that is not an `AdapterRequestError`
    * becomes one with reason "Unexpected error" and the original as its cause. */
  function Normalize(t: Thrown, config: Option<Config>): (e: RequestError)
    ensures t.AdapterError? ==> e == t.error
    ensures t.Foreign? ==> e.reason == "Unexpected error" && e.cause == Some(t.value) && e.config == config
  {
    match t
    case AdapterError(e) => e
    case Foreign(v) => RequestError("Unexpected error", config, None, None, None, None, Some(v))
  }

  /** The request one transport call is sent with. */
  function SentFor(m: Method, url: Url, config: Config, body: Value): SentRequest
  {
    SentRequest(m, Href(url), PropOf(config, Xhr), PropOf(config, HeadersKey), body)
  }

  /** `n` copies of `x`. */
  function Repeat<T>(x: T, n: nat): (s: seq<T>)
    ensures |s| == n && forall i :: 0 <= i < n ==> s[i] == x
  {
    seq(n, _ => x)
  }


  /** `getBaseUrl`: the configured base URL, else the page origin in a browser, else the loopback host. */
  function GetBaseUrl(config: Config, windowOrigin: Option<string>): (base: string)
    ensures BaseUrlOf(config).Some? ==> base == BaseUrlOf(config).value
    ensures BaseUrlOf(config).None? && windowOrigin.Some? ==> base == windowOrigin.value
    ensures BaseUrlOf(config).None? && windowOrigin.None? ==> base == "http://127.0.0.1"
  {
    if BaseUrlOf(config).Some? then BaseUrlOf(config).value
    else if windowOrigin.Some? then windowOrigin.value
    else "http://127.0.0.1"
  }

  /** `prepareUrl`: resolve against the base URL, which must itself parse even for an absolute
    * `url`; with a base path, the path becomes the base path joined to the resolved path. Origin
    * and query are those of the resolved URL. */
  function PrepareUrl(url: string, config: Config, windowOrigin: Option<string>): (r: Result<Url, Value>)
    ensures var resolved := Resolve(url, GetBaseUrl(config, windowOrigin));
      && (r.Err? <==> resolved.Err?)
      && (r.Err? ==> r == resolved)
      && (ParseAbsolute(GetBaseUrl(config, windowOrigin)).None? ==> r == Err(ErrorObject("TypeError", "Invalid URL")))
      && (r.Ok? ==> r.value.origin == resolved.value.origin && r.value.search == resolved.value.search)
      && (r.Ok? && BasePathOf(config).None? ==> r.value == resolved.value)
      && (r.Ok? && BasePathOf(config).Some? ==>
            r.value == WithPathname(resolved.value, JoinPath(BasePathOf(config).value, resolved.value.pathname)))
  {
    var resolved := Resolve(url, GetBaseUrl(config, windowOrigin));
    match BasePathOf(config)
    case None => resolved
    case Some(basePath) =>
      match resolved
      case Err(e) => Err(e)
      case Ok(u) => Ok(WithPathname(u, JoinPath(basePath, u.pathname)))
  }

  // --- the request pipeline as functions of the adapter's state ---

  /** Everything `request` reads: the adapter itself, every hook list of its `extendsFrom` chain
    * flattened root first, its base configuration, the page origin and the transport's script. */
  datatype Pipeline = Pipeline(
    adapter: Adapter,
    before: seq<Handler>,
    after: seq<Handler>,
    urls: seq<Handler>,
    errors: seq<Handler>,
    baseConfig: Config,
    baseHeaders: Headers,
    windowOrigin: Option<string>,
    script: nat -> Outcome)

  /** The URL `request` sends to: prepared, given the search parameters as its query when set,
    * then passed through the build-URL chain. */
  function BuiltUrl(p: Pipeline, url: string, config: Config): Result<Url, Value>
  {
    match PrepareUrl(url, config, p.windowOrigin)
    case Err(e) => Err(e)
    case Ok(u) =>
      var withQuery := if SearchParamsOf(config).Some? then WithSearch(u, SerializeForm(QueryPairs(SearchParamsOf(config).value))) else u;
      Ok(RunUrl(p.urls, withQuery))
  }

  /** One pass through the `try` block of `requestInternal` for one transport outcome: the result
    * and the status recorded (-1 when the transport threw). */
  function Attempt(p: Pipeline, config: Config, outcome: Outcome): (Result<Response, Thrown>, int)
  {
    match outcome
    case Fail(thrown) => (Err(thrown), -1)
    case Reply(raw, status, statusText) =>
      if StatusFailure(status, statusText).Some? then
        (Err(AdapterError(RequestError(StatusFailure(status, statusText).value, Some(config), None, None, Some(status), Some(raw), None))), status)
      else
        match ExtractPayload(raw)
        case Err(thrown) => (Err(Foreign(thrown)), status)
        case Ok(data) =>
          if ValidatorOf(config).Some? && !ValidatorOf(config).value(data) then
            (Err(AdapterError(ErrorWithConfig(config, "Invalid response data"))), status)
          else
            match RunAfter(p.after, Response(p.adapter, config, data, raw))
            case Continue(response) => (Ok(response), status)
            case Stop(thrown) => (Err(thrown), status)
  }

  /** `requestInternal` from transport call number `k`: the final result and the number of
    * transport calls. A failed attempt is retried while attempts are left, unless its status was 2xx. */
  function Retrying(p: Pipeline, config: Config, k: nat, attemptsLeft: int): (Result<Response, Thrown>, nat)
    decreases if attemptsLeft > 0 then attemptsLeft else 0
  {
    var (result, status) := Attempt(p, config, p.script(k));
    if result.Err? && attemptsLeft > 0 && !(200 <= status < 300) then
      var (final, calls) := Retrying(p, config, k + 1, attemptsLeft - 1);
      (final, calls + 1)
    else
      (result, 1)
  }

  /** The catch block of `request` for a thrown value: normalized, then passed through the error chain. */
  function Handled(p: Pipeline, t: Thrown, config: Config): RequestError
  {
    RunErrors(p.errors, Normalize(t, Some(config)))
  }

  /** `requestInternal` inside the `try` of `request`, with its `catch`. */
  function SendOutcome(p: Pipeline, conf: Config, k: nat): (Result<Response, RequestError>, nat)
  {
    var (result, calls) := Retrying(p, conf, k, AttemptsLeft(conf));
    if result.Ok? then (Ok(result.value), calls)
    else (Err(Handled(p, result.error, conf)), calls)
  }

  /** The part of `request` after the configuration and the URL are built: an unbuildable URL is
    * reported, otherwise the before-request chain runs, then sending with retries. */
  function DispatchOutcome(p: Pipeline, built: Result<Url, Value>, conf: Config, body: Value, k: nat)
    : (Result<Response, RequestError>, nat)
  {
    if built.Err? then (Err(Handled(p, Foreign(built.error), conf)), 0)
    else
      var before := RunBefore(p.before, (built.value, conf, body));
      if before.Stop? then
        if before.exit.Responded? then (Ok(before.exit.response), 0)
        else (Err(Handled(p, before.exit.thrown, conf)), 0)
      else
        SendOutcome(p, before.state.1, k)
  }

  /** What `request` resolves to (or rejects with) and how many transport calls it makes, when
    * the transport has already been called `k` times. */
  function RequestOutcome(p: Pipeline, m: Method, url: string, config: Option<Config>, body: Value, k: nat)
    : (Result<Response, RequestError>, nat)
  {
    var conf := RequestConfigFor(m, config, p.baseConfig, p.baseHeaders);
    DispatchOutcome(p, BuiltUrl(p, url, conf), conf, body, k)
  }

  /** The request every transport call of `request` carries once the URL is built: the verb with
    * the URL, configuration and body the before-request chain hands on. None when the URL does
    * not build or the chain ends the request, since the transport is then never called. */
  function DispatchedRequest(p: Pipeline, m: Method, built: Result<Url, Value>, conf: Config, body: Value)
    : Option<SentRequest>
  {
    if built.Err? then None
    else
      var before := RunBefore(p.before, (built.value, conf, body));
      if before.Stop? then None
      else Some(SentFor(m, before.state.0, before.state.1, before.state.2))
  }

  /** The request every transport call of `request` carries, if it calls the transport at all. */
  function RequestedCall(p: Pipeline, m: Method, url: string, config: Option<Config>, body: Value)
    : Option<SentRequest>
  {
    var conf := RequestConfigFor(m, config, p.baseConfig, p.baseHeaders);
    DispatchedRequest(p, m, BuiltUrl(p, url, conf), conf, body)
  }

  /** `n` transport calls carrying `request`; nothing when there is no request to send. */
  function Calls(request: Option<SentRequest>, n: nat): (s: seq<SentRequest>)
    ensures request.None? ==> s == []
    ensures request.Some? ==> |s| == n && forall i :: 0 <= i < n ==> s[i] == request.value
  {
    if request.Some? then Repeat(request.value, n) else []
  }

  /** Every run of `requestInternal` calls the transport at least once. */
  lemma {:induction false} RetryingCallsTransport(p: Pipeline, config: Config, k: nat, attemptsLeft: int)
    ensures Retrying(p, config, k, attemptsLeft).1 >= 1
    decreases if attemptsLeft > 0 then attemptsLeft else 0
  {
    var (result, status) := Attempt(p, config, p.script(k));
    if result.Err? && attemptsLeft > 0 && !(200 <= status < 300) {
      RetryingCallsTransport(p, config, k + 1, attemptsLeft - 1);
    }
  }

  /** `request` calls the transport exactly when there is a request to send: never for a URL that
    * does not build or a before-request hook that ends the request, at least once otherwise. */
  lemma SentOnlyWhenDispatched(p: Pipeline, m: Method, built: Result<Url, Value>, conf: Config, body: Value, k: nat)
    ensures DispatchedRequest(p, m, built, conf, body).None? <==> DispatchOutcome(p, built, conf, body, k).1 == 0
  {
    if DispatchedRequest(p, m, built, conf, body).Some? {
      var before := RunBefore(p.before, (built.value, conf, body));
      RetryingCallsTransport(p, before.state.1, k, AttemptsLeft(before.state.1));
    }
  }

  class Adapter {
    const extendsFrom: Option<Adapter>
    /** Number of adapters this one extends, directly or not. */
    const depth: nat
    /** Every adapter this one extends, directly or not. */
    ghost const ancestors: set<Adapter>
    const transport: Transport
    /** `window.location.origin` in a browser; None outside one. */
    const windowOrigin: Option<string>
    var baseConfig: Config
    var baseHeaders: Headers
    var beforeRequestHandlers: seq<Handler>
    var afterResponseHandlers: seq<Handler>
    var afterBuildUrlHandlers: seq<Handler>
    var afterRequestErrorHandlers: seq<Handler>

    /** The `extendsFrom` chain is finite and shares one transport. */
    ghost predicate Linked()
      decreases depth
    {
      match extendsFrom
      case None => depth == 0 && ancestors == {}
      case Some(p) =>
        && p.depth < depth
        && ancestors == {p} + p.ancestors
        && this !in ancestors
        && p.transport == transport
        && p.windowOrigin == windowOrigin
        && p.Linked()
    }

    /** The constructor: base configuration from the options, handler lists as given. */
    constructor (options: AdapterOptions, transport: Transport, windowOrigin: Option<string>)
      ensures Linked() && extendsFrom.None?
      ensures this.transport == transport && this.windowOrigin == windowOrigin
      ensures baseConfig == OptionsConfig(options) && baseHeaders == OptionsHeaders(options)
      ensures beforeRequestHandlers == OrEmpty(options.onBeforeRequest)
      ensures afterResponseHandlers == OrEmpty(options.onAfterResponse)
      ensures afterBuildUrlHandlers == OrEmpty(options.onAfterBuildUrl)
      ensures afterRequestErrorHandlers == OrEmpty(options.onRequestError)
    {
      extendsFrom := None;
      depth := 0;
      ancestors := {};
      this.transport := transport;
      this.windowOrigin := windowOrigin;
      var conf, headers := InitOptionsToBaseConfig(options);
      baseConfig := conf;
      baseHeaders := headers;
      beforeRequestHandlers := OrEmpty(options.onBeforeRequest);
      afterResponseHandlers := OrEmpty(options.onAfterResponse);
      afterBuildUrlHandlers := OrEmpty(options.onAfterBuildUrl);
      afterRequestErrorHandlers := OrEmpty(options.onRequestError);
    }

    /** `new Adapter(undefined, parent.xhr)` with `extendsFrom` set to the parent. */
    constructor Extending(parent: Adapter)
      requires parent.Linked()
      ensures Linked() && extendsFrom == Some(parent)
      ensures transport == parent.transport && windowOrigin == parent.windowOrigin
      ensures baseConfig == map[] && baseHeaders == Empty
      ensures beforeRequestHandlers == [] && afterResponseHandlers == []
      ensures afterBuildUrlHandlers == [] && afterRequestErrorHandlers == []
    {
      extendsFrom := Some(parent);
      depth := parent.depth + 1;
      ancestors := {parent} + parent.ancestors;
      transport := parent.transport;
      windowOrigin := parent.windowOrigin;
      baseConfig := map[];
      baseHeaders := Empty;
      beforeRequestHandlers := [];
      afterResponseHandlers := [];
      afterBuildUrlHandlers := [];
      afterRequestErrorHandlers := [];
    }

    // --- the hook chains: the parent's handlers in full, then this adapter's, in order ---

    ghost function BeforeHandlers(): seq<Handler>
      requires Linked()
      reads this, ancestors
      decreases depth
    {
      (if extendsFrom.Some? then extendsFrom.value.BeforeHandlers() else []) + beforeRequestHandlers
    }

    ghost function AfterHandlers(): seq<Handler>
      requires Linked()
      reads this, ancestors
      decreases depth
    {
      (if extendsFrom.Some? then extendsFrom.value.AfterHandlers() else []) + afterResponseHandlers
    }

    ghost function UrlHandlers(): seq<Handler>
      requires Linked()
      reads this, ancestors
      decreases depth
    {
      (if extendsFrom.Some? then extendsFrom.value.UrlHandlers() else []) + afterBuildUrlHandlers
    }

    ghost function ErrorHandlers(): seq<Handler>
      requires Linked()
      reads this, ancestors
      decreases depth
    {
      (if extendsFrom.Some? then extendsFrom.value.ErrorHandlers() else []) + afterRequestErrorHandlers
    }

    /** The adapter state the request pipeline reads. */
    ghost function State(): Pipeline
      requires Linked()
      reads this, ancestors
    {
      Pipeline(this, BeforeHandlers(), AfterHandlers(), UrlHandlers(), ErrorHandlers(),
               baseConfig, baseHeaders, windowOrigin, transport.script)
    }

    // --- the hook runners: each is proved to compute its chain ---

    /** The loop of `runBeforeRequestHandlers` over one adapter's own list. */
    static method RunBeforeList(hs: seq<Handler>, start: Prepared) returns (r: Flow<Prepared, BeforeExit>)
      ensures r == RunBefore(hs, start)
    {
      var p := start;
      var i := 0;
      while i < |hs|
        invariant 0 <= i <= |hs|
        invariant RunBefore(hs[..i], start) == Continue(p)
      {
        var handler := hs[i];
        assert hs[..i + 1][..i] == hs[..i];
        match handler.behaviour {
          case BeforeRequest(f) =>
            var override := f(p.0, p.1, p.2);
            match override {
              case Proceed =>
              case Override(u, c, b) =>
                p := (u, c, b);
              case Respond(response) =>
                RunBeforeStopped(hs, i + 1, start);
                return Stop(Responded(response));
              case Reject(thrown) =>
                RunBeforeStopped(hs, i + 1, start);
                return Stop(Raised(thrown));
            }
          case _ =>
        }
        i := i + 1;
      }
      assert hs[..i] == hs;
      r := Continue(p);
    }

    /** `runBeforeRequestHandlers`: the parent's chain first, then this adapter's list; a returned
      * response ends the chain, a returned triple replaces `[url, config, body]`, a rejection
      * propagates. */
    method RunBeforeRequestHandlers(url: Url, config: Config, body: Value) returns (r: Flow<Prepared, BeforeExit>)
      requires Linked()
      ensures r == RunBefore(BeforeHandlers(), (url, config, body))
      decreases depth
    {
      ghost var inherited := if extendsFrom.Some? then extendsFrom.value.BeforeHandlers() else [];
      RunBeforeAppend(inherited, beforeRequestHandlers, (url, config, body));
      var p: Prepared := (url, config, body);
      if extendsFrom.Some? {
        var fromParent := extendsFrom.value.RunBeforeRequestHandlers(url, config, body);
        if fromParent.Stop? {
          return fromParent;
        }
        p := fromParent.state;
      }
      r := RunBeforeList(beforeRequestHandlers, p);
    }

    /** The loop of `runAfterResponseHandlers` over one adapter's own list. */
    static method RunAfterList(hs: seq<Handler>, start: Response) returns (r: Flow<Response, Thrown>)
      ensures r == RunAfter(hs, start)
    {
      var current := start;
      var i := 0;
      while i < |hs|
        invariant 0 <= i <= |hs|
        invariant RunAfter(hs[..i], start) == Continue(current)
      {
        var handler := hs[i];
        assert hs[..i + 1][..i] == hs[..i];
        if handler.behaviour.AfterResponse? {
          var override := handler.behaviour.onAfter(current);
          if override.RejectResponse? {
            RunAfterStopped(hs, i + 1, start);
            return Stop(override.thrown);
          } else if override.ReplaceResponse? {
            current := override.response;
          }
        }
        i := i + 1;
      }
      assert hs[..i] == hs;
      r := Continue(current);
    }

    /** `runAfterResponseHandlers`: the parent's chain first, then this adapter's list; a returned
      * response replaces the current one, a rejection propagates. */
    method RunAfterResponseHandlers(response: Response) returns (r: Flow<Response, Thrown>)
      requires Linked()
      ensures r == RunAfter(AfterHandlers(), response)
      decreases depth
    {
      ghost var inherited := if extendsFrom.Some? then extendsFrom.value.AfterHandlers() else [];
      RunAfterAppend(inherited, afterResponseHandlers, response);
      var current := response;
      if extendsFrom.Some? {
        var fromParent := extendsFrom.value.RunAfterResponseHandlers(response);
        if fromParent.Stop? {
          return fromParent;
        }
        current := fromParent.state;
      }
      r := RunAfterList(afterResponseHandlers, current);
    }

    /** The loop of `runAfterBuildUrlHandlers` over one adapter's own list. */
    static method RunUrlList(hs: seq<Handler>, start: Url) returns (r: Url)
      ensures r == RunUrl(hs, start)
    {
      r := start;
      var i := 0;
      while i < |hs|
        invariant 0 <= i <= |hs|
        invariant RunUrl(hs[..i], start) == r
      {
        var handler := hs[i];
        assert hs[..i + 1][..i] == hs[..i];
        if handler.behaviour.AfterBuildUrl? {
          var override := handler.behaviour.onUrl(r);
          if override.Some? {
            r := override.value;
          }
        }
        i := i + 1;
      }
      assert hs[..i] == hs;
    }

    /** `runAfterBuildUrlHandlers`: the parent's chain first, then this adapter's list; a truthy
      * return replaces the URL. */
    method RunAfterBuildUrlHandlers(url: Url) returns (r: Url)
      requires Linked()
      ensures r == RunUrl(UrlHandlers(), url)
      decreases depth
    {
      ghost var inherited := if extendsFrom.Some? then extendsFrom.value.UrlHandlers() else [];
      RunUrlAppend(inherited, afterBuildUrlHandlers, url);
      r := url;
      if extendsFrom.Some? {
        r := extendsFrom.value.RunAfterBuildUrlHandlers(url);
      }
      r := RunUrlList(afterBuildUrlHandlers, r);
    }

    /** The loop of `runAfterRequestErrorHandlers` over one adapter's own list. */
    static method RunErrorList(hs: seq<Handler>, start: RequestError) returns (r: RequestError)
      ensures r == RunErrors(hs, start)
    {
      r := start;
      var i := 0;
      while i < |hs|
        invariant 0 <= i <= |hs|
        invariant RunErrors(hs[..i], start) == r
      {
        var handler := hs[i];
        assert hs[..i + 1][..i] == hs[..i];
        if handler.behaviour.OnRequestError? {
          var override := handler.behaviour.onError(r);
          if override.Some? {
            r := override.value;
          }
        }
        i := i + 1;
      }
      assert hs[..i] == hs;
    }

    /** `runAfterRequestErrorHandlers`: the parent's chain first, then this adapter's list; a
      * truthy return replaces the error. */
    method RunAfterRequestErrorHandlers(error: RequestError) returns (r: RequestError)
      requires Linked()
      ensures r == RunErrors(ErrorHandlers(), error)
      decreases depth
    {
      ghost var inherited := if extendsFrom.Some? then extendsFrom.value.ErrorHandlers() else [];
      RunErrorsAppend(inherited, afterRequestErrorHandlers, error);
      r := error;
      if extendsFrom.Some? {
        r := extendsFrom.value.RunAfterRequestErrorHandlers(error);
      }
      r := RunErrorList(afterRequestErrorHandlers, r);
    }

    // --- configuration and URL ---

    /** `mergeConfigs`: copy the base headers and `set` the target's over them, layer the target
      * configuration over the base one, and layer `xhr` when both sides carry one. */
    static method MergeConfigs(baseConf: Config, baseHeaders: Headers, targetConf: Config, targetHeaders: Prop)
      returns (conf: Config, headers: Headers)
      ensures (conf, headers) == MergedConfig(baseConf, baseHeaders, targetConf, targetHeaders)
    {
      headers := baseHeaders;
      var init := HeadersInitOf(targetHeaders);
      if init.Some? {
        headers := MergeHeaders(baseHeaders, init.value);
      }
      conf := Objects.ExtendObject(baseConf, Some(targetConf));
      var targetXhr := XhrOf(targetConf);
      var baseXhr := XhrOf(baseConf);
      if targetXhr.Some? && baseXhr.Some? {
        var xhr := Objects.ExtendObject(baseXhr.value, targetXhr);
        conf := conf[Xhr := XhrOptions(xhr)];
      }
    }

    /** `createRequestConfig`: without a configuration, the base configuration with the base
      * headers (plus the JSON content type for methods with a body); with one, the merge of both. */
    method CreateRequestConfig(m: Method, config: Option<Config>) returns (conf: Config)
      ensures conf == RequestConfigFor(m, config, baseConfig, baseHeaders)
    {
      if config.None? {
        conf := BaseRequestConfig(m, baseConfig, baseHeaders);
      } else {
        conf := MergedRequestConfig(m, baseConfig, baseHeaders, config.value);
      }
    }

    /** `createRequestConfig` without a configuration: the base configuration extended with the
      * base headers, plus the JSON content type for a method with a body. */
    static method BaseRequestConfig(m: Method, baseConfig: Config, baseHeaders: Headers) returns (conf: Config)
      ensures conf == RequestConfigFor(m, None, baseConfig, baseHeaders)
    {
      var headers := baseHeaders;
      if CarriesBody(m) {
        headers := AddContentType(headers);
      }
      conf := Objects.ExtendObject(baseConfig, Some(map[HeadersKey := HeaderObject(headers)]));
    }

    /** `createRequestConfig` with a configuration: the merge of the base and the given one, with
      * the merged headers, plus the JSON content type for a method with a body. */
    static method MergedRequestConfig(m: Method, baseConfig: Config, baseHeaders: Headers, c: Config) returns (conf: Config)
      ensures conf == RequestConfigFor(m, Some(c), baseConfig, baseHeaders)
    {
      var finalConfig, finalHeaders := MergeConfigs(baseConfig, baseHeaders, c, PropOf(c, HeadersKey));
      if CarriesBody(m) {
        finalHeaders := AddContentType(finalHeaders);
      }
      conf := finalConfig[HeadersKey := HeaderObject(finalHeaders)];
    }

    /** The URL steps of `request`: prepare, set the query from `searchParams` when present, then
      * run the build-URL chain. */
    method BuildUrl(url: string, config: Config) returns (r: Result<Url, Value>)
      requires Linked()
      ensures r == BuiltUrl(State(), url, config)
    {
      var prepared := PrepareUrl(url, config, windowOrigin);
      if prepared.Err? {
        return Err(prepared.error);
      }
      var u := prepared.value;
      var searchParams := SearchParamsOf(config);
      if searchParams.Some? {
        u := WithSearch(u, SerializeForm(QueryPairs(searchParams.value)));
      }
      u := RunAfterBuildUrlHandlers(u);
      r := Ok(u);
    }

    // --- sending and retrying ---

    /** The `try` block of `requestInternal`: one transport call, then the status classification,
      * payload extraction, validation and the after-response chain. Returns the outcome and the
      * status recorded (-1 when the transport threw). */
    method SendOnce(m: Method, url: Url, config: Config, body: Value) returns (r: Result<Response, Thrown>, responseStatus: int)
      requires Linked()
      modifies transport
      ensures transport.sent == old(transport.sent) + [SentFor(m, url, config, body)]
      ensures (r, responseStatus) == Attempt(old(State()), config, transport.script(|old(transport.sent)|))
    {
      responseStatus := -1;
      var outcome := transport.SendRequest(SentFor(m, url, config, body));
      match outcome {
        case Fail(thrown) =>
          r := Err(thrown);
        case Reply(raw, status, statusText) =>
          responseStatus := status;
          var reason := StatusFailure(status, statusText);
          if reason.Some? {
            r := Err(AdapterError(RequestError(reason.value, Some(config), None, None, Some(status), Some(raw), None)));
          } else {
            var payload := ExtractPayload(raw);
            if payload.Err? {
              r := Err(Foreign(payload.error));
            } else if ValidatorOf(config).Some? && !ValidatorOf(config).value(payload.value) {
              r := Err(AdapterError(ErrorWithConfig(config, "Invalid response data")));
            } else {
              var flow := RunAfterResponseHandlers(Response(this, config, payload.value, raw));
              r := if flow.Continue? then Ok(flow.state) else Err(flow.exit);
            }
          }
      }
    }

    /** `requestInternal`: one attempt; on failure, retry while attempts are left and the status
      * was not 2xx. The retry delay is a wait and is not modelled. */
    method RequestInternal(m: Method, url: Url, config: Config, body: Value, attemptsLeft: int)
      returns (r: Result<Response, Thrown>)
      requires Linked()
      modifies transport
      ensures |transport.sent| > |old(transport.sent)|
      ensures (r, |transport.sent| - |old(transport.sent)|) == Retrying(old(State()), config, |old(transport.sent)|, attemptsLeft)
      ensures transport.sent == old(transport.sent) + Repeat(SentFor(m, url, config, body), |transport.sent| - |old(transport.sent)|)
      decreases if attemptsLeft > 0 then attemptsLeft else 0
    {
      var request := SentFor(m, url, config, body);
      var responseStatus;
      r, responseStatus := SendOnce(m, url, config, body);
      assert [request] == Repeat(request, 1);
      if r.Err? && attemptsLeft > 0 && !(200 <= responseStatus < 300) {
        ghost var afterFirst := transport.sent;
        r := RequestInternal(m, url, config, body, attemptsLeft - 1);
        ghost var n := |transport.sent| - |afterFirst|;
        assert [request] + Repeat(request, n) == Repeat(request, n + 1);
      }
    }

    /** `return await this.requestInternal(...)` inside the `try` of `request`, with its `catch`. */
    method Send(m: Method, url: Url, config: Config, body: Value) returns (r: Result<Response, RequestError>)
      requires Linked()
      modifies transport
      ensures |transport.sent| >= |old(transport.sent)|
      ensures (r, |transport.sent| - |old(transport.sent)|) == SendOutcome(old(State()), config, |old(transport.sent)|)
      ensures transport.sent == old(transport.sent) + Repeat(SentFor(m, url, config, body), |transport.sent| - |old(transport.sent)|)
    {
      ghost var p := State();
      var result := RequestInternal(m, url, config, body, AttemptsLeft(config));
      assert ErrorHandlers() == p.errors;
      if result.Err? {
        var error := RunAfterRequestErrorHandlers(Normalize(result.error, Some(config)));
        assert error == Handled(p, result.error, config);
        return Err(error);
      }
      r := Ok(result.value);
    }

    /** The rest of `request` once the URL is built (or failed to build): the before-request
      * chain (a response it returns is the result as is), then sending. */
    method Dispatch(m: Method, built: Result<Url, Value>, config: Config, body: Value) returns (r: Result<Response, RequestError>)
      requires Linked()
      modifies transport
      ensures |transport.sent| >= |old(transport.sent)|
      ensures (r, |transport.sent| - |old(transport.sent)|) == DispatchOutcome(old(State()), built, config, body, |old(transport.sent)|)
      ensures transport.sent
        == old(transport.sent) + Calls(DispatchedRequest(old(State()), m, built, config, body), |transport.sent| - |old(transport.sent)|)
    {
      if built.Err? {
        var error := RunAfterRequestErrorHandlers(Normalize(Foreign(built.error), Some(config)));
        return Err(error);
      }
      var override := RunBeforeRequestHandlers(built.value, config, body);
      if override.Stop? {
        if override.exit.Responded? {
          return Ok(override.exit.response);
        }
        var error := RunAfterRequestErrorHandlers(Normalize(override.exit.thrown, Some(config)));
        return Err(error);
      }
      var (u, conf, payload) := override.state;
      r := Send(m, u, conf, payload);
    }

    /** `request`: build the configuration and URL, run the before-request chain (a response it
      * returns is the result, untouched by anything else), send with retries, and turn every
      * failure into an `AdapterRequestError` passed through the error chain. */
    method Request(m: Method, url: string, config: Option<Config>, body: Value) returns (r: Result<Response, RequestError>)
      requires Linked()
      modifies transport
      ensures |transport.sent| >= |old(transport.sent)|
      ensures (r, |transport.sent| - |old(transport.sent)|) == RequestOutcome(old(State()), m, url, config, body, |old(transport.sent)|)
      ensures transport.sent
        == old(transport.sent) + Calls(RequestedCall(old(State()), m, url, config, body), |transport.sent| - |old(transport.sent)|)
    {
      ghost var p := State();
      var conf := CreateRequestConfig(m, config);
      assert conf == RequestConfigFor(m, config, p.baseConfig, p.baseHeaders);
      var built := BuildUrl(url, conf);
      assert unchanged(this, transport) && unchanged(ancestors);
      assert State() == p;
      r := Dispatch(m, built, conf, body);
      assert RequestOutcome(p, m, url, config, body, |old(transport.sent)|) == DispatchOutcome(p, built, conf, body, |old(transport.sent)|);
    }

    // --- the method wrappers ---

    /** `get`: a GET request without a body. */
    method Get(url: string, config: Option<Config>) returns (r: Result<Response, RequestError>)
      requires Linked()
      modifies transport
      ensures |transport.sent| >= |old(transport.sent)|
      ensures (r, |transport.sent| - |old(transport.sent)|) == RequestOutcome(old(State()), GET, url, config, Undefined, |old(transport.sent)|)
      ensures transport.sent
        == old(transport.sent) + Calls(RequestedCall(old(State()), GET, url, config, Undefined), |transport.sent| - |old(transport.sent)|)
    {
      r := Request(GET, url, config, Undefined);
    }

    /** `post`: a POST request sending `config.body`. */
    method Post(url: string, config: Option<Config>) returns (r: Result<Response, RequestError>)
      requires Linked()
      modifies transport
      ensures |transport.sent| >= |old(transport.sent)|
      ensures (r, |transport.sent| - |old(transport.sent)|) == RequestOutcome(old(State()), POST, url, config, BodyOf(config), |old(transport.sent)|)
      ensures transport.sent
        == old(transport.sent) + Calls(RequestedCall(old(State()), POST, url, config, BodyOf(config)), |transport.sent| - |old(transport.sent)|)
    {
      r := Request(POST, url, config, BodyOf(config));
    }

    /** `patch`: a PATCH request sending `config.body`. */
    method Patch(url: string, config: Option<Config>) returns (r: Result<Response, RequestError>)
      requires Linked()
      modifies transport
      ensures |transport.sent| >= |old(transport.sent)|
      ensures (r, |transport.sent| - |old(transport.sent)|) == RequestOutcome(old(State()), PATCH, url, config, BodyOf(config), |old(transport.sent)|)
      ensures transport.sent
        == old(transport.sent) + Calls(RequestedCall(old(State()), PATCH, url, config, BodyOf(config)), |transport.sent| - |old(transport.sent)|)
    {
      r := Request(PATCH, url, config, BodyOf(config));
    }

    /** `put`: a PUT request sending `config.body`. */
    method Put(url: string, config: Option<Config>) returns (r: Result<Response, RequestError>)
      requires Linked()
      modifies transport
      ensures |transport.sent| >= |old(transport.sent)|
      ensures (r, |transport.sent| - |old(transport.sent)|) == RequestOutcome(old(State()), PUT, url, config, BodyOf(config), |old(transport.sent)|)
      ensures transport.sent
        == old(transport.sent) + Calls(RequestedCall(old(State()), PUT, url, config, BodyOf(config)), |transport.sent| - |old(transport.sent)|)
    {
      r := Request(PUT, url, config, BodyOf(config));
    }

    /** `delete`: a DELETE request sending `config.body`. */
    method Delete(url: string, config: Option<Config>) returns (r: Result<Response, RequestError>)
      requires Linked()
      modifies transport
      ensures |transport.sent| >= |old(transport.sent)|
      ensures (r, |transport.sent| - |old(transport.sent)|) == RequestOutcome(old(State()), DELETE, url, config, BodyOf(config), |old(transport.sent)|)
      ensures transport.sent
        == old(transport.sent) + Calls(RequestedCall(old(State()), DELETE, url, config, BodyOf(config)), |transport.sent| - |old(transport.sent)|)
    {
      r := Request(DELETE, url, config, BodyOf(config));
    }

    /** `options`: an OPTIONS request without a body. */
    method Options(url: string, config: Option<Config>) returns (r: Result<Response, RequestError>)
      requires Linked()
      modifies transport
      ensures |transport.sent| >= |old(transport.sent)|
      ensures (r, |transport.sent| - |old(transport.sent)|) == RequestOutcome(old(State()), OPTIONS, url, config, Undefined, |old(transport.sent)|)
      ensures transport.sent
        == old(transport.sent) + Calls(RequestedCall(old(State()), OPTIONS, url, config, Undefined), |transport.sent| - |old(transport.sent)|)
    {
      r := Request(OPTIONS, url, config, Undefined);
    }

    // --- extension and the handler lists ---

    /** `extend`: a new adapter on the same transport whose parent is this one, whose base
      * configuration and headers are this adapter's merged with the options', and whose own
      * handler lists hold only the options' handlers; every chain runs this adapter's first. */
    method Extend(options: AdapterOptions) returns (child: Adapter)
      requires Linked()
      ensures fresh(child) && child.Linked()
      ensures child.extendsFrom == Some(this) && child.transport == transport
      ensures (child.baseConfig, child.baseHeaders)
        == MergedConfig(baseConfig, baseHeaders, OptionsConfig(options), HeaderObject(OptionsHeaders(options)))
      ensures child.beforeRequestHandlers == OrEmpty(options.onBeforeRequest)
      ensures child.afterResponseHandlers == OrEmpty(options.onAfterResponse)
      ensures child.afterBuildUrlHandlers == OrEmpty(options.onAfterBuildUrl)
      ensures child.afterRequestErrorHandlers == OrEmpty(options.onRequestError)
      ensures child.BeforeHandlers() == BeforeHandlers() + OrEmpty(options.onBeforeRequest)
      ensures child.AfterHandlers() == AfterHandlers() + OrEmpty(options.onAfterResponse)
      ensures child.UrlHandlers() == UrlHandlers() + OrEmpty(options.onAfterBuildUrl)
      ensures child.ErrorHandlers() == ErrorHandlers() + OrEmpty(options.onRequestError)
    {
      child := new Adapter.Extending(this);
      var initConfig, initHeaders := InitOptionsToBaseConfig(options);
      var conf, headers := MergeConfigs(baseConfig, baseHeaders, initConfig, HeaderObject(initHeaders));
      child.baseConfig := conf;
      child.baseHeaders := headers;
      child.beforeRequestHandlers := child.beforeRequestHandlers + OrEmpty(options.onBeforeRequest);
      child.afterResponseHandlers := child.afterResponseHandlers + OrEmpty(options.onAfterResponse);
      child.afterBuildUrlHandlers := child.afterBuildUrlHandlers + OrEmpty(options.onAfterBuildUrl);
      child.afterRequestErrorHandlers := child.afterRequestErrorHandlers + OrEmpty(options.onRequestError);
    }

    /** `addHandler`: append to the list the kind names; an unknown kind changes nothing. */
    method AddHandler(kind: string, handler: Handler)
      modifies this
      ensures unchanged(this`baseConfig, this`baseHeaders)
      ensures beforeRequestHandlers == old(beforeRequestHandlers) + (if kind == "beforeRequest" then [handler] else [])
      ensures afterResponseHandlers == old(afterResponseHandlers) + (if kind == "afterResponse" then [handler] else [])
      ensures afterBuildUrlHandlers == old(afterBuildUrlHandlers) + (if kind == "afterBuildUrl" then [handler] else [])
      ensures afterRequestErrorHandlers == old(afterRequestErrorHandlers) + (if kind == "requestError" then [handler] else [])
    {
      if kind == "beforeRequest" {
        beforeRequestHandlers := beforeRequestHandlers + [handler];
      } else if kind == "afterResponse" {
        afterResponseHandlers := afterResponseHandlers + [handler];
      } else if kind == "afterBuildUrl" {
        afterBuildUrlHandlers := afterBuildUrlHandlers + [handler];
      } else if kind == "requestError" {
        afterRequestErrorHandlers := afterRequestErrorHandlers + [handler];
      }
    }

    /** `arrRemove` on one handler list, seen only through its contents. */
    static method Removed(handlers: seq<Handler>, handler: Handler) returns (r: seq<Handler>)
      ensures r == ArrRemove.WithoutFirst(handlers, handler)
    {
      r := ArrRemove.RemoveFirst(handlers, handler);
    }

    /** `removeHandler`: remove the first occurrence of the handler from the list the kind names;
      * an unknown kind, or a handler not in the list, changes nothing. */
    method RemoveHandler(kind: string, handler: Handler)
      modifies this
      ensures unchanged(this`baseConfig, this`baseHeaders)
      ensures beforeRequestHandlers == if kind == "beforeRequest" then ArrRemove.WithoutFirst(old(beforeRequestHandlers), handler) else old(beforeRequestHandlers)
      ensures afterResponseHandlers == if kind == "afterResponse" then ArrRemove.WithoutFirst(old(afterResponseHandlers), handler) else old(afterResponseHandlers)
      ensures afterBuildUrlHandlers == if kind == "afterBuildUrl" then ArrRemove.WithoutFirst(old(afterBuildUrlHandlers), handler) else old(afterBuildUrlHandlers)
      ensures afterRequestErrorHandlers == if kind == "requestError" then ArrRemove.WithoutFirst(old(afterRequestErrorHandlers), handler) else old(afterRequestErrorHandlers)
    {
      var l0, l1, l2, l3 := beforeRequestHandlers, afterResponseHandlers, afterBuildUrlHandlers, afterRequestErrorHandlers;
      if kind == "beforeRequest" {
        l0 := Removed(l0, handler);
      } else if kind == "afterResponse" {
        l1 := Removed(l1, handler);
      } else if kind == "afterBuildUrl" {
        l2 := Removed(l2, handler);
      } else if kind == "requestError" {
        l3 := Removed(l3, handler);
      }
      beforeRequestHandlers, afterResponseHandlers, afterBuildUrlHandlers, afterRequestErrorHandlers := l0, l1, l2, l3;
    }
  }
}

=== FILE: adapter_props.dfy ===
/** Properties of the request pipeline of `Adapter` (src/adapter.ts): retries, transport-call
  * bounds, configuration merging and the base-path seam. */
module AdapterProperties {
  import opened Js
  import opened HeaderMap
  import opened Configs
  import opened RequestErrors
  import opened Transports
  import opened Urls
  import opened Adapters
  import TrimChar

  // --- retries ---

  /** The most transport calls `requestInternal` makes with `attemptsLeft` retries left. */
  function MaxCalls(attemptsLeft: int): nat
  {
    Retries(attemptsLeft) + 1
  }

  /** The retries allowed: `attemptsLeft`, or none when it is not positive. */
  function Retries(attemptsLeft: int): nat
  {
    if attemptsLeft > 0 then attemptsLeft else 0
  }

  /** An attempt that `requestInternal` retries: it failed, and not with a 2xx status. */
  predicate Retried(a: (Result<Response, Thrown>, int))
  {
    a.0.Err? && !(200 <= a.1 < 300)
  }

  /** `requestInternal` calls the transport at least once and at most once per attempt left plus one. */
  lemma {:induction false} RetryingCallsBounded(p: Pipeline, config: Config, k: nat, attemptsLeft: int)
    ensures 1 <= Retrying(p, config, k, attemptsLeft).1 <= MaxCalls(attemptsLeft)
    decreases if attemptsLeft > 0 then attemptsLeft else 0
  {
    if attemptsLeft > 0 && Retried(Attempt(p, config, p.script(k))) {
      RetryingCallsBounded(p, config, k + 1, attemptsLeft - 1);
    }
  }

  /** The first attempt that is not retried decides the result: when attempts `k` to `k + j - 1`
    * are all retried and attempt `k + j` is not (it succeeded, or got a 2xx status), or it is the
    * last one allowed, its result is the result and `j + 1` calls were made. */
  lemma {:induction false} RetryingSettlesAtFirstKept(p: Pipeline, config: Config, k: nat, attemptsLeft: int, j: nat)
    requires j <= Retries(attemptsLeft)
    requires forall i :: k <= i < k + j ==> Retried(Attempt(p, config, p.script(i)))
    requires !Retried(Attempt(p, config, p.script(k + j))) || j == Retries(attemptsLeft)
    ensures Retrying(p, config, k, attemptsLeft) == (Attempt(p, config, p.script(k + j)).0, j + 1)
    decreases j
  {
    if j > 0 {
      assert Retried(Attempt(p, config, p.script(k)));
      RetryingSettlesAtFirstKept(p, config, k + 1, attemptsLeft - 1, j - 1);
    }
  }

  /** A transport that throws on every call is called once per attempt allowed, and the last
    * thrown value is the result. */
  lemma {:induction false} RetryingAllThrow(p: Pipeline, config: Config, k: nat, attemptsLeft: int)
    requires forall i :: k <= i < k + MaxCalls(attemptsLeft) ==> p.script(i).Fail?
    ensures Retrying(p, config, k, attemptsLeft).1 == MaxCalls(attemptsLeft)
    ensures Retrying(p, config, k, attemptsLeft).0 == Err(p.script(k + MaxCalls(attemptsLeft) - 1).thrown)
  {
    var j := MaxCalls(attemptsLeft) - 1;
    forall i | k <= i < k + j
      ensures Retried(Attempt(p, config, p.script(i)))
    {
      assert p.script(i).Fail?;
    }
    RetryingSettlesAtFirstKept(p, config, k, attemptsLeft, j);
  }

  /** A reply with a 2xx status is never retried, whatever happens to it afterwards. */
  lemma {:induction false} NoRetryAfterSuccessStatus(p: Pipeline, config: Config, k: nat, attemptsLeft: int)
    requires p.script(k).Reply? && 200 <= p.script(k).status < 300
    ensures Retrying(p, config, k, attemptsLeft) == (Attempt(p, config, p.script(k)).0, 1)
  {
    assert Attempt(p, config, p.script(k)).1 == p.script(k).status;
    RetryingSettlesAtFirstKept(p, config, k, attemptsLeft, 0);
  }

  // --- transport calls of one request ---

  /** `Math.max(1, config.autoRetry)` for a numeric `autoRetry`, one call otherwise. */
  function AllowedCalls(config: Config): nat
  {
    match PropOf(config, AutoRetry)
    case Number(n) => if n > 1 then n else 1
    case _ => 1
  }

  /** Sending makes at least one and at most `autoRetry` transport calls (one when unset). */
  lemma SendCallsBounded(p: Pipeline, config: Config, k: nat)
    ensures 1 <= SendOutcome(p, config, k).1 <= AllowedCalls(config)
  {
    RetryingCallsBounded(p, config, k, AttemptsLeft(config));
  }

  /** `request` never calls the transport when the URL cannot be built or the before-request
    * chain ends it, returns a response that chain gives as is, and otherwise calls the
    * transport between once and `autoRetry` times of the configuration the chain leaves. */
  lemma RequestTransportCalls(p: Pipeline, m: Method, url: string, config: Option<Config>, body: Value, k: nat)
    ensures var conf := RequestConfigFor(m, config, p.baseConfig, p.baseHeaders);
      var built := BuiltUrl(p, url, conf);
      var out := RequestOutcome(p, m, url, config, body, k);
      && (built.Err? ==> out.1 == 0 && out.0.Err?)
      && (built.Ok? ==>
            var before := RunBefore(p.before, (built.value, conf, body));
            && (before.Stop? ==> out.1 == 0)
            && (before.Stop? && before.exit.Responded? ==> out.0 == Ok(before.exit.response))
            && (before.Continue? ==> 1 <= out.1 <= AllowedCalls(before.state.1)))
  {
    var conf := RequestConfigFor(m, config, p.baseConfig, p.baseHeaders);
    var built := BuiltUrl(p, url, conf);
    if built.Ok? {
      var before := RunBefore(p.before, (built.value, conf, body));
      if before.Continue? {
        SendCallsBounded(p, before.state.1, k);
      }
    }
  }

  /** The configuration `createRequestConfig` prepares for a method with a body has a
    * `Content-Type` among its headers. */
  lemma BodyConfigHasContentType(m: Method, config: Option<Config>, baseConf: Config, baseHeaders: Headers)
    requires CarriesBody(m)
    ensures Has(HeadersOf(RequestConfigFor(m, config, baseConf, baseHeaders)), "Content-Type")
  {
    RequestConfigHeaders(m, config, baseConf, baseHeaders);
    var hs := if config.Some? then MergedConfig(baseConf, baseHeaders, config.value, PropOf(config.value, HeadersKey)).1
              else baseHeaders;
    ContentTypeLookup(hs, "Content-Type");
  }

  /** Without before-request hooks, a POST whose URL builds sends, on every call, the verb POST,
    * the built URL, the prepared configuration's headers, which carry a `Content-Type`, and
    * `config.body` as its body. */
  lemma PostSendsItsBody(p: Pipeline, url: string, config: Option<Config>)
    requires p.before == []
    requires BuiltUrl(p, url, RequestConfigFor(POST, config, p.baseConfig, p.baseHeaders)).Ok?
    ensures var conf := RequestConfigFor(POST, config, p.baseConfig, p.baseHeaders);
      var sent := RequestedCall(p, POST, url, config, BodyOf(config));
      && sent.Some?
      && sent.value.verb == POST
      && sent.value.url == Href(BuiltUrl(p, url, conf).value)
      && sent.value.headers == PropOf(conf, HeadersKey)
      && Has(HeadersOf(conf), "Content-Type")
      && sent.value.body == BodyOf(config)
  {
    var conf := RequestConfigFor(POST, config, p.baseConfig, p.baseHeaders);
    var built := BuiltUrl(p, url, conf);
    assert RunBefore(p.before, (built.value, conf, BodyOf(config))) == Continue((built.value, conf, BodyOf(config)));
    assert RequestedCall(p, POST, url, config, BodyOf(config)) == Some(SentFor(POST, built.value, conf, BodyOf(config)));
    BodyConfigHasContentType(POST, config, p.baseConfig, p.baseHeaders);
  }

  // --- configuration merging ---

  /** `mergeConfigs`: a configuration key is the target's own value when it has one, else the
    * base's, except `xhr`, whose options are layered when both sides have them. */
  lemma MergedConfigLookup(baseConf: Config, baseHeaders: Headers, targetConf: Config, targetHeaders: Prop, key: Key)
    ensures var conf := MergedConfig(baseConf, baseHeaders, targetConf, targetHeaders).0;
      && (key != Xhr ==> PropOf(conf, key) == if key in targetConf then targetConf[key] else PropOf(baseConf, key))
      && (XhrOf(baseConf).Some? && XhrOf(targetConf).Some? ==>
            PropOf(conf, Xhr) == XhrOptions(XhrOf(baseConf).value + XhrOf(targetConf).value))
      && (XhrOf(baseConf).None? || XhrOf(targetConf).None? ==>
            PropOf(conf, Xhr) == if Xhr in targetConf then targetConf[Xhr] else PropOf(baseConf, Xhr))
  {
  }

  /** `createRequestConfig`: a header of the request is the call's when it names it, else the
    * adapter's; methods that carry a body get the JSON content type unless one is already set
    * under any spelling. */
  lemma RequestHeadersLookup(m: Method, config: Option<Config>, baseConf: Config, baseHeaders: Headers, name: string)
    ensures var h := HeadersOf(RequestConfigFor(m, config, baseConf, baseHeaders));
      var t := if config.Some? then HeadersInitOf(PropOf(config.value, HeadersKey)) else None;
      var merged := if t.Some? && Has(t.value, name) then Get(t.value, name) else Get(baseHeaders, name);
      Get(h, name) ==
        if CarriesBody(m) && Lower(name) == Lower("Content-Type") && merged.None? then Some(ContentTypeValue)
        else merged
  {
    var hs := if config.Some? then MergedConfig(baseConf, baseHeaders, config.value, PropOf(config.value, HeadersKey)).1
              else baseHeaders;
    RequestConfigHeaders(m, config, baseConf, baseHeaders);
    if config.Some? {
      MergedHeadersLookup(baseConf, baseHeaders, config.value, PropOf(config.value, HeadersKey), name);
    }
    ContentTypeLookup(hs, name);
  }

  /** The headers of a request configuration are the merged headers, with the content type
    * added for methods that carry a body. */
  lemma RequestConfigHeaders(m: Method, config: Option<Config>, baseConf: Config, baseHeaders: Headers)
    ensures var hs := if config.Some? then MergedConfig(baseConf, baseHeaders, config.value, PropOf(config.value, HeadersKey)).1
                      else baseHeaders;
      HeadersOf(RequestConfigFor(m, config, baseConf, baseHeaders)) == if CarriesBody(m) then AddContentType(hs) else hs
  {
    if config.None? {
      DefaultConfigHeaders(m, baseConf, baseHeaders);
    } else {
      CallConfigHeaders(m, config.value, baseConf, baseHeaders);
    }
  }

  /** Without a call configuration the request's headers are the adapter's, plus the content type. */
  lemma DefaultConfigHeaders(m: Method, baseConf: Config, baseHeaders: Headers)
    ensures HeadersOf(RequestConfigFor(m, None, baseConf, baseHeaders)) ==
      if CarriesBody(m) then AddContentType(baseHeaders) else baseHeaders
  {
    var h := if CarriesBody(m) then AddContentType(baseHeaders) else baseHeaders;
    var c := RequestConfigFor(m, None, baseConf, baseHeaders);
    assert c[HeadersKey] == HeaderObject(h);
  }

  /** With a call configuration the request's headers are the merged ones, plus the content type. */
  lemma CallConfigHeaders(m: Method, config: Config, baseConf: Config, baseHeaders: Headers)
    ensures var hs := MergedConfig(baseConf, baseHeaders, config, PropOf(config, HeadersKey)).1;
      HeadersOf(RequestConfigFor(m, Some(config), baseConf, baseHeaders)) == if CarriesBody(m) then AddContentType(hs) else hs
  {
    var merged := MergedConfig(baseConf, baseHeaders, config, PropOf(config, HeadersKey));
    var h := if CarriesBody(m) then AddContentType(merged.1) else merged.1;
    HeadersOfUpdate(merged.0, h);
  }

  lemma HeadersOfUpdate(c: Config, h: Headers)
    ensures HeadersOf(c[HeadersKey := HeaderObject(h)]) == h
  {
  }

  /** `mergeConfigs`: a header is the target's when the target names it, in any letter case,
    * else the base's. */
  lemma MergedHeadersLookup(baseConf: Config, baseHeaders: Headers, targetConf: Config, targetHeaders: Prop, name: string)
    ensures var t := HeadersInitOf(targetHeaders);
      Get(MergedConfig(baseConf, baseHeaders, targetConf, targetHeaders).1, name) ==
        if t.Some? && Has(t.value, name) then Get(t.value, name) else Get(baseHeaders, name)
  {
  }

  /** `addContentType` answers `Content-Type` (in any spelling) with the JSON type when it was
    * unset, and every other lookup as before. */
  lemma ContentTypeLookup(h: Headers, name: string)
    ensures Get(AddContentType(h), name) ==
      if Lower(name) == Lower("Content-Type") && Get(h, name).None? then Some(ContentTypeValue) else Get(h, name)
  {
    if Lower(name) != Lower("Content-Type") {
      AddContentTypeKeepsOthers(h, name);
    } else {
      assert Has(h, name) == Has(h, "Content-Type");
      assert Get(h, name) == Get(h, "Content-Type");
      assert Get(AddContentType(h), name) == Get(AddContentType(h), "Content-Type");
    }
  }

  /** `createRequestConfig`: every key but `headers` and `xhr` is the call's own when it sets it,
    * else the adapter's base value. */
  lemma RequestConfigLookup(m: Method, config: Option<Config>, baseConf: Config, baseHeaders: Headers, key: Key)
    requires key != HeadersKey && key != Xhr
    ensures PropOf(RequestConfigFor(m, config, baseConf, baseHeaders), key) ==
      if config.Some? && key in config.value then config.value[key] else PropOf(baseConf, key)
  {
    if config.Some? {
      MergedConfigLookup(baseConf, baseHeaders, config.value, PropOf(config.value, HeadersKey), key);
    }
  }

  // --- the base-path seam ---

  /** Joining a base path and a pathname gives one '/' between them whether or not either side
    * already has a slash at the seam. */
  lemma JoinPathOneSlash(base: string, path: string)
    requires base == [] || base[|base| - 1] != '/'
    requires path == [] || path[0] != '/'
    ensures JoinPath(base, path) == base + "/" + path
    ensures JoinPath(base + "/", path) == base + "/" + path
    ensures JoinPath(base, "/" + path) == base + "/" + path
    ensures JoinPath(base + "/", "/" + path) == base + "/" + path
  {
    assert !TrimChar.EndsWith(base, "/");
    assert !TrimChar.StartsWith(path, "/");
    assert (base + "/")[..|base + "/"| - 1] == base;
    assert ("/" + path)[1..] == path;
  }
}

=== FILE: arr_remove.dfy ===
/** Removal of the first occurrence of an item (src/utils/arr-remove.ts). */
module ArrRemove {

  /** `arr.indexOf(item)`: the first index holding `item`, or -1. */
  method IndexOf<T(==)>(arr: seq<T>, item: T) returns (index: int)
    ensures index == -1 <==> item !in arr
    ensures index != -1 ==> 0 <= index < |arr| && arr[index] == item && item !in arr[..index]
  {
    index := 0;
    while index < |arr|
      invariant 0 <= index <= |arr|
      invariant item !in arr[..index]
    {
      if arr[index] == item {
        return;
      }
      index := index + 1;
    }
    assert arr[..index] == arr;
    index := -1;
  }

  /** The contents left after removing the first occurrence of `item`, element by element. */
  function WithoutFirst<T(==)>(arr: seq<T>, item: T): seq<T>
    decreases |arr|
  {
    if arr == [] then []
    else if arr[0] == item then arr[1..]
    else [arr[0]] + WithoutFirst(arr[1..], item)
  }

  /** Splitting at the first occurrence gives the same contents; an absent item removes nothing. */
  lemma {:induction false} WithoutFirstSplits<T>(arr: seq<T>, item: T, i: int)
    requires i == -1 ==> item !in arr
    requires i != -1 ==> 0 <= i < |arr| && arr[i] == item && item !in arr[..i]
    ensures i == -1 ==> WithoutFirst(arr, item) == arr
    ensures i != -1 ==> WithoutFirst(arr, item) == arr[..i] + arr[i + 1..]
    decreases |arr|
  {
    if arr != [] && arr[0] != item {
      if i == -1 {
        WithoutFirstSplits(arr[1..], item, -1);
      } else {
        assert arr[1..][..i - 1] == arr[1..i];
        WithoutFirstSplits(arr[1..], item, i - 1);
        assert arr[..i] == [arr[0]] + arr[1..][..i - 1];
        assert arr[i + 1..] == arr[1..][i - 1 + 1..];
      }
    }
  }

  /** `arrRemove(arr, item)`: `indexOf` then `splice(index, 1)`; the array's new contents are returned. */
  method RemoveFirst<T(==)>(arr: seq<T>, item: T) returns (r: seq<T>)
    ensures r == WithoutFirst(arr, item)
    ensures item !in arr ==> r == arr
    ensures item in arr ==> exists i :: 0 <= i < |arr| && arr[i] == item && item !in arr[..i] && r == arr[..i] + arr[i + 1..]
    ensures item in arr ==> |r| == |arr| - 1
    ensures multiset(r) == multiset(arr) - multiset{item}
  {
    var index := IndexOf(arr, item);
    WithoutFirstSplits(arr, item, index);
    if index != -1 {
      r := arr[..index] + arr[index + 1..];
      assert arr == arr[..index] + [arr[index]] + arr[index + 1..];
    } else {
      r := arr;
    }
  }

  /** The first occurrence is the one removed: later duplicates stay, earlier elements are never equal to it. */
  lemma {:induction false} RemovingKeepsLaterDuplicates<T>(arr: seq<T>, item: T, i: nat, j: nat)
    requires i < j < |arr| && arr[i] == item && arr[j] == item && item !in arr[..i]
    ensures item in arr[..i] + arr[i + 1..]
    ensures (arr[..i] + arr[i + 1..])[j - 1] == item
  {
    assert (arr[..i] + arr[i + 1..])[j - 1] == arr[i + 1..][j - 1 - i];
  }
}

=== FILE: base_adapter.dfy ===
/** The legacy static `BaseAdapter` (src/BaseAdapter/base-adapter.ts). An adapter there is a
  * class object: its static fields (URL template, validation switches, per-method type
  * definitions, transport) are set by the subclass, and a compiled URL generator is cached in a
  * static property. A class object is modelled as an `AdapterClass` whose `statics` are the
  * static fields as the class sees them and whose `urlGenerator` is its own cached property. */
module BaseAdapters {
  import opened Js
  import opened RequestErrors
  import opened UrlTemplate

  /** A type definition: `DataType.Unknown`, or one whose compiled validator is `accepts`. */
  datatype TypeDef = Unknown | Defined(accepts: Value -> bool)

  /** The six per-method definitions of one direction (`*_REQUEST_TYPE_DEF` or `*_RESPONSE_TYPE_DEF`). */
  datatype TypeDefs = TypeDefs(delete: TypeDef, get: TypeDef, options: TypeDef, patch: TypeDef, post: TypeDef, put: TypeDef)

  /** The static fields a subclass may override. */
  datatype Statics = Statics(
    urlTemplate: string,
    validateResponses: bool,
    validateRequests: bool,
    requestDefs: TypeDefs,
    responseDefs: TypeDefs)

  const AllUnknown := TypeDefs(Unknown, Unknown, Unknown, Unknown, Unknown, Unknown)

  /** The values `BaseAdapter` itself declares. */
  const Defaults := Statics("", true, false, AllUnknown, AllUnknown)

  const RequestMessage := "Adapter error: invalid request data. Data provided to the xhr request does not match the type definition."
  const ResponseMessage := "Adapter error: invalid response data. Response received from the server does not match the type definition."
  const NotImplemented := "Method not implemented."

  /** `getMethodRequestDataTypeDef` / `getMethodResponseDataTypeDef`: the field for the method. */
  function TypeDefFor(defs: TypeDefs, m: Method): TypeDef
  {
    match m
    case DELETE => defs.delete
    case GET => defs.get
    case OPTIONS => defs.options
    case PATCH => defs.patch
    case POST => defs.post
    case PUT => defs.put
  }

  /** The definitions with the one for `m` replaced by `d`. */
  function WithTypeDef(defs: TypeDefs, m: Method, d: TypeDef): TypeDefs
  {
    match m
    case DELETE => defs.(delete := d)
    case GET => defs.(get := d)
    case OPTIONS => defs.(options := d)
    case PATCH => defs.(patch := d)
    case POST => defs.(post := d)
    case PUT => defs.(put := d)
  }

  /** Each method reads a definition of its own: replacing the one for `m` changes what `m` looks
    * up and nothing any other method looks up; with nothing declared, every method reads
    * `Unknown`. */
  lemma TypeDefForOwnField(defs: TypeDefs, m: Method, d: TypeDef, other: Method)
    ensures TypeDefFor(WithTypeDef(defs, m, d), m) == d
    ensures other != m ==> TypeDefFor(WithTypeDef(defs, m, d), other) == TypeDefFor(defs, other)
    ensures TypeDefFor(AllUnknown, m) == Unknown
  {
  }

  /** One argument object of a static verb call. The same object is read as URL parameters (its
    * string entries) or spread as options (its `config` and `data`, `undefined` when absent);
    * `None` is an `undefined` argument. */
  datatype ArgObject = ArgObject(params: map<string, string>, config: Value, data: Value)

  /** `InternalOptions`: the URL parameters and the spread options. */
  datatype InternalOptions = InternalOptions(urlParameters: map<string, string>, config: Value, data: Value)

  /** The URL-parameter view of an argument; an `undefined` record generates as an empty one. */
  function ParamsOf(arg: Option<ArgObject>): map<string, string>
  {
    if arg.Some? then arg.value.params else map[]
  }

  /** `{ ...arg, urlParameters }`: spreading `undefined` copies nothing. */
  function Spread(arg: Option<ArgObject>, urlParameters: map<string, string>): InternalOptions
  {
    if arg.Some? then InternalOptions(urlParameters, arg.value.config, arg.value.data)
    else InternalOptions(urlParameters, Undefined, Undefined)
  }

  /** `parseArguments(args)` for a template with `parametersCount` placeholders. */
  function ParseArguments(args: seq<Option<ArgObject>>, parametersCount: nat): (o: InternalOptions)
    ensures |args| == 1 && parametersCount > 0 ==>
      o.urlParameters == ParamsOf(args[0]) && o.config == Undefined && o.data == Undefined
    ensures |args| == 1 && parametersCount == 0 ==> o == Spread(args[0], map[])
    ensures |args| == 2 ==> o == Spread(args[1], ParamsOf(args[0]))
    ensures |args| != 1 && |args| != 2 ==> o == InternalOptions(map[], Undefined, Undefined)
  {
    if |args| == 1 then
      if parametersCount > 0 then InternalOptions(ParamsOf(args[0]), Undefined, Undefined)
      else Spread(args[0], map[])
    else if |args| == 2 then
      Spread(args[1], ParamsOf(args[0]))
    else
      InternalOptions(map[], Undefined, Undefined)
  }

  /** Without placeholders, `verb(options)` and `verb({}, options)` parse alike. */
  lemma OptionsAloneOrAfterEmptyParams(options: Option<ArgObject>)
    ensures ParseArguments([options], 0) == ParseArguments([Some(ArgObject(map[], Undefined, Undefined)), options], 0)
  {
  }

  /** `validateRequest(data, method)`: the `TypeError` it throws, if any. */
  function RequestValidation(s: Statics, data: Value, m: Method): (error: Option<Value>)
    ensures error.Some? <==>
      s.validateRequests && TypeDefFor(s.requestDefs, m).Defined? && !TypeDefFor(s.requestDefs, m).accepts(data)
    ensures error.Some? ==> error.value == ErrorObject("TypeError", RequestMessage)
  {
    if !s.validateRequests then None
    else match TypeDefFor(s.requestDefs, m)
      case Unknown => None
      case Defined(accepts) => if accepts(data) then None else Some(ErrorObject("TypeError", RequestMessage))
  }

  /** `validateResponse(response, method)`: resolves, or rejects with the payload extraction's
    * rejection or the `TypeError`. The payload is only extracted when a check is due. */
  function ResponseValidation(s: Statics, extractPayload: Value -> Result<Value, Value>, response: Value, m: Method)
    : (r: Result<(), Value>)
    ensures !s.validateResponses || TypeDefFor(s.responseDefs, m).Unknown? ==> r == Ok(())
    ensures s.validateResponses && TypeDefFor(s.responseDefs, m).Defined? ==>
      r == match extractPayload(response)
           case Err(e) => Err(e)
           case Ok(payload) =>
             if TypeDefFor(s.responseDefs, m).accepts(payload) then Ok(())
             else Err(ErrorObject("TypeError", ResponseMessage))
  {
    if !s.validateResponses then Ok(())
    else match TypeDefFor(s.responseDefs, m)
      case Unknown => Ok(())
      case Defined(accepts) =>
        match extractPayload(response)
        case Err(e) => Err(e)
        case Ok(payload) => if accepts(payload) then Ok(()) else Err(ErrorObject("TypeError", ResponseMessage))
  }

  /** The argument the transport's `sendRequest` receives. */
  datatype LegacyRequest = LegacyRequest(verb: Method, url: string, config: Value, data: Value)

  /** The steps of `sendRequest` before the transport: parse, generate the URL, validate the data. */
  function Prepared(s: Statics, m: Method, args: seq<Option<ArgObject>>): Result<LegacyRequest, Value>
  {
    var t := Compile(s.urlTemplate);
    var o := ParseArguments(args, ParametersCount(t));
    match Generate(t, o.urlParameters)
    case Err(e) => Err(e)
    case Ok(url) =>
      if RequestValidation(s, o.data, m).Some? then Err(RequestValidation(s, o.data, m).value)
      else Ok(LegacyRequest(m, url, o.config, o.data))
  }

  /** The steps of `sendRequest` after the transport: await the reply, validate it, return it. */
  function Finished(s: Statics, extractPayload: Value -> Result<Value, Value>, m: Method, reply: Result<Value, Value>)
    : Result<Value, Value>
  {
    match reply
    case Err(e) => Err(e)
    case Ok(response) =>
      match ResponseValidation(s, extractPayload, response, m)
      case Err(e) => Err(e)
      case Ok(_) => Ok(response)
  }

  /** A successful `sendRequest` hands back the transport's response untouched, and it fails
    * only through the transport, the extraction or the type check. */
  lemma FinishedReturnsRaw(s: Statics, extractPayload: Value -> Result<Value, Value>, m: Method, reply: Result<Value, Value>)
    ensures Finished(s, extractPayload, m, reply).Ok? ==> reply.Ok? && Finished(s, extractPayload, m, reply) == reply
    ensures reply.Ok? && (!s.validateResponses || TypeDefFor(s.responseDefs, m).Unknown?) ==>
      Finished(s, extractPayload, m, reply) == reply
    ensures reply.Err? ==> Finished(s, extractPayload, m, reply) == reply
  {
  }

  /** Data the request type definition rejects never reaches the transport: `sendRequest`
    * rejects with the `TypeError`, unless URL generation failed first. */
  lemma InvalidRequestNotSent(s: Statics, m: Method, args: seq<Option<ArgObject>>)
    requires s.validateRequests && TypeDefFor(s.requestDefs, m).Defined?
    requires !TypeDefFor(s.requestDefs, m).accepts(ParseArguments(args, ParametersCount(Compile(s.urlTemplate))).data)
    ensures Prepared(s, m, args).Err?
    ensures Generate(Compile(s.urlTemplate), ParseArguments(args, ParametersCount(Compile(s.urlTemplate))).urlParameters).Ok? ==>
      Prepared(s, m, args) == Err(ErrorObject("TypeError", RequestMessage))
  {
  }

  /** With the defaults, nothing is validated: a request is sent whenever its URL generates,
    * and whatever the transport replies is the result. */
  lemma DefaultsNeverValidate(m: Method, args: seq<Option<ArgObject>>, extractPayload: Value -> Result<Value, Value>, reply: Result<Value, Value>)
    ensures Prepared(Defaults, m, args).Ok? <==>
      Generate(Compile(""), ParseArguments(args, 0).urlParameters).Ok?
    ensures Finished(Defaults, extractPayload, m, reply) == reply
  {
    assert Compile("") == [];
  }

  /** A transport (`XHRInterface`): the replies its `sendRequest` gives, call by call, and its
    * `extractPayload`. */
  class LegacyXhr {
    const respond: nat -> Result<Value, Value>
    const extractPayload: Value -> Result<Value, Value>
    var sent: seq<LegacyRequest>

    constructor (respond: nat -> Result<Value, Value>, extractPayload: Value -> Result<Value, Value>)
      ensures this.respond == respond && this.extractPayload == extractPayload && sent == []
    {
      this.respond := respond;
      this.extractPayload := extractPayload;
      sent := [];
    }

    /** `DummyXHR`: both members throw "Method not implemented.". */
    constructor Dummy()
      ensures forall k :: respond(k) == Err(ErrorObject("Error", NotImplemented))
      ensures forall v :: extractPayload(v) == Err(ErrorObject("Error", NotImplemented))
      ensures sent == []
    {
      respond := (k: nat) => Err(ErrorObject("Error", NotImplemented));
      extractPayload := (v: Value) => Err(ErrorObject("Error", NotImplemented));
      sent := [];
    }

    method SendRequest(request: LegacyRequest) returns (reply: Result<Value, Value>)
      modifies this
      ensures sent == old(sent) + [request]
      ensures reply == respond(|old(sent)|)
    {
      reply := respond(|sent|);
      sent := sent + [request];
    }
  }

  class AdapterClass {
    /** The class this one extends; `None` for `BaseAdapter` itself. */
    const parent: Option<AdapterClass>
    ghost const depth: nat
    ghost const ancestors: set<AdapterClass>
    const statics: Statics
    const xhr: LegacyXhr
    /** The class's own `urlGenerator` property. `BaseAdapter` owns one initialised to
      * `undefined`; a subclass owns one only after it was assigned. */
    var urlGenerator: Option<Template>

    ghost predicate Linked()
      decreases depth
    {
      match parent
      case None => depth == 0 && ancestors == {}
      case Some(p) => p.depth < depth && ancestors == {p} + p.ancestors && this !in ancestors && p.Linked()
    }

    /** The own cache, if set, holds this class's compiled template. */
    ghost predicate Valid()
      reads this
    {
      urlGenerator.Some? ==> urlGenerator.value == Compile(statics.urlTemplate)
    }

    /** `BaseAdapter` itself: the default statics and a `DummyXHR`. */
    constructor Base()
      ensures Linked() && Valid() && parent.None?
      ensures statics == Defaults && fresh(xhr) && urlGenerator.None?
      ensures forall k :: xhr.respond(k) == Err(ErrorObject("Error", NotImplemented))
    {
      parent := None;
      depth := 0;
      ancestors := {};
      statics := Defaults;
      xhr := new LegacyXhr.Dummy();
      urlGenerator := None;
    }

    /** `class X extends parent { static ... }`, with its statics as `X` sees them. */
    constructor Extending(parent: AdapterClass, statics: Statics, xhr: LegacyXhr)
      requires parent.Linked()
      ensures Linked() && Valid() && this.parent == Some(parent)
      ensures this.statics == statics && this.xhr == xhr && urlGenerator.None?
    {
      this.parent := Some(parent);
      depth := parent.depth + 1;
      ancestors := {parent} + parent.ancestors;
      this.statics := statics;
      this.xhr := xhr;
      urlGenerator := None;
    }

    /** `this.urlGenerator` as JavaScript reads it: the own property, else the one up the
      * class chain. */
    function InheritedGenerator(): Option<Template>
      requires Linked()
      reads this, ancestors
      decreases depth
    {
      if urlGenerator.Some? then urlGenerator
      else if parent.Some? then parent.value.InheritedGenerator()
      else None
    }

    /** `getUrlGenerator()` as written: a cache found anywhere up the class chain is used, even
      * one compiled from an ancestor's template. */
    method GetUrlGeneratorAsWritten() returns (t: Template)
      requires Linked()
      modifies this`urlGenerator
      ensures old(InheritedGenerator()).Some? ==> t == old(InheritedGenerator()).value && urlGenerator == old(urlGenerator)
      ensures old(InheritedGenerator()).None? ==> t == Compile(statics.urlTemplate) && urlGenerator == Some(t)
    {
      var cached := InheritedGenerator();
      if cached.None? {
        urlGenerator := Some(Compile(statics.urlTemplate));
        return urlGenerator.value;
      }
      t := cached.value;
    }

    /** `getUrlGenerator()` reading the class's own property only: the template is compiled at
      * most once per class, and always from the class's own template. */
    method GetUrlGenerator() returns (t: Template)
      requires Valid()
      modifies this`urlGenerator
      ensures Valid()
      ensures t == Compile(statics.urlTemplate) && urlGenerator == Some(t)
      ensures old(urlGenerator).Some? ==> t == old(urlGenerator).value
    {
      if urlGenerator.None? {
        urlGenerator := Some(Compile(statics.urlTemplate));
      }
      t := urlGenerator.value;
    }

    /** `generateUrl(params)`. */
    method GenerateUrl(params: map<string, string>) returns (r: Result<string, Value>)
      requires Valid()
      modifies this`urlGenerator
      ensures Valid() && urlGenerator == Some(Compile(statics.urlTemplate))
      ensures r == Generate(Compile(statics.urlTemplate), params)
    {
      var t := GetUrlGenerator();
      r := Generate(t, params);
    }

    /** `sendRequest(method, args)`: parse → generate the URL → validate the data → send →
      * validate the response; the transport's response is returned unchanged. */
    method SendRequest(m: Method, args: seq<Option<ArgObject>>) returns (r: Result<Value, Value>)
      requires Valid()
      modifies this`urlGenerator, xhr
      ensures Valid() && urlGenerator == Some(Compile(statics.urlTemplate))
      ensures Prepared(statics, m, args).Err? ==> r == Err(Prepared(statics, m, args).error) && xhr.sent == old(xhr.sent)
      ensures Prepared(statics, m, args).Ok? ==>
        && xhr.sent == old(xhr.sent) + [Prepared(statics, m, args).value]
        && r == Finished(statics, xhr.extractPayload, m, xhr.respond(|old(xhr.sent)|))
    {
      var t := GetUrlGenerator();
      var options := ParseArguments(args, ParametersCount(t));
      var url := GenerateUrl(options.urlParameters);
      if url.Err? {
        return Err(url.error);
      }
      var invalid := RequestValidation(statics, options.data, m);
      if invalid.Some? {
        return Err(invalid.value);
      }
      var reply := xhr.SendRequest(LegacyRequest(m, url.value, options.config, options.data));
      if reply.Err? {
        return Err(reply.error);
      }
      var checked := ResponseValidation(statics, xhr.extractPayload, reply.value, m);
      if checked.Err? {
        return Err(checked.error);
      }
      r := reply;
    }

    method Delete(args: seq<Option<ArgObject>>) returns (r: Result<Value, Value>)
      requires Valid()
      modifies this`urlGenerator, xhr
      ensures Valid()
      ensures Prepared(statics, DELETE, args).Err? ==> r == Err(Prepared(statics, DELETE, args).error) && xhr.sent == old(xhr.sent)
      ensures Prepared(statics, DELETE, args).Ok? ==>
        && xhr.sent == old(xhr.sent) + [Prepared(statics, DELETE, args).value]
        && r == Finished(statics, xhr.extractPayload, DELETE, xhr.respond(|old(xhr.sent)|))
    {
      r := SendRequest(DELETE, args);
    }

    method Get(args: seq<Option<ArgObject>>) returns (r: Result<Value, Value>)
      requires Valid()
      modifies this`urlGenerator, xhr
      ensures Valid()
      ensures Prepared(statics, GET, args).Err? ==> r == Err(Prepared(statics, GET, args).error) && xhr.sent == old(xhr.sent)
      ensures Prepared(statics, GET, args).Ok? ==>
        && xhr.sent == old(xhr.sent) + [Prepared(statics, GET, args).value]
        && r == Finished(statics, xhr.extractPayload, GET, xhr.respond(|old(xhr.sent)|))
    {
      r := SendRequest(GET, args);
    }

    method Options(args: seq<Option<ArgObject>>) returns (r: Result<Value, Value>)
      requires Valid()
      modifies this`urlGenerator, xhr
      ensures Valid()
      ensures Prepared(statics, OPTIONS, args).Err? ==> r == Err(Prepared(statics, OPTIONS, args).error) && xhr.sent == old(xhr.sent)
      ensures Prepared(statics, OPTIONS, args).Ok? ==>
        && xhr.sent == old(xhr.sent) + [Prepared(statics, OPTIONS, args).value]
        && r == Finished(statics, xhr.extractPayload, OPTIONS, xhr.respond(|old(xhr.sent)|))
    {
      r := SendRequest(OPTIONS, args);
    }

    method Patch(args: seq<Option<ArgObject>>) returns (r: Result<Value, Value>)
      requires Valid()
      modifies this`urlGenerator, xhr
      ensures Valid()
      ensures Prepared(statics, PATCH, args).Err? ==> r == Err(Prepared(statics, PATCH, args).error) && xhr.sent == old(xhr.sent)
      ensures Prepared(statics, PATCH, args).Ok? ==>
        && xhr.sent == old(xhr.sent) + [Prepared(statics, PATCH, args).value]
        && r == Finished(statics, xhr.extractPayload, PATCH, xhr.respond(|old(xhr.sent)|))
    {
      r := SendRequest(PATCH, args);
    }

    method Post(args: seq<Option<ArgObject>>) returns (r: Result<Value, Value>)
      requires Valid()
      modifies this`urlGenerator, xhr
      ensures Valid()
      ensures Prepared(statics, POST, args).Err? ==> r == Err(Prepared(statics, POST, args).error) && xhr.sent == old(xhr.sent)
      ensures Prepared(statics, POST, args).Ok? ==>
        && xhr.sent == old(xhr.sent) + [Prepared(statics, POST, args).value]
        && r == Finished(statics, xhr.extractPayload, POST, xhr.respond(|old(xhr.sent)|))
    {
      r := SendRequest(POST, args);
    }

    method Put(args: seq<Option<ArgObject>>) returns (r: Result<Value, Value>)
      requires Valid()
      modifies this`urlGenerator, xhr
      ensures Valid()
      ensures Prepared(statics, PUT, args).Err? ==> r == Err(Prepared(statics, PUT, args).error) && xhr.sent == old(xhr.sent)
      ensures Prepared(statics, PUT, args).Ok? ==>
        && xhr.sent == old(xhr.sent) + [Prepared(statics, PUT, args).value]
        && r == Finished(statics, xhr.extractPayload, PUT, xhr.respond(|old(xhr.sent)|))
    {
      r := SendRequest(PUT, args);
    }
  }

  /** As written, a subclass of a class whose generator is already cached, and that has not
    * cached its own, gets its ancestor's generator: with templates "/a" and "/b", the subclass
    * generates from "/a". */
  lemma InheritedCacheShadowsOwnTemplate(child: AdapterClass, p: AdapterClass)
    requires child.Linked() && child.parent == Some(p) && child.urlGenerator.None?
    requires p.urlGenerator == Some(Compile("/a")) && child.statics.urlTemplate == "/b"
    ensures child.InheritedGenerator() == Some(Compile("/a"))
    ensures child.InheritedGenerator() != Some(Compile(child.statics.urlTemplate))
  {
    assert Compile("/a") == [Chr('/'), Chr('a')] by {
      assert Urls.FindChar("/a", '}') == -1;
      assert Compile("/a")[1..] == Compile("a");
      assert Urls.FindChar("a", '}') == -1;
    }
    assert Compile("/b") == [Chr('/'), Chr('b')] by {
      assert Urls.FindChar("/b", '}') == -1;
      assert Compile("/b")[1..] == Compile("b");
      assert Urls.FindChar("b", '}') == -1;
    }
  }
}

=== FILE: config.dfy ===
/** Request configuration objects (`RequestConfig` in src/adapter.ts:65-81, plus the `body` the
  * endpoint and method wrappers read). A configuration is a JavaScript object layered with
  * `extend`, so it is modelled as a map from property to value; a key present with `Undef`
  * is an own property holding `undefined`, which still hides what lies beneath it. */
module Configs {
  import opened Js
  import opened HeaderMap

  datatype Key =
    | BaseURL | BasePath | Timeout | AutoRetry | RetryDelay | Xhr
    | HeadersKey | AbortSignal | Validate | SearchParams | Body

  datatype Prop =
    | Undef
    | Text(s: string)
    | Number(n: int)
    | XhrOptions(options: map<string, Value>)
    | HeaderList(entries: seq<(string, string)>)   // a `HeadersInit` record or list of pairs
    | HeaderObject(headers: Headers)               // a `Headers` instance
    | Signal(id: nat)
    | Predicate(test: Value -> bool)
    | Query(params: seq<(string, Value)>)          // a record, its keys in insertion order
    | Payload(value: Value)

  type Config = map<Key, Prop>

  /** `config[key]`, `undefined` when the key is absent. */
  function PropOf(c: Config, k: Key): Prop
  {
    if k in c then c[k] else Undef
  }

  /** JavaScript truthiness of a property value; objects and functions are always truthy. */
  predicate TruthyProp(p: Prop)
  {
    match p
    case Undef => false
    case Text(s) => s != ""
    case Number(n) => n != 0
    case Payload(v) => Truthy(v)
    case _ => true
  }

  /** `config.basePath` when it is a non-empty string. */
  function BasePathOf(c: Config): Option<string>
  {
    match PropOf(c, BasePath)
    case Text(s) => if s != "" then Some(s) else None
    case _ => None
  }

  /** `config.baseURL` when it is a non-empty string. */
  function BaseUrlOf(c: Config): Option<string>
  {
    match PropOf(c, BaseURL)
    case Text(s) => if s != "" then Some(s) else None
    case _ => None
  }

  /** `config.xhr` when it is an object. */
  function XhrOf(c: Config): Option<map<string, Value>>
  {
    match PropOf(c, Xhr)
    case XhrOptions(o) => Some(o)
    case _ => None
  }

  /** `config.validate` when it is a predicate. */
  function ValidatorOf(c: Config): Option<Value -> bool>
  {
    match PropOf(c, Validate)
    case Predicate(f) => Some(f)
    case _ => None
  }

  /** `config.searchParams` when it is set. */
  function SearchParamsOf(c: Config): Option<seq<(string, Value)>>
  {
    match PropOf(c, SearchParams)
    case Query(entries) => Some(entries)
    case _ => None
  }

  /** `config?.body`: `undefined` unless a body is given. */
  function BodyOf(c: Option<Config>): Value
  {
    if c.None? then Undefined
    else match PropOf(c.value, Body)
      case Payload(v) => v
      case _ => Undefined
  }

  /** `new Headers(config.headers)` when `config.headers` is truthy. */
  function HeadersInitOf(p: Prop): Option<Headers>
  {
    match p
    case HeaderList(entries) => Some(FromEntries(entries))
    case HeaderObject(h) => Some(h)
    case _ => None
  }

  /** `config.headers` of a configuration the adapter has prepared (a `Headers` instance). */
  function HeadersOf(c: Config): Headers
  {
    match PropOf(c, HeadersKey)
    case HeaderObject(h) => h
    case HeaderList(entries) => FromEntries(entries)
    case _ => Empty
  }

  /** The query pairs `new URLSearchParams(record)` holds: each value converted with `String`. */
  function QueryPairs(entries: seq<(string, Value)>): (pairs: seq<(string, string)>)
    ensures |pairs| == |entries|
    ensures forall i :: 0 <= i < |entries| ==> pairs[i] == (entries[i].0, ToJsString(entries[i].1))
  {
    seq(|entries|, i requires 0 <= i < |entries| => (entries[i].0, ToJsString(entries[i].1)))
  }
}

=== FILE: deduplicator.dfy ===
/** `Deduplicator` (src/extensions/deduplicator.ts): GET requests to the same URL that overlap in
  * time share one transport round trip. Each URL key maps to one `PendingRequest`, a small state
  * machine that remembers the outcome and notifies the callers that wait for it.
  *
  * The asynchronous parts are separate steps: `Handle` is the before-request handler up to the
  * point where it returns a promise, `Settle` is the `then`/`catch`/`finally` continuation that
  * runs when the shared request completes, and `Expire` is the timer that forgets a remembered
  * entry. A promise is either already settled or waiting under a caller-chosen waiter id; the
  * waiters' notifications are logged in `delivered`. */
module Dedup {
  import opened Js
  import opened Configs
  import opened RequestErrors
  import opened Urls
  import opened Adapters
  import ArrRemove

  /** How a waiting promise is settled: fulfilled with the shared response or rejected. */
  datatype Settlement = Fulfilled(response: Response) | Rejected(reason: Thrown)

  /** The promise `getResolvable` returns. */
  datatype Promise = Settled(settlement: Settlement) | Waiting(waiter: nat)

  /** The notifications `forEach` sends: every waiter, in order, with the same settlement. */
  function Notify(waiters: seq<nat>, s: Settlement): (log: seq<(nat, Settlement)>)
    ensures |log| == |waiters|
    ensures forall i :: 0 <= i < |log| ==> log[i] == (waiters[i], s)
    decreases |waiters|
  {
    if waiters == [] then [] else [(waiters[0], s)] + Notify(waiters[1..], s)
  }

  /** Every waiter in `waiters` received at least one notification in `log`. */
  ghost predicate Informed(waiters: seq<nat>, log: seq<(nat, Settlement)>)
  {
    forall i :: 0 <= i < |waiters| ==> exists j :: 0 <= j < |log| && log[j].0 == waiters[i]
  }

  /** Notifying a list of waiters informs each of them, on top of whatever was sent before. */
  lemma NotifyInforms(waiters: seq<nat>, before: seq<(nat, Settlement)>, s: Settlement)
    ensures Informed(waiters, before + Notify(waiters, s))
  {
    var log := before + Notify(waiters, s);
    forall i | 0 <= i < |waiters|
      ensures exists j :: 0 <= j < |log| && log[j].0 == waiters[i]
    {
      assert log[|before| + i].0 == waiters[i];
    }
  }

  /** The handler as `register` builds it, seen through the adapter's before-request chain. The
    * closure takes a fourth `method` argument, but `Adapter.request` calls before-request
    * handlers with three, so `method === "GET"` never holds there and the handler returns
    * nothing. */
  const AsRegistered: Behaviour := BeforeRequest((u: Url, c: Config, b: Value) => Proceed)

  /** The default `shouldDedup`, `yes`. */
  const Yes: (Url, Config) -> bool := (u: Url, c: Config) => true

  class PendingRequest {
    var done: bool
    var result: Option<Response>
    var reason: Thrown
    var resolvables: seq<nat>
    /** Every notification sent to a waiter so far. */
    var delivered: seq<(nat, Settlement)>

    /** Nothing is delivered before completion, and once done no registered waiter is left
      * hanging. */
    ghost predicate Valid()
      reads this
    {
      && (!done ==> result.None? && delivered == [])
      && (done ==> Informed(resolvables, delivered))
    }

    constructor ()
      ensures Valid()
      ensures !done && result.None? && reason == Foreign(Undefined)
      ensures resolvables == [] && delivered == []
    {
      done := false;
      result := None;
      reason := Foreign(Undefined);
      resolvables := [];
      delivered := [];
    }

    /** `failed()`: done without a result, so that every waiter is told of a rejection. */
    function Failed(): (f: bool)
      reads this
      ensures f ==> done
      ensures f <==> done && Outcome().Rejected?
    {
      done && result.None?
    }

    /** What `getResolvable` settles with once the request is done. */
    function Outcome(): Settlement
      reads this
    {
      if result.Some? then Fulfilled(result.value) else Rejected(reason)
    }

    /** `getResolvable()`: settled at once after completion, otherwise a new waiter. */
    method GetResolvable(waiter: nat) returns (promise: Promise)
      requires Valid()
      modifies this
      ensures Valid()
      ensures done == old(done) && result == old(result) && reason == old(reason)
      ensures delivered == old(delivered)
      ensures done ==> promise == Settled(Outcome()) && resolvables == old(resolvables)
      ensures !done ==> promise == Waiting(waiter) && resolvables == old(resolvables) + [waiter]
    {
      if done {
        if result.Some? {
          promise := Settled(Fulfilled(result.value));
        } else {
          promise := Settled(Rejected(reason));
        }
      } else {
        resolvables := resolvables + [waiter];
        promise := Waiting(waiter);
      }
    }

    /** The `forEach` over `resolvables` that both `resolve` and `reject` run. */
    method NotifyAll(s: Settlement)
      modifies this`delivered
      ensures delivered == old(delivered) + Notify(resolvables, s)
    {
      var i := 0;
      while i < |resolvables|
        invariant 0 <= i <= |resolvables|
        invariant |delivered| == |old(delivered)| + i
        invariant delivered[..|old(delivered)|] == old(delivered)
        invariant forall j :: 0 <= j < i ==> delivered[|old(delivered)| + j] == (resolvables[j], s)
      {
        delivered := delivered + [(resolvables[i], s)];
        i := i + 1;
      }
      var expected := old(delivered) + Notify(resolvables, s);
      assert |delivered| == |expected|;
      forall j | 0 <= j < |delivered|
        ensures delivered[j] == expected[j]
      {
        if j < |old(delivered)| {
          assert delivered[j] == delivered[..|old(delivered)|][j];
        }
      }
    }

    /** `resolve(response)`: remembers the response and hands it to every waiter. */
    method Resolve(response: Response)
      requires Valid()
      modifies this
      ensures Valid() && !Failed()
      ensures done && result == Some(response) && reason == old(reason)
      ensures resolvables == old(resolvables)
      ensures delivered == old(delivered) + Notify(resolvables, Fulfilled(response))
    {
      done := true;
      result := Some(response);
      NotifyAll(Fulfilled(response));
      NotifyInforms(resolvables, old(delivered), Fulfilled(response));
    }

    /** `reject(reason)`: remembers the reason and hands it to every waiter. */
    method Reject(reason: Thrown)
      requires Valid()
      modifies this
      ensures Valid()
      ensures done && result == old(result) && this.reason == reason
      ensures Failed() <==> old(result).None?
      ensures resolvables == old(resolvables)
      ensures delivered == old(delivered) + Notify(resolvables, Rejected(reason))
    {
      done := true;
      this.reason := reason;
      NotifyAll(Rejected(reason));
      NotifyInforms(resolvables, old(delivered), Rejected(reason));
    }
  }

  /** A shared request the handler started: `requestInternal` for the adapter, whose outcome
    * `Settle` records under `key`. */
  datatype Launch = Launch(
    adapter: Adapter, key: string, pending: PendingRequest,
    url: Url, config: Config, body: Value, attemptsLeft: int)

  /** What the before-request handler returns: nothing, or the promise of a shared request
    * together with the request it started, if it started one. */
  datatype Handled = Skipped | Deduped(promise: Promise, launched: Option<Launch>)

  /** The settlement a `requestInternal` outcome produces: `then` resolves, `catch` rejects. */
  function SettlementOf(outcome: Result<Response, Thrown>): Settlement
  {
    if outcome.Ok? then Fulfilled(outcome.value) else Rejected(outcome.error)
  }

  class Deduplicator {
    const timeWindow: Option<int>
    const shouldDedup: (Url, Config) -> bool
    var connected: map<Adapter, Handler>
    var pending: map<string, PendingRequest>

    /** Every entry is a valid state machine of its own: no two keys share one. */
    ghost predicate Valid()
      reads this, pending.Values
    {
      && (forall k :: k in pending ==> pending[k].Valid())
      && (forall k1, k2 :: k1 in pending && k2 in pending && pending[k1] == pending[k2] ==> k1 == k2)
    }

    /** `timeWindow` is truthy: settled entries are remembered for a while. */
    predicate Remembers()
    {
      timeWindow.Some? && timeWindow.value != 0
    }

    constructor (timeWindow: Option<int>, shouldDedup: Option<(Url, Config) -> bool>)
      ensures Valid()
      ensures this.timeWindow == timeWindow
      ensures this.shouldDedup == if shouldDedup.Some? then shouldDedup.value else Yes
      ensures connected == map[] && pending == map[]
    {
      this.timeWindow := timeWindow;
      var test: (Url, Config) -> bool := if shouldDedup.Some? then shouldDedup.value else Yes;
      this.shouldDedup := test;
      connected := map[];
      pending := map[];
    }

    /** `register(adapter)`: adds one before-request handler per adapter and records it. */
    method Register(adapter: Adapter)
      modifies this, adapter
      ensures pending == old(pending)
      ensures adapter in old(connected) ==> connected == old(connected) && unchanged(adapter)
      ensures adapter !in old(connected) ==>
        && adapter in connected && fresh(connected[adapter])
        && connected == old(connected)[adapter := connected[adapter]]
        && connected[adapter].behaviour == AsRegistered
        && adapter.beforeRequestHandlers == old(adapter.beforeRequestHandlers) + [connected[adapter]]
      ensures unchanged(adapter`baseConfig, adapter`baseHeaders)
      ensures adapter.afterResponseHandlers == old(adapter.afterResponseHandlers)
      ensures adapter.afterBuildUrlHandlers == old(adapter.afterBuildUrlHandlers)
      ensures adapter.afterRequestErrorHandlers == old(adapter.afterRequestErrorHandlers)
    {
      if adapter in connected {
        return;
      }
      var handler := new Handler(AsRegistered);
      adapter.AddHandler("beforeRequest", handler);
      connected := connected[adapter := handler];
    }

    /** `unregister(adapter)`: removes the recorded handler and forgets the adapter. */
    method Unregister(adapter: Adapter)
      modifies this, adapter
      ensures pending == old(pending)
      ensures connected == old(connected) - {adapter}
      ensures adapter !in old(connected) ==> unchanged(adapter)
      ensures adapter in old(connected) ==>
        adapter.beforeRequestHandlers
          == ArrRemove.WithoutFirst(old(adapter.beforeRequestHandlers), old(connected[adapter]))
      ensures unchanged(adapter`baseConfig, adapter`baseHeaders)
      ensures adapter.afterResponseHandlers == old(adapter.afterResponseHandlers)
      ensures adapter.afterBuildUrlHandlers == old(adapter.afterBuildUrlHandlers)
      ensures adapter.afterRequestErrorHandlers == old(adapter.afterRequestErrorHandlers)
    {
      if adapter in connected {
        var handler := connected[adapter];
        adapter.RemoveHandler("beforeRequest", handler);
        connected := connected - {adapter};
      }
    }

    /** The handler `register` builds, called with the method as its fourth argument. A GET
      * that `shouldDedup` accepts joins the entry for its URL, or creates one and starts the
      * shared request; anything else is left alone. In the source the handler is a closure that
      * captures the adapter `register` was called with, so the shared request runs on that
      * adapter even when an extended child inherits the handler; `adapter` is that captured
      * adapter, not the one whose chain is running. */
    method Handle(adapter: Adapter, url: Url, config: Config, body: Value, m: Option<Method>, waiter: nat)
      returns (r: Handled)
      requires Valid()
      modifies this, pending.Values
      ensures Valid()
      ensures connected == old(connected)
      ensures !(m == Some(GET) && shouldDedup(url, config)) ==>
        r == Skipped && pending == old(pending) && forall p :: p in old(pending.Values) ==> unchanged(p)
      ensures m == Some(GET) && shouldDedup(url, config) && Href(url) in old(pending) ==>
        && pending == old(pending)
        && r == Deduped(if old(pending[Href(url)].done) then Settled(old(pending[Href(url)].Outcome())) else Waiting(waiter), None)
        && pending[Href(url)].resolvables
             == old(pending[Href(url)].resolvables) + (if old(pending[Href(url)].done) then [] else [waiter])
        && pending[Href(url)].done == old(pending[Href(url)].done)
        && pending[Href(url)].result == old(pending[Href(url)].result)
        && pending[Href(url)].reason == old(pending[Href(url)].reason)
        && pending[Href(url)].delivered == old(pending[Href(url)].delivered)
        && forall k :: k in pending && k != Href(url) ==> unchanged(pending[k])
      ensures m == Some(GET) && shouldDedup(url, config) && Href(url) !in old(pending) ==>
        && Href(url) in pending && fresh(pending[Href(url)])
        && pending == old(pending)[Href(url) := pending[Href(url)]]
        && !pending[Href(url)].done && pending[Href(url)].resolvables == [waiter]
        && r == Deduped(Waiting(waiter), Some(Launch(adapter, Href(url), pending[Href(url)], url, config, body, AttemptsLeft(config))))
        && forall p :: p in old(pending.Values) ==> unchanged(p)
    {
      if !(m == Some(GET) && shouldDedup(url, config)) {
        return Skipped;
      }
      var key := Href(url);
      if key in pending {
        var existing := pending[key];
        var promise := existing.GetResolvable(waiter);
        r := Deduped(promise, None);
      } else {
        var created := new PendingRequest();
        pending := pending[key := created];
        var promise := created.GetResolvable(waiter);
        r := Deduped(promise, Some(Launch(adapter, key, created, url, config, body, AttemptsLeft(config))));
      }
    }

    /** The continuation of a shared request: settle the entry, then forget it at once if it
      * failed or no time window is set; otherwise it stays until `Expire`. */
    method Settle(key: string, p: PendingRequest, outcome: Result<Response, Thrown>)
      requires Valid() && p.Valid()
      modifies this, p
      ensures Valid()
      ensures connected == old(connected)
      ensures p.done && p.resolvables == old(p.resolvables)
      ensures p.delivered == old(p.delivered) + Notify(p.resolvables, SettlementOf(outcome))
      ensures outcome.Ok? ==> p.result == Some(outcome.value)
      ensures outcome.Err? ==> p.result == old(p.result) && p.reason == outcome.error
      ensures pending == if Remembers() && !p.Failed() then old(pending) else old(pending) - {key}
    {
      if outcome.Ok? {
        p.Resolve(outcome.value);
      } else {
        p.Reject(outcome.error);
      }
      if !(Remembers() && !p.Failed()) {
        pending := pending - {key};
      }
    }

    /** The `setTimeout` callback of a remembered entry. */
    method Expire(key: string)
      requires Valid()
      modifies this
      ensures Valid()
      ensures connected == old(connected)
      ensures pending == old(pending) - {key}
    {
      pending := pending - {key};
    }

    /** A started shared request running to completion: `requestInternal` with the attempts the
      * handler computed, then the continuation. */
    method Complete(l: Launch)
      requires Valid() && l.pending.Valid() && l.adapter.Linked()
      modifies this, l.pending, l.adapter.transport
      ensures Valid()
      ensures connected == old(connected)
      ensures l.pending.done && l.pending.resolvables == old(l.pending.resolvables)
      ensures l.pending.delivered == old(l.pending.delivered)
        + Notify(l.pending.resolvables, SettlementOf(
            Retrying(old(l.adapter.State()), l.config, |old(l.adapter.transport.sent)|, l.attemptsLeft).0))
      ensures var outcome := Retrying(old(l.adapter.State()), l.config, |old(l.adapter.transport.sent)|, l.attemptsLeft).0;
        && (outcome.Ok? ==> l.pending.result == Some(outcome.value))
        && (outcome.Err? ==> l.pending.result == old(l.pending.result) && l.pending.reason == outcome.error)
      ensures pending == if Remembers() && !l.pending.Failed() then old(pending) else old(pending) - {l.key}
      ensures |l.adapter.transport.sent| == |old(l.adapter.transport.sent)|
        + Retrying(old(l.adapter.State()), l.config, |old(l.adapter.transport.sent)|, l.attemptsLeft).1
      ensures l.adapter.transport.sent == old(l.adapter.transport.sent)
        + Repeat(SentFor(GET, l.url, l.config, l.body), |l.adapter.transport.sent| - |old(l.adapter.transport.sent)|)
    {
      ghost var p := l.adapter.State();
      ghost var k := |l.adapter.transport.sent|;
      var outcome := l.adapter.RequestInternal(GET, l.url, l.config, l.body, l.attemptsLeft);
      assert outcome == Retrying(p, l.config, k, l.attemptsLeft).0;
      assert pending == old(pending) && connected == old(connected);
      Settle(l.key, l.pending, outcome);
    }
  }

  /** `unregister` undoes `register`: the handler `register` appends is fresh, so removing its
    * first occurrence gives back the list as it was. */
  lemma {:induction false} UnregisterUndoesRegister(handlers: seq<Handler>, h: Handler)
    requires h !in handlers
    ensures ArrRemove.WithoutFirst(handlers + [h], h) == handlers
    decreases |handlers|
  {
    if handlers != [] {
      assert (handlers + [h])[1..] == handlers[1..] + [h];
      UnregisterUndoesRegister(handlers[1..], h);
    }
  }

  /** As registered, the handler never takes part in a request: appending it to a
    * before-request chain leaves the chain's outcome as it was, so overlapping GETs to one URL
    * each go on to the transport. */
  lemma RegisteredHandlerIsInert(hs: seq<Handler>, h: Handler, start: Prepared)
    requires h.behaviour == AsRegistered
    ensures RunBefore(hs + [h], start) == RunBefore(hs, start)
  {
    assert (hs + [h])[..|hs|] == hs;
  }
}

=== FILE: endpoint.dfy ===
/** The declarative endpoint facade over an adapter (src/adapter-endpoint.ts, and `endpoint`
  * of src/adapter.ts). */
module Endpoints {
  import opened Js
  import opened HeaderMap
  import opened Configs
  import opened RequestErrors
  import opened Transports
  import opened Urls
  import opened UrlTemplate
  import opened Adapters
  import opened AdapterProperties
  import Objects = Extend

  /** `AdapterEndpointConfig`: the URL template, the declared search parameters (a name starting
    * with '?' is optional), and per-method response and request-body validators. */
  datatype EndpointParams = EndpointParams(
    url: string,
    searchParams: Option<seq<string>>,
    validate: map<Method, Value -> bool>,
    validateRequest: map<Method, Value -> bool>)

  /** One positional argument of an entry point: `undefined`, or an object, read either as URL
    * parameters (its string properties) or as a request configuration. */
  datatype Arg = NoArg | Object(params: map<string, string>, config: Config)

  /** `args[i]`, `undefined` past the end. */
  function ArgAt(args: seq<Arg>, i: nat): Arg
  {
    if i < |args| then args[i] else NoArg
  }

  /** An argument read as a request configuration; `undefined` is no configuration. */
  function ConfigOf(a: Arg): Option<Config>
  {
    if a.Object? then Some(a.config) else None
  }

  /** `resolveArgs`: two arguments are URL parameters then configuration; a single argument is
    * the configuration when the template has no placeholders, and the URL parameters otherwise. */
  function ResolveArgs(args: seq<Arg>, placeholders: nat): (r: (Arg, Arg))
    ensures |args| == 2 ==> r == (args[0], args[1])
    ensures |args| != 2 && placeholders == 0 ==> r == (NoArg, ArgAt(args, 0))
    ensures |args| != 2 && placeholders > 0 ==> r == (ArgAt(args, 0), NoArg)
  {
    if |args| == 2 then (args[0], args[1])
    else if placeholders == 0 then (NoArg, ArgAt(args, 0))
    else (ArgAt(args, 0), NoArg)
  }

  /** The URL an entry point requests: the generated template when URL parameters are given,
    * the template text as it is otherwise. */
  function EndpointUrl(template: Template, text: string, urlParams: Arg): Result<string, Value>
  {
    if urlParams.Object? then Generate(template, urlParams.params) else Ok(text)
  }

  /** Without placeholders in the template, an entry point requests the template text itself,
    * whether URL parameters are given or not. */
  lemma EndpointUrlIsTemplateText(text: string, urlParams: Arg)
    requires ParametersCount(Compile(text)) == 0
    ensures EndpointUrl(Compile(text), text, urlParams) == Ok(text)
  {
    if urlParams.Object? {
      GenerateWithoutPlaceholders(text, urlParams.params);
    }
  }

  // --- required search parameters ---

  /** A declared name is required unless it starts with '?'. */
  predicate Required(name: string)
  {
    !(|name| > 0 && name[0] == '?')
  }

  /** `config.searchParams[name]`: the value of the first entry with that name, `undefined` when
    * there is none or the search parameters are not a record. */
  function SearchParamValue(p: Prop, name: string): Value
  {
    match p
    case Query(entries) => QueryValue(entries, name)
    case _ => Undefined
  }

  function QueryValue(entries: seq<(string, Value)>, name: string): Value
    decreases |entries|
  {
    if entries == [] then Undefined
    else if entries[0].0 == name then entries[0].1
    else QueryValue(entries[1..], name)
  }

  /** The test of `validateSearchParams` for one name: no configuration, no (truthy) search
    * parameters, or a null or undefined value. */
  predicate MissingParam(config: Option<Config>, name: string)
  {
    || config.None?
    || !TruthyProp(PropOf(config.value, SearchParams))
    || IsNullish(SearchParamValue(PropOf(config.value, SearchParams), name))
  }

  /** The first required declared name the configuration does not supply, if any. */
  function FirstMissing(names: seq<string>, config: Option<Config>): Option<string>
    decreases |names|
  {
    if names == [] then None
    else if Required(names[0]) && MissingParam(config, names[0]) then Some(names[0])
    else FirstMissing(names[1..], config)
  }

  /** `FirstMissing` names the earliest required name that is missing, and only that one. */
  lemma {:induction false} FirstMissingIsFirst(names: seq<string>, config: Option<Config>)
    ensures FirstMissing(names, config).None? <==>
      forall i :: 0 <= i < |names| ==> !(Required(names[i]) && MissingParam(config, names[i]))
    ensures FirstMissing(names, config).Some? ==>
      exists i :: 0 <= i < |names| && names[i] == FirstMissing(names, config).value
        && Required(names[i]) && MissingParam(config, names[i])
        && forall j :: 0 <= j < i ==> !(Required(names[j]) && MissingParam(config, names[j]))
    decreases |names|
  {
    if names != [] && !(Required(names[0]) && MissingParam(config, names[0])) {
      FirstMissingIsFirst(names[1..], config);
      if FirstMissing(names, config).Some? {
        var i :| 0 <= i < |names[1..]| && names[1..][i] == FirstMissing(names, config).value
          && Required(names[1..][i]) && MissingParam(config, names[1..][i])
          && forall j :: 0 <= j < i ==> !(Required(names[1..][j]) && MissingParam(config, names[1..][j]));
        assert names[i + 1] == names[1..][i];
        forall j | 0 <= j < i + 1
          ensures !(Required(names[j]) && MissingParam(config, names[j]))
        {
          if j > 0 {
            assert names[j] == names[1..][j - 1];
          }
        }
      } else {
        forall i | 0 <= i < |names|
          ensures !(Required(names[i]) && MissingParam(config, names[i]))
        {
          if i > 0 {
            assert names[i] == names[1..][i - 1];
          }
        }
      }
    }
  }

  /** The error `validateSearchParams` throws, if any. */
  function SearchParamsError(declared: Option<seq<string>>, config: Option<Config>, m: Method, url: string)
    : Option<RequestError>
  {
    var names := if declared.Some? then declared.value else [];
    match FirstMissing(names, config)
    case None => None
    case Some(name) =>
      Some(RequestError("Missing a required search param: " + name, config, Some(m), Some(url), None, None, None))
  }

  // --- the validator an entry point attaches ---

  /** `params.validate?.<method>` as a configuration value: the validator, or `undefined`. */
  function ValidatorProp(validators: map<Method, Value -> bool>, m: Method): Prop
  {
    if m in validators then Predicate(validators[m]) else Undef
  }

  /** `config ? extend(config, { validate }) : { validate }`. */
  function WithValidator(config: Option<Config>, validate: Prop): Config
  {
    var own: Config := map[Validate := validate];
    if config.Some? then Objects.Layered(config.value, Some(own)) else own
  }

  /** The attached validator always wins over the caller's, even when it is `undefined`; every
    * other key is the caller's. */
  lemma WithValidatorLookup(config: Option<Config>, validate: Prop, key: Key)
    ensures PropOf(WithValidator(config, validate), key) ==
      if key == Validate then validate else if config.Some? then PropOf(config.value, key) else Undef
  {
  }

  /** The body an entry point sends: `config?.body` for methods that carry one. */
  function EntryBody(m: Method, config: Option<Config>): Value
  {
    if CarriesBody(m) then BodyOf(config) else Undefined
  }

  /** The request-body check of POST, PATCH, PUT and DELETE: a declared validator that rejects
    * `config?.body` gives "Invalid request body". */
  function BodyError(ep: EndpointParams, m: Method, config: Option<Config>, url: string): Option<RequestError>
  {
    if CarriesBody(m) && m in ep.validateRequest && !ep.validateRequest[m](BodyOf(config)) then
      Some(RequestError("Invalid request body", config, Some(m), Some(url), None, None, None))
    else None
  }

  /** The checks an entry point makes before delegating, in order: the URL, the required search
    * parameters, then the request body. On success, the URL and the call's configuration. */
  function EntryChecks(ep: EndpointParams, template: Template, m: Method, args: seq<Arg>)
    : Result<(string, Option<Config>), Thrown>
  {
    var (urlParams, configArg) := ResolveArgs(args, ParametersCount(template));
    var config := ConfigOf(configArg);
    match EndpointUrl(template, ep.url, urlParams)
    case Err(e) => Err(Foreign(e))
    case Ok(url) =>
      if SearchParamsError(ep.searchParams, config, m, url).Some? then
        Err(AdapterError(SearchParamsError(ep.searchParams, config, m, url).value))
      else if BodyError(ep, m, config, url).Some? then
        Err(AdapterError(BodyError(ep, m, config, url).value))
      else Ok((url, config))
  }

  /** What an entry point settles with, and how many transport calls it makes, when the
    * transport has been called `k` times: a failed check rejects without any call; otherwise the
    * adapter's `request` runs with the method's own validator attached. */
  function EntryOutcome(p: Pipeline, ep: EndpointParams, template: Template, m: Method, args: seq<Arg>, k: nat)
    : (Result<Response, Thrown>, nat)
  {
    match EntryChecks(ep, template, m, args)
    case Err(e) => (Err(e), 0)
    case Ok(checked) => Delegated(p, ep, m, checked.0, checked.1, k)
  }

  /** `adapter.request` with the method's own validator attached; its rejection is the entry
    * point's. */
  function Delegated(p: Pipeline, ep: EndpointParams, m: Method, url: string, config: Option<Config>, k: nat)
    : (Result<Response, Thrown>, nat)
  {
    var out := RequestOutcome(p, m, url, Some(WithValidator(config, ValidatorProp(ep.validate, m))), EntryBody(m, config), k);
    (if out.0.Ok? then Ok(out.0.value) else Err(AdapterError(out.0.error)), out.1)
  }

  /** The request every transport call of a delegated entry point carries, if any. */
  function DelegatedRequest(p: Pipeline, ep: EndpointParams, m: Method, url: string, config: Option<Config>)
    : Option<SentRequest>
  {
    RequestedCall(p, m, url, Some(WithValidator(config, ValidatorProp(ep.validate, m))), EntryBody(m, config))
  }

  /** The request every transport call of an entry point carries; none when a check fails. */
  function EntryRequest(p: Pipeline, ep: EndpointParams, template: Template, m: Method, args: seq<Arg>)
    : Option<SentRequest>
  {
    match EntryChecks(ep, template, m, args)
    case Err(_) => None
    case Ok(checked) => DelegatedRequest(p, ep, m, checked.0, checked.1)
  }

  lemma EntryCases(p: Pipeline, ep: EndpointParams, template: Template, m: Method, args: seq<Arg>, k: nat)
    ensures var c := EntryChecks(ep, template, m, args);
      && (c.Err? ==> EntryOutcome(p, ep, template, m, args, k) == (Err(c.error), 0)
                     && EntryRequest(p, ep, template, m, args).None?)
      && (c.Ok? ==> EntryOutcome(p, ep, template, m, args, k) == Delegated(p, ep, m, c.value.0, c.value.1, k)
                    && EntryRequest(p, ep, template, m, args) == DelegatedRequest(p, ep, m, c.value.0, c.value.1))
  {
  }

  /** The `search` an `url()` call sets: the serialized search parameters when they are given. */
  function UrlOutcome(p: Pipeline, template: Template, args: seq<Arg>): Result<string, Value>
  {
    var (params, config) :=
      if ParametersCount(template) == 0 then (NoArg, ArgAt(args, 0)) else (ArgAt(args, 0), ArgAt(args, 1));
    var conf := Objects.Layered(p.baseConfig, ConfigOf(config));
    match Generate(template, if params.Object? then params.params else map[])
    case Err(e) => Err(e)
    case Ok(path) =>
      match PrepareUrl(path, conf, p.windowOrigin)
      case Err(e) => Err(e)
      case Ok(u) =>
        var withQuery :=
          if config.Object? && SearchParamsOf(config.config).Some?
          then WithSearch(u, SerializeForm(QueryPairs(SearchParamsOf(config.config).value)))
          else u;
        Ok(Href(RunUrl(p.urls, withQuery)))
  }

  /** The checks run in order: a URL that cannot be generated throws the templater's error; else
    * the first missing required search parameter is reported, whatever the body; else a rejected
    * body (only for methods that carry one) gives "Invalid request body"; else the call goes on
    * with the URL and the caller's configuration. */
  lemma EntryChecksOrder(ep: EndpointParams, template: Template, m: Method, args: seq<Arg>)
    ensures var (urlParams, configArg) := ResolveArgs(args, ParametersCount(template));
      var config := ConfigOf(configArg);
      var url := EndpointUrl(template, ep.url, urlParams);
      var missing := FirstMissing(if ep.searchParams.Some? then ep.searchParams.value else [], config);
      var badBody := CarriesBody(m) && m in ep.validateRequest && !ep.validateRequest[m](BodyOf(config));
      var c := EntryChecks(ep, template, m, args);
      && (url.Err? ==> c == Err(Foreign(url.error)))
      && (url.Ok? && missing.Some? ==>
            c.Err? && c.error.AdapterError?
            && c.error.error.reason == "Missing a required search param: " + missing.value)
      && (url.Ok? && missing.None? && badBody ==>
            c.Err? && c.error.AdapterError? && c.error.error.reason == "Invalid request body")
      && (c.Ok? <==> url.Ok? && missing.None? && !badBody)
      && (c.Ok? ==> c.value == (url.value, config))
  {
  }

  /** GET and OPTIONS never check a body, and send none. */
  lemma NoBodyForGetOrOptions(ep: EndpointParams, m: Method, config: Option<Config>, url: string)
    requires m == GET || m == OPTIONS
    ensures BodyError(ep, m, config, url).None?
    ensures EntryBody(m, config) == Undefined
  {
  }

  /** A failed check rejects the entry point without a single transport call; a passed one calls
    * the adapter's `request` with the entry point's own method, the checked URL and the
    * configuration carrying the method's validator. */
  lemma FailedCheckNeverSent(p: Pipeline, ep: EndpointParams, template: Template, m: Method, args: seq<Arg>, k: nat)
    ensures var c := EntryChecks(ep, template, m, args);
      var out := EntryOutcome(p, ep, template, m, args, k);
      && (c.Err? ==> out == (Err(c.error), 0))
      && (c.Ok? ==>
            var req := RequestOutcome(p, m, c.value.0, Some(WithValidator(c.value.1, ValidatorProp(ep.validate, m))),
                                      EntryBody(m, c.value.1), k);
            && out.1 == req.1
            && (out.0.Ok? <==> req.0.Ok?)
            && (req.0.Ok? ==> out.0.value == req.0.value)
            && (req.0.Err? ==> out.0.error == AdapterError(req.0.error)))
  {
  }

  /** Without before-request hooks, an entry point whose checks pass and whose URL builds sends,
    * on every call, its own verb to the built URL; POST, PATCH, PUT and DELETE send the
    * `config.body` that was checked, which the declared request-body validator accepted, and GET
    * and OPTIONS send no body. */
  lemma EntrySendsCheckedBody(p: Pipeline, ep: EndpointParams, template: Template, m: Method, args: seq<Arg>)
    requires p.before == []
    requires EntryChecks(ep, template, m, args).Ok?
    requires var c := EntryChecks(ep, template, m, args).value;
      var conf := RequestConfigFor(m, Some(WithValidator(c.1, ValidatorProp(ep.validate, m))), p.baseConfig, p.baseHeaders);
      BuiltUrl(p, c.0, conf).Ok?
    ensures var c := EntryChecks(ep, template, m, args).value;
      var conf := RequestConfigFor(m, Some(WithValidator(c.1, ValidatorProp(ep.validate, m))), p.baseConfig, p.baseHeaders);
      var sent := EntryRequest(p, ep, template, m, args);
      && sent.Some?
      && sent.value.verb == m
      && sent.value.url == Href(BuiltUrl(p, c.0, conf).value)
      && (CarriesBody(m) ==> sent.value.body == BodyOf(c.1))
      && (CarriesBody(m) && m in ep.validateRequest ==> ep.validateRequest[m](sent.value.body))
      && (!CarriesBody(m) ==> sent.value.body == Undefined)
  {
    var c := EntryChecks(ep, template, m, args).value;
    EntryCases(p, ep, template, m, args, 0);
    DelegatedWithoutHooks(p, ep, m, c.0, c.1);
    EntryChecksOrder(ep, template, m, args);
  }

  lemma DelegatedWithoutHooks(p: Pipeline, ep: EndpointParams, m: Method, url: string, config: Option<Config>)
    requires p.before == []
    requires BuiltUrl(p, url, RequestConfigFor(m, Some(WithValidator(config, ValidatorProp(ep.validate, m))), p.baseConfig, p.baseHeaders)).Ok?
    ensures var conf := RequestConfigFor(m, Some(WithValidator(config, ValidatorProp(ep.validate, m))), p.baseConfig, p.baseHeaders);
      DelegatedRequest(p, ep, m, url, config) == Some(SentFor(m, BuiltUrl(p, url, conf).value, conf, EntryBody(m, config)))
  {
    var conf := RequestConfigFor(m, Some(WithValidator(config, ValidatorProp(ep.validate, m))), p.baseConfig, p.baseHeaders);
    var built := BuiltUrl(p, url, conf);
    var body := EntryBody(m, config);
    assert DelegatedRequest(p, ep, m, url, config) == DispatchedRequest(p, m, built, conf, body);
    assert RunBefore(p.before, (built.value, conf, body)) == Continue((built.value, conf, body));
  }

  /** Attaching the validator changes no property other than `validate`. */
  lemma WithValidatorKeepsKey(baseConf: Config, config: Option<Config>, validate: Prop, key: Key)
    requires key != Validate
    ensures PropOf(baseConf + WithValidator(config, validate), key) == PropOf(Objects.Layered(baseConf, config), key)
  {
    var own: Config := map[Validate := validate];
    if config.Some? {
      assert WithValidator(config, validate) == config.value + own;
    } else {
      assert WithValidator(config, validate) == own;
    }
  }

  /** A property other than the headers, `xhr` and `validate` reads the same in the configuration
    * an entry point hands to `request` and in the base configuration extended by the caller's. */
  lemma EntryConfigKeepsKey(p: Pipeline, m: Method, config: Option<Config>, validate: Prop, key: Key)
    requires key != HeadersKey && key != Xhr && key != Validate
    ensures PropOf(RequestConfigFor(m, Some(WithValidator(config, validate)), p.baseConfig, p.baseHeaders), key)
      == PropOf(Objects.Layered(p.baseConfig, config), key)
  {
    RequestConfigLookup(m, Some(WithValidator(config, validate)), p.baseConfig, p.baseHeaders, key);
    WithValidatorKeepsKey(p.baseConfig, config, validate, key);
  }

  /** `url()` reads its arguments as the entry points do when there are at most two, and two
    * only for a template with placeholders. */
  lemma UrlArgsAsEntryArgs(args: seq<Arg>, placeholders: nat)
    requires |args| <= 2 && (|args| == 2 ==> placeholders > 0)
    ensures ResolveArgs(args, placeholders)
      == if placeholders == 0 then (NoArg, ArgAt(args, 0)) else (ArgAt(args, 0), ArgAt(args, 1))
  {
  }

  /** The URL `request` builds from a configuration that agrees with `url()`'s on the base URL
    * and the base path, and whose search parameters are the call's own, is the one `url()` builds. */
  lemma BuiltUrlAgrees(p: Pipeline, url: string, conf: Config, urlConf: Config, configArg: Arg)
    requires PropOf(conf, BaseURL) == PropOf(urlConf, BaseURL) && PropOf(conf, BasePath) == PropOf(urlConf, BasePath)
    requires SearchParamsOf(conf) == if configArg.Object? then SearchParamsOf(configArg.config) else None
    ensures var prepared := PrepareUrl(url, urlConf, p.windowOrigin);
      && (BuiltUrl(p, url, conf).Err? <==> prepared.Err?)
      && (prepared.Ok? ==> BuiltUrl(p, url, conf).value == RunUrl(p.urls,
            if configArg.Object? && SearchParamsOf(configArg.config).Some?
            then WithSearch(prepared.value, SerializeForm(QueryPairs(SearchParamsOf(configArg.config).value)))
            else prepared.value))
  {
    assert GetBaseUrl(conf, p.windowOrigin) == GetBaseUrl(urlConf, p.windowOrigin);
    assert PrepareUrl(url, conf, p.windowOrigin) == PrepareUrl(url, urlConf, p.windowOrigin);
  }

  /** The search parameters an entry point's configuration carries are the call's own, when the
    * base configuration sets none the call does not replace. */
  lemma EntrySearchParams(p: Pipeline, m: Method, configArg: Arg, validate: Prop)
    requires SearchParamsOf(p.baseConfig).None? || (configArg.Object? && SearchParams in configArg.config)
    ensures SearchParamsOf(RequestConfigFor(m, Some(WithValidator(ConfigOf(configArg), validate)), p.baseConfig, p.baseHeaders))
      == if configArg.Object? then SearchParamsOf(configArg.config) else None
  {
    EntryConfigKeepsKey(p, m, ConfigOf(configArg), validate, SearchParams);
  }

  /** `url()` builds the very URL an entry point sends to, when the arguments mean the same to
    * both (at most two, and two only for a template with placeholders), URL parameters are given
    * or the template has none, the base configuration sets no search parameters the call does not
    * replace, and no before-request hook overrides the URL. */
  lemma UrlIsEntryUrl(p: Pipeline, ep: EndpointParams, template: Template, m: Method, args: seq<Arg>)
    requires template == Compile(ep.url)
    requires p.before == []
    requires |args| <= 2 && (|args| == 2 ==> ParametersCount(template) > 0)
    requires ParametersCount(template) == 0 || ArgAt(args, 0).Object?
    requires var configArg := ResolveArgs(args, ParametersCount(template)).1;
      SearchParamsOf(p.baseConfig).None? || (configArg.Object? && SearchParams in configArg.config)
    requires EntryChecks(ep, template, m, args).Ok?
    ensures var sent := EntryRequest(p, ep, template, m, args);
      && (sent.Some? <==> UrlOutcome(p, template, args).Ok?)
      && (sent.Some? ==> sent.value.url == UrlOutcome(p, template, args).value)
  {
    UrlArgsAsEntryArgs(args, ParametersCount(template));
    var (urlParams, configArg) := ResolveArgs(args, ParametersCount(template));
    var config := ConfigOf(configArg);
    var url := EntryChecks(ep, template, m, args).value.0;
    assert EntryChecks(ep, template, m, args).value.1 == config;
    if urlParams.NoArg? {
      GenerateWithoutPlaceholders(ep.url, map[]);
    }
    assert Generate(template, if urlParams.Object? then urlParams.params else map[]) == Ok(url);

    var validate := ValidatorProp(ep.validate, m);
    var entryConf := RequestConfigFor(m, Some(WithValidator(config, validate)), p.baseConfig, p.baseHeaders);
    var urlConf := Objects.Layered(p.baseConfig, config);
    EntryConfigKeepsKey(p, m, config, validate, BaseURL);
    EntryConfigKeepsKey(p, m, config, validate, BasePath);
    EntrySearchParams(p, m, configArg, validate);
    BuiltUrlAgrees(p, url, entryConf, urlConf, configArg);

    var prepared := PrepareUrl(url, urlConf, p.windowOrigin);
    assert UrlOutcome(p, template, args) == if prepared.Err? then Err(prepared.error) else Ok(Href(RunUrl(p.urls,
      if configArg.Object? && SearchParamsOf(configArg.config).Some?
      then WithSearch(prepared.value, SerializeForm(QueryPairs(SearchParamsOf(configArg.config).value)))
      else prepared.value)));

    var built := BuiltUrl(p, url, entryConf);
    var body := EntryBody(m, config);
    assert EntryRequest(p, ep, template, m, args) == DelegatedRequest(p, ep, m, url, config);
    assert DelegatedRequest(p, ep, m, url, config) == DispatchedRequest(p, m, built, entryConf, body);
    if built.Ok? {
      assert RunBefore(p.before, (built.value, entryConf, body)) == Continue((built.value, entryConf, body));
      assert EntryRequest(p, ep, template, m, args) == Some(SentFor(m, built.value, entryConf, body));
    } else {
      assert EntryRequest(p, ep, template, m, args) == None;
    }
  }

  /** Where `url()` and the entry points part: for a template that starts with a required
    * placeholder and a call without arguments, an entry point requests the template text as
    * written, while `url()` generates the template without parameters and throws. */
  lemma UrlWithoutParamsDiverges(p: Pipeline, ep: EndpointParams, template: Template)
    requires |template| > 0 && template[0].Hole? && !template[0].optional
    ensures EndpointUrl(template, ep.url, ResolveArgs([], ParametersCount(template)).0) == Ok(ep.url)
    ensures UrlOutcome(p, template, []).Err?
  {
  }

  class AdapterEndpoint {
    const adapter: Adapter
    const params: EndpointParams
    const template: Template

    /** `new AdapterEndpoint(adapter, params)`: the URL template is compiled once. */
    constructor (adapter: Adapter, params: EndpointParams)
      ensures this.adapter == adapter && this.params == params && template == Compile(params.url)
    {
      this.adapter := adapter;
      this.params := params;
      template := Compile(params.url);
    }

    /** `validateSearchParams`: scan the declared names in order and report the first required
      * one the configuration does not supply; nothing is reported when none is declared. */
    method ValidateSearchParams(config: Option<Config>, m: Method, url: string) returns (r: Option<RequestError>)
      ensures r == SearchParamsError(params.searchParams, config, m, url)
    {
      var names := if params.searchParams.Some? then params.searchParams.value else [];
      if params.searchParams.None? || |params.searchParams.value| == 0 {
        return None;
      }
      var i := 0;
      while i < |names|
        invariant 0 <= i <= |names|
        invariant FirstMissing(names, config) == FirstMissing(names[i..], config)
      {
        var name := names[i];
        assert names[i..][1..] == names[i + 1..];
        if |name| > 0 && name[0] == '?' {
          i := i + 1;
          continue;
        }
        if config.None? || !TruthyProp(PropOf(config.value, SearchParams))
          || IsNullish(SearchParamValue(PropOf(config.value, SearchParams), name)) {
          return Some(RequestError("Missing a required search param: " + name, config, Some(m), Some(url), None, None, None));
        }
        i := i + 1;
      }
      r := None;
    }

    /** The checks every entry point runs before it calls the adapter: the URL, the search parameters
      * and the request body. */
    method Check(m: Method, args: seq<Arg>) returns (c: Result<(string, Option<Config>), Thrown>)
      ensures c == EntryChecks(params, template, m, args)
    {
      var (urlParams, configArg) := ResolveArgs(args, ParametersCount(template));
      var config := ConfigOf(configArg);
      var url: string;
      if urlParams.Object? {
        var generated := Generate(template, urlParams.params);
        if generated.Err? {
          return Err(Foreign(generated.error));
        }
        url := generated.value;
      } else {
        url := params.url;
      }
      var missing := ValidateSearchParams(config, m, url);
      if missing.Some? {
        return Err(AdapterError(missing.value));
      }
      if CarriesBody(m) && m in params.validateRequest && !params.validateRequest[m](BodyOf(config)) {
        return Err(AdapterError(RequestError("Invalid request body", config, Some(m), Some(url), None, None, None)));
      }
      c := Ok((url, config));
    }

    /** Hands a checked call over to the adapter, with the endpoint's response validator in its configuration. */
    method Delegate(m: Method, url: string, config: Option<Config>) returns (r: Result<Response, Thrown>)
      requires adapter.Linked()
      modifies adapter.transport
      ensures r == Delegated(old(adapter.State()), params, m, url, config, |old(adapter.transport.sent)|).0
      ensures |adapter.transport.sent|
        == |old(adapter.transport.sent)| + Delegated(old(adapter.State()), params, m, url, config, |old(adapter.transport.sent)|).1
      ensures adapter.transport.sent == old(adapter.transport.sent)
        + Calls(DelegatedRequest(old(adapter.State()), params, m, url, config), |adapter.transport.sent| - |old(adapter.transport.sent)|)
    {
      ghost var p := adapter.State();
      ghost var k := |adapter.transport.sent|;
      var call := Some(WithValidator(config, ValidatorProp(params.validate, m)));
      var body := EntryBody(m, config);
      var result := adapter.Request(m, url, call, body);
      assert (result, |adapter.transport.sent| - k) == RequestOutcome(p, m, url, call, body, k);
      r := if result.Ok? then Ok(result.value) else Err(AdapterError(result.error));
    }

    /** The steps every entry point runs (each of the six repeats them in the source); every
      * synchronous throw becomes a rejection. */
    method Send(m: Method, args: seq<Arg>) returns (r: Result<Response, Thrown>)
      requires adapter.Linked()
      modifies adapter.transport
      ensures r == EntryOutcome(old(adapter.State()), params, template, m, args, |old(adapter.transport.sent)|).0
      ensures |adapter.transport.sent|
        == |old(adapter.transport.sent)| + EntryOutcome(old(adapter.State()), params, template, m, args, |old(adapter.transport.sent)|).1
      ensures adapter.transport.sent == old(adapter.transport.sent)
        + Calls(EntryRequest(old(adapter.State()), params, template, m, args), |adapter.transport.sent| - |old(adapter.transport.sent)|)
    {
      ghost var p := adapter.State();
      ghost var k := |adapter.transport.sent|;
      var checked := Check(m, args);
      EntryCases(p, params, template, m, args, k);
      if checked.Err? {
        return Err(checked.error);
      }
      assert unchanged(adapter, adapter.transport) && unchanged(adapter.ancestors);
      assert adapter.State() == p;
      r := Delegate(m, checked.value.0, checked.value.1);
    }

    method Get(args: seq<Arg>) returns (r: Result<Response, Thrown>)
      requires adapter.Linked()
      modifies adapter.transport
      ensures r == EntryOutcome(old(adapter.State()), params, template, GET, args, |old(adapter.transport.sent)|).0
      ensures |adapter.transport.sent|
        == |old(adapter.transport.sent)| + EntryOutcome(old(adapter.State()), params, template, GET, args, |old(adapter.transport.sent)|).1
      ensures adapter.transport.sent == old(adapter.transport.sent)
        + Calls(EntryRequest(old(adapter.State()), params, template, GET, args), |adapter.transport.sent| - |old(adapter.transport.sent)|)
    {
      r := Send(GET, args);
    }

    method Post(args: seq<Arg>) returns (r: Result<Response, Thrown>)
      requires adapter.Linked()
      modifies adapter.transport
      ensures r == EntryOutcome(old(adapter.State()), params, template, POST, args, |old(adapter.transport.sent)|).0
      ensures |adapter.transport.sent|
        == |old(adapter.transport.sent)| + EntryOutcome(old(adapter.State()), params, template, POST, args, |old(adapter.transport.sent)|).1
      ensures adapter.transport.sent == old(adapter.transport.sent)
        + Calls(EntryRequest(old(adapter.State()), params, template, POST, args), |adapter.transport.sent| - |old(adapter.transport.sent)|)
    {
      r := Send(POST, args);
    }

    method Patch(args: seq<Arg>) returns (r: Result<Response, Thrown>)
      requires adapter.Linked()
      modifies adapter.transport
      ensures r == EntryOutcome(old(adapter.State()), params, template, PATCH, args, |old(adapter.transport.sent)|).0
      ensures |adapter.transport.sent|
        == |old(adapter.transport.sent)| + EntryOutcome(old(adapter.State()), params, template, PATCH, args, |old(adapter.transport.sent)|).1
      ensures adapter.transport.sent == old(adapter.transport.sent)
        + Calls(EntryRequest(old(adapter.State()), params, template, PATCH, args), |adapter.transport.sent| - |old(adapter.transport.sent)|)
    {
      r := Send(PATCH, args);
    }

    method Put(args: seq<Arg>) returns (r: Result<Response, Thrown>)
      requires adapter.Linked()
      modifies adapter.transport
      ensures r == EntryOutcome(old(adapter.State()), params, template, PUT, args, |old(adapter.transport.sent)|).0
      ensures |adapter.transport.sent|
        == |old(adapter.transport.sent)| + EntryOutcome(old(adapter.State()), params, template, PUT, args, |old(adapter.transport.sent)|).1
      ensures adapter.transport.sent == old(adapter.transport.sent)
        + Calls(EntryRequest(old(adapter.State()), params, template, PUT, args), |adapter.transport.sent| - |old(adapter.transport.sent)|)
    {
      r := Send(PUT, args);
    }

    method Delete(args: seq<Arg>) returns (r: Result<Response, Thrown>)
      requires adapter.Linked()
      modifies adapter.transport
      ensures r == EntryOutcome(old(adapter.State()), params, template, DELETE, args, |old(adapter.transport.sent)|).0
      ensures |adapter.transport.sent|
        == |old(adapter.transport.sent)| + EntryOutcome(old(adapter.State()), params, template, DELETE, args, |old(adapter.transport.sent)|).1
      ensures adapter.transport.sent == old(adapter.transport.sent)
        + Calls(EntryRequest(old(adapter.State()), params, template, DELETE, args), |adapter.transport.sent| - |old(adapter.transport.sent)|)
    {
      r := Send(DELETE, args);
    }

    method Options(args: seq<Arg>) returns (r: Result<Response, Thrown>)
      requires adapter.Linked()
      modifies adapter.transport
      ensures r == EntryOutcome(old(adapter.State()), params, template, OPTIONS, args, |old(adapter.transport.sent)|).0
      ensures |adapter.transport.sent|
        == |old(adapter.transport.sent)| + EntryOutcome(old(adapter.State()), params, template, OPTIONS, args, |old(adapter.transport.sent)|).1
      ensures adapter.transport.sent == old(adapter.transport.sent)
        + Calls(EntryRequest(old(adapter.State()), params, template, OPTIONS, args), |adapter.transport.sent| - |old(adapter.transport.sent)|)
    {
      r := Send(OPTIONS, args);
    }

    /** `url()`: the URL a request would go to, built without sending anything and without the
      * required-search-parameter check; a URL that cannot be built is a thrown error. */
    method Url(args: seq<Arg>) returns (r: Result<string, Value>)
      requires adapter.Linked()
      ensures r == UrlOutcome(adapter.State(), template, args)
    {
      var params: Arg := NoArg;
      var config: Arg;
      if ParametersCount(template) == 0 {
        config := ArgAt(args, 0);
      } else {
        params := ArgAt(args, 0);
        config := ArgAt(args, 1);
      }
      var path := Generate(template, if params.Object? then params.params else map[]);
      if path.Err? {
        return Err(path.error);
      }
      var conf := Objects.ExtendObject(adapter.baseConfig, ConfigOf(config));
      var prepared := PrepareUrl(path.value, conf, adapter.windowOrigin);
      if prepared.Err? {
        return Err(prepared.error);
      }
      var u := prepared.value;
      if config.Object? && SearchParamsOf(config.config).Some? {
        u := WithSearch(u, SerializeForm(QueryPairs(SearchParamsOf(config.config).value)));
      }
      u := adapter.RunAfterBuildUrlHandlers(u);
      r := Ok(Href(u));
    }
  }

  /** `adapter.endpoint(params)`: with `options`, the endpoint works on an extension of the
    * adapter made from them; otherwise on the adapter itself. */
  method NewEndpoint(adapter: Adapter, params: EndpointParams, options: Option<AdapterOptions>)
    returns (endpoint: AdapterEndpoint)
    requires adapter.Linked()
    ensures fresh(endpoint) && endpoint.params == params && endpoint.template == Compile(params.url)
    ensures endpoint.adapter.Linked()
    ensures options.None? ==> endpoint.adapter == adapter
    ensures options.Some? ==> (
      && fresh(endpoint.adapter) && endpoint.adapter.extendsFrom == Some(adapter)
      && endpoint.adapter.transport == adapter.transport
      && (endpoint.adapter.baseConfig, endpoint.adapter.baseHeaders)
           == MergedConfig(adapter.baseConfig, adapter.baseHeaders, OptionsConfig(options.value),
                           HeaderObject(OptionsHeaders(options.value))))
  {
    if options.Some? {
      var child := adapter.Extend(options.value);
      endpoint := new AdapterEndpoint(child, params);
    } else {
      endpoint := new AdapterEndpoint(adapter, params);
    }
  }
}

=== FILE: extend.dfy ===
/** Prototype-layered object extension (src/utils/extend.ts).
  * An object is modelled by the lookups it answers: a map from property name to value.
  * `Object.create(base)` answers every lookup of `base`; own properties written on top win. */
module Extend {
  import opened Js

  /** What `extend(base, assign)` answers for every property lookup. */
  function Layered<K, V>(base: map<K, V>, assign: Option<map<K, V>>): (r: map<K, V>)
  {
    match assign
    case None => base
    case Some(a) => base + a
  }

  /** Property lookup through the prototype chain: None is `undefined` from a missing key. */
  function Lookup<K, V>(obj: map<K, V>, key: K): Option<V>
  {
    if key in obj then Some(obj[key]) else None
  }

  /** `extend(base, assign)`: a fresh object whose prototype is `base`, with every key of `assign`
    * copied on top by a `for…in` loop. The inputs are values and are left as they were. */
  method ExtendObject<K, V>(base: map<K, V>, assign: Option<map<K, V>>) returns (obj: map<K, V>)
    ensures obj == Layered(base, assign)
  {
    obj := base;
    if assign.Some? {
      var a := assign.value;
      var pending := a.Keys;
      while pending != {}
        invariant pending <= a.Keys
        invariant obj.Keys == base.Keys + (a.Keys - pending)
        invariant forall k :: k in a && k !in pending ==> obj[k] == a[k]
        invariant forall k :: k in base && (k !in a || k in pending) ==> obj[k] == base[k]
        decreases pending
      {
        var key :| key in pending;
        obj := obj[key := a[key]];
        pending := pending - {key};
      }
    }
  }

  /** Every key of `assign` reads back with `assign`'s value; every other key falls back to `base`. */
  lemma LayeredLookup<K, V>(base: map<K, V>, assign: map<K, V>, key: K)
    ensures Lookup(Layered(base, Some(assign)), key) ==
      (if key in assign then Some(assign[key]) else Lookup(base, key))
  {
  }

  /** `extend(extend(a, b), c)` looks a key up in `c`, then `b`, then `a`. */
  lemma LayeredNesting<K, V>(a: map<K, V>, b: map<K, V>, c: map<K, V>, key: K)
    ensures Lookup(Layered(Layered(a, Some(b)), Some(c)), key) ==
      if key in c then Some(c[key]) else if key in b then Some(b[key]) else Lookup(a, key)
  {
  }
}

=== FILE: headers.dfy ===
/** The platform `Headers` class, as section "Headers class" of the WHATWG Fetch Standard
  * describes it: names are compared case-insensitively (stored lower-cased), `set`
  * replaces, `append` combines with ", ". Iteration is by sorted name, so a header list
  * is faithfully a map from lower-cased name to value. */
module HeaderMap {
  import opened Js

  predicate IsLowerName(s: string)
  {
    forall i :: 0 <= i < |s| ==> !('A' <= s[i] <= 'Z')
  }

  function LowerChar(c: char): char
  {
    if 'A' <= c <= 'Z' then (c as int + 32) as char else c
  }

  /** ASCII lower-casing of a header name. */
  function Lower(s: string): (r: string)
    ensures |r| == |s| && IsLowerName(r)
    ensures forall i :: 0 <= i < |s| ==> r[i] == LowerChar(s[i])
    decreases s
  {
    if s == [] then [] else [LowerChar(s[0])] + Lower(s[1..])
  }

  lemma LowerOfLower(s: string)
    requires IsLowerName(s)
    ensures Lower(s) == s
  {
  }

  type Headers = h: map<string, string> | forall k :: k in h ==> IsLowerName(k) witness map[]

  const Empty: Headers := map[]

  predicate Has(h: Headers, name: string)
  {
    Lower(name) in h
  }

  function Get(h: Headers, name: string): Option<string>
  {
    if Lower(name) in h then Some(h[Lower(name)]) else None
  }

  /** `headers.set(name, value)`. */
  function Set(h: Headers, name: string, value: string): (r: Headers)
    ensures Get(r, name) == Some(value)
    ensures forall n :: Lower(n) != Lower(name) ==> Get(r, n) == Get(h, n)
  {
    h[Lower(name) := value]
  }

  /** `headers.append(name, value)`: a repeated name combines its values. */
  function Append(h: Headers, name: string, value: string): (r: Headers)
    ensures Get(r, name) == Some(if Has(h, name) then h[Lower(name)] + ", " + value else value)
    ensures forall n :: Lower(n) != Lower(name) ==> Get(r, n) == Get(h, n)
  {
    var k := Lower(name);
    h[k := if k in h then h[k] + ", " + value else value]
  }

  /** The lower-cased names of a list of name/value pairs. */
  function Names(entries: seq<(string, string)>): set<string>
    decreases |entries|
  {
    if entries == [] then {} else Names(entries[..|entries| - 1]) + {Lower(entries[|entries| - 1].0)}
  }

  /** `new Headers(init)` for a list of name/value pairs: each pair is appended in order,
    * so the header set holds exactly the names of the list. */
  function FromEntries(entries: seq<(string, string)>): (r: Headers)
    ensures r.Keys == Names(entries)
    decreases |entries|
  {
    if entries == [] then Empty
    else
      var last := entries[|entries| - 1];
      Append(FromEntries(entries[..|entries| - 1]), last.0, last.1)
  }

  /** Copy `base`, then `set` every header of `target` (the `forEach` in src/adapter.ts:93-98). */
  method MergeHeaders(base: Headers, target: Headers) returns (out: Headers)
    ensures forall n :: Has(target, n) ==> Get(out, n) == Get(target, n)
    ensures forall n :: !Has(target, n) ==> Get(out, n) == Get(base, n)
    ensures forall n :: Has(out, n) <==> Has(base, n) || Has(target, n)
    ensures out == base + target
  {
    out := base;
    var pending := target.Keys;
    while pending != {}
      invariant pending <= target.Keys
      invariant out.Keys == base.Keys + (target.Keys - pending)
      invariant forall k :: k in target && k !in pending ==> out[k] == target[k]
      invariant forall k :: k in base && (k !in target || k in pending) ==> out[k] == base[k]
      decreases pending
    {
      var key :| key in pending;
      LowerOfLower(key);
      out := Set(out, key, target[key]);
      pending := pending - {key};
    }
  }
}

=== FILE: js.dfy ===
/** JavaScript values as the adapter library sees them, and the usual wrappers. */
module Js {

  datatype Option<+T> = None | Some(value: T)

  datatype Result<+T, +E> = Ok(value: T) | Err(error: E)

  /** A JavaScript value: payloads, bodies, thrown values. Numbers are integers here. */
  datatype Value =
    | Undefined
    | Null
    | Bool(b: bool)
    | Num(n: int)
    | Str(s: string)
    | Arr(items: seq<Value>)
    | Obj(props: map<string, Value>)

  /** JavaScript truthiness of a value (`if (v)`). */
  predicate Truthy(v: Value)
  {
    match v
    case Undefined => false
    case Null => false
    case Bool(b) => b
    case Num(n) => n != 0
    case Str(s) => s != ""
    case _ => true
  }

  /** A thrown `Error` object: `new TypeError(message)` and the like. */
  function ErrorObject(name: string, message: string): Value
  {
    Obj(map["name" := Str(name), "message" := Str(message)])
  }

  /** `v == null`: loose equality with null holds for null and undefined only. */
  predicate IsNullish(v: Value)
  {
    v.Undefined? || v.Null?
  }

  /** Decimal digits of a natural number, as template literals render it. */
  function NatToString(n: nat): (s: string)
    ensures |s| >= 1
    ensures forall i :: 0 <= i < |s| ==> '0' <= s[i] <= '9'
    decreases n
  {
    if n < 10 then [Digit(n)] else NatToString(n / 10) + [Digit(n % 10)]
  }

  function Digit(d: nat): (c: char)
    requires d < 10
    ensures '0' <= c <= '9'
  {
    ['0', '1', '2', '3', '4', '5', '6', '7', '8', '9'][d]
  }

  /** `String(n)` for an integer. */
  function IntToString(n: int): string
  {
    if n < 0 then "-" + NatToString(-n) else NatToString(n)
  }

  /** `String(v)`, as `URLSearchParams` and template literals convert values. */
  function ToJsString(v: Value): string
  {
    match v
    case Undefined => "undefined"
    case Null => "null"
    case Bool(b) => if b then "true" else "false"
    case Num(n) => IntToString(n)
    case Str(s) => s
    case Arr(items) => JoinItems(items)
    case Obj(_) => "[object Object]"
  }

  /** `Array.prototype.join(",")`: null and undefined elements render as empty. */
  function JoinItems(items: seq<Value>): string
    decreases items
  {
    if items == [] then ""
    else
      var head := if IsNullish(items[0]) then "" else ToJsString(items[0]);
      if |items| == 1 then head else head + "," + JoinItems(items[1..])
  }
}

=== FILE: request_error.dfy ===
/** The failure and raw-response values of the pipeline (src/request-error.ts, and the
  * transport interface of src/xhr-interface.ts). */
module RequestErrors {
  import opened Js
  import opened Configs

  datatype Method = DELETE | GET | OPTIONS | PATCH | POST | PUT

  /** Methods that get a default Content-Type and carry `config.body`. */
  predicate CarriesBody(m: Method)
  {
    m != GET && m != OPTIONS
  }

  /** A transport's raw response: its identity and what `extractPayload` gives for it
    * (the decoded payload, or the value extraction throws). */
  datatype RawResponse = RawResponse(id: nat, payload: Result<Value, Value>)

  /** `AdapterRequestError`: the reason is the error's message. */
  datatype RequestError = RequestError(
    reason: string,
    config: Option<Config>,
    verb: Option<Method>,
    url: Option<string>,
    status: Option<int>,
    response: Option<RawResponse>,
    cause: Option<Value>)

  /** A thrown value: an `AdapterRequestError`, or anything else. */
  datatype Thrown = AdapterError(error: RequestError) | Foreign(value: Value)

  /** An error built from a configuration and a reason only. */
  function ErrorWithConfig(config: Config, reason: string): RequestError
  {
    RequestError(reason, Some(config), None, None, None, None, None)
  }
}

=== FILE: standard_schema.dfy ===
/** `validate`: a response validator is either a plain type-guard predicate or a Standard Schema
  * v1 object (one carrying a "~standard" key) whose `validate` reports issues. */
module StandardSchema {
  import opened Js

  /** One problem a schema reports about the data. */
  datatype Issue = Issue(message: string, path: seq<Value>)

  /** What `validator["~standard"].validate(data)` returns: a result object, whose `issues`
    * field may be absent, or a Promise. */
  datatype SchemaResult = Sync(issues: Option<seq<Issue>>) | Async

  /** The two shapes a validator takes: a predicate called on the data, or an object with a
    * "~standard" key whose `validate` member is `run`. */
  datatype Validator = Predicate(test: Value -> bool) | Schema(run: Value -> SchemaResult)

  /** The outcome of one `validate` call: its return value or the error it throws, and the
    * arguments `getIssues` was called with, in order. */
  datatype Validation = Validation(result: Result<bool, Value>, reported: seq<seq<Issue>>)

  const AsyncMessage := "Asynchronous validation is not supported."

  /** `validate(validator, data, getIssues)`, dispatching on `isStandardSchema` (the "~standard"
    * key, which only the `Schema` case carries); `hasGetIssues` says whether the callback was
    * supplied. An `issues` array counts as present even when it is empty, as JavaScript
    * truthiness of an array has it. */
  function Validate(validator: Validator, data: Value, hasGetIssues: bool): (v: Validation)
    ensures !validator.Schema? ==> v == Validation(Ok(validator.test(data)), [])
    ensures v.result.Err? <==> validator.Schema? && validator.run(data).Async?
    ensures v.result.Err? ==> v.result.error == ErrorObject("Error", AsyncMessage) && v.reported == []
    ensures validator.Schema? && v.result.Ok? ==>
      (v.result.value <==> validator.run(data).issues.None?)
    ensures |v.reported| <= 1
    ensures v.reported != [] ==>
      hasGetIssues && v.result == Ok(false) && v.reported == [validator.run(data).issues.value]
  {
    if validator.Schema? then
      match validator.run(data)
      case Async => Validation(Err(ErrorObject("Error", AsyncMessage)), [])
      case Sync(issues) =>
        if issues.Some? then
          Validation(Ok(false), if hasGetIssues then [issues.value] else [])
        else
          Validation(Ok(true), [])
    else
      Validation(Ok(validator.test(data)), [])
  }

  /** A schema accepts exactly when it answers synchronously without issues; a supplied
    * `getIssues` hears about every rejection, with the schema's own issue list. */
  lemma SchemaVerdict(run: Value -> SchemaResult, data: Value, hasGetIssues: bool)
    ensures Validate(Schema(run), data, hasGetIssues).result == Ok(true)
      <==> run(data) == Sync(None)
    ensures Validate(Schema(run), data, hasGetIssues).result == Ok(false)
      <==> run(data).Sync? && run(data).issues.Some?
    ensures hasGetIssues && Validate(Schema(run), data, hasGetIssues).result == Ok(false) ==>
      Validate(Schema(run), data, hasGetIssues).reported == [run(data).issues.value]
  {
  }

  /** A predicate validator and a schema that reports issues exactly where the predicate fails
    * give the same verdicts. */
  lemma PredicateAsSchema(test: Value -> bool, run: Value -> SchemaResult, data: Value)
    requires run(data) == if test(data) then Sync(None) else Sync(Some([]))
    ensures Validate(Predicate(test), data, true).result == Validate(Schema(run), data, false).result
  {
  }
}

=== FILE: transport.dfy ===
/** The transport collaborator (`XHRInterface`, src/xhr-interface.ts). The real transports wrap
  * `fetch` or axios; here a transport replays a script: call number k (counting from 0)
  * produces `script(k)`, and every request sent is recorded. A timeout or an abort is a
  * scripted failure outcome. */
module Transports {
  import opened Js
  import opened Configs
  import opened RequestErrors

  /** What one `sendRequest` call does: resolve with `[response, status, statusText]`, or reject. */
  datatype Outcome = Reply(response: RawResponse, status: int, statusText: string) | Fail(thrown: Thrown)

  /** The arguments of one `sendRequest` call. */
  datatype SentRequest = SentRequest(verb: Method, url: string, xhr: Prop, headers: Prop, body: Value)

  class Transport {
    const script: nat -> Outcome
    var sent: seq<SentRequest>

    constructor (script: nat -> Outcome)
      ensures this.script == script && sent == []
    {
      this.script := script;
      sent := [];
    }

    /** `sendRequest(params)`: record the call and answer from the script. */
    method SendRequest(request: SentRequest) returns (outcome: Outcome)
      modifies this
      ensures sent == old(sent) + [request]
      ensures outcome == script(|old(sent)|)
    {
      outcome := script(|sent|);
      sent := sent + [request];
    }
  }

  /** `extractPayload(response)`: the payload the raw response decodes to, or what decoding throws. */
  function ExtractPayload(response: RawResponse): Result<Value, Value>
  {
    response.payload
  }
}

=== FILE: trim_char.dfy ===
/** One-character trims used at the base-path seam (src/utils/trim-char.ts). */
module TrimChar {

  predicate StartsWith(s: string, prefix: string)
  {
    |prefix| <= |s| && s[..|prefix|] == prefix
  }

  predicate EndsWith(s: string, suffix: string)
  {
    |suffix| <= |s| && s[|s| - |suffix|..] == suffix
  }

  /** `trimCharStart(str, char)`: drop exactly the first character when `str` starts with `char`. */
  function TrimCharStart(str: string, ch: string): (r: string)
    ensures StartsWith(str, ch) && str != [] ==> r == str[1..]
    ensures !StartsWith(str, ch) ==> r == str
    ensures str == [] ==> r == []
  {
    if StartsWith(str, ch) then (if str == [] then [] else str[1..]) else str
  }

  /** `trimCharEnd(str, char)`: drop exactly the last character when `str` ends with `char`. */
  function TrimCharEnd(str: string, ch: string): (r: string)
    ensures EndsWith(str, ch) && str != [] ==> r == str[..|str| - 1]
    ensures !EndsWith(str, ch) ==> r == str
    ensures str == [] ==> r == []
  {
    if EndsWith(str, ch) then (if str == [] then [] else str[..|str| - 1]) else str
  }

  /** The start trim yields a suffix of its input, at most one character shorter. */
  lemma TrimCharStartIsShortSuffix(str: string, ch: string)
    ensures var r := TrimCharStart(str, ch);
      |str| - 1 <= |r| <= |str| && r == str[|str| - |r|..]
  {
  }

  /** The end trim yields a prefix of its input, at most one character shorter. */
  lemma TrimCharEndIsShortPrefix(str: string, ch: string)
    ensures var r := TrimCharEnd(str, ch);
      |str| - 1 <= |r| <= |str| && r == str[..|r|]
  {
  }

  /** A one-character `char` removes a character exactly when the input starts with it. */
  lemma TrimCharStartRemovesIff(str: string, c: char)
    ensures TrimCharStart(str, [c]) != str <==> (str != [] && str[0] == c)
  {
    if str != [] && str[0] == c {
      assert |TrimCharStart(str, [c])| == |str| - 1;
    }
  }

  /** A one-character `char` removes a character exactly when the input ends with it. */
  lemma TrimCharEndRemovesIff(str: string, c: char)
    ensures TrimCharEnd(str, [c]) != str <==> (str != [] && str[|str| - 1] == c)
  {
    if str != [] && str[|str| - 1] == c {
      assert |TrimCharEnd(str, [c])| == |str| - 1;
    }
  }

  /** At most one character goes: the trims are not idempotent. */
  lemma TrimsAreNotIdempotent()
    ensures TrimCharStart("//a", "/") == "/a"
    ensures TrimCharStart(TrimCharStart("//a", "/"), "/") == "a"
    ensures TrimCharEnd("a//", "/") == "a/"
    ensures TrimCharEnd(TrimCharEnd("a//", "/"), "/") == "a"
  {
    assert StartsWith("//a", "/");
    assert StartsWith("/a", "/");
    assert EndsWith("a//", "/");
    assert EndsWith("a/", "/");
  }
}

=== FILE: url.dfy ===
/** The platform `URL` class, reduced to what the adapter reads and writes: origin, path and
  * query. Parsing follows the WHATWG URL Standard for the `http:`/`https:` inputs the adapter
  * builds; query strings are produced by the application/x-www-form-urlencoded serializer of
  * section 5.2 of the WHATWG URL Standard. */
module Urls {
  import opened Js
  import TrimChar

  datatype Url = Url(origin: string, pathname: string, search: string)

  /** `url.toString()` (no fragment is ever set by the adapter). */
  function Href(u: Url): string
  {
    u.origin + u.pathname + (if u.search == "" then "" else "?" + u.search)
  }

  /** The first index of `c` in `s`, or -1. */
  function FindChar(s: string, c: char): (i: int)
    ensures -1 <= i < |s|
    ensures i == -1 <==> c !in s
    ensures i >= 0 ==> s[i] == c && c !in s[..i]
    decreases |s|
  {
    if s == [] then -1
    else if s[0] == c then 0
    else
      var j := FindChar(s[1..], c);
      assert s[1..][..if j >= 0 then j else 0] == s[1..1 + if j >= 0 then j else 0];
      if j == -1 then -1 else j + 1
  }

  /** Split off the query: the text before the first '?', and the text after it if there is one. */
  function SplitQuery(s: string): (string, Option<string>)
  {
    var q := FindChar(s, '?');
    if q == -1 then (s, None) else (s[..q], Some(s[q + 1..]))
  }

  /** ASCII lower-casing of one character. */
  function LowerChar(c: char): char
  {
    if 'A' <= c <= 'Z' then (c as int + 32) as char else c
  }

  /** ASCII lower-casing, as the URL parser applies to schemes and host names. */
  function AsciiLower(s: string): (r: string)
    ensures |r| == |s|
    ensures forall i :: 0 <= i < |s| ==> r[i] == LowerChar(s[i])
    decreases |s|
  {
    if s == [] then [] else [LowerChar(s[0])] + AsciiLower(s[1..])
  }

  /** Length of an `http://` or `https://` prefix in any letter case, 0 when there is none. */
  function SchemeLength(s: string): nat
  {
    if TrimChar.StartsWith(AsciiLower(s), "http://") then 7
    else if TrimChar.StartsWith(AsciiLower(s), "https://") then 8
    else 0
  }

  /** Parse an absolute URL; None when `s` is not one. Scheme and host are lower-cased. */
  function ParseAbsolute(s: string): Option<Url>
  {
    var n := SchemeLength(s);
    var (beforeQuery, query) := SplitQuery(s);
    if n == 0 || |beforeQuery| < n then None
    else
      var rest := beforeQuery[n..];
      var slash := FindChar(rest, '/');
      var host := if slash == -1 then rest else rest[..slash];
      var path := if slash == -1 then "/" else rest[slash..];
      if host == "" then None
      else Some(Url(AsciiLower(beforeQuery[..n] + host), path, if query.Some? then query.value else ""))
  }

  /** The scheme of a parsed URL, with its colon. */
  function SchemeOf(u: Url): string
  {
    if TrimChar.StartsWith(u.origin, "https:") then "https:" else "http:"
  }

  /** The directory part of a path: everything up to and including its last '/'. */
  function Directory(path: string): string
    decreases |path|
  {
    if path == [] then "/"
    else if path[|path| - 1] == '/' then path
    else Directory(path[..|path| - 1])
  }

  /** `new URL(input, base)`: the base is parsed first, and one that is not an absolute URL
    * throws a TypeError whatever the input. An absolute input then stands alone; one starting
    * with "//" takes only the base's scheme; any other is resolved against the base. */
  function Resolve(input: string, base: string): (r: Result<Url, Value>)
    ensures ParseAbsolute(base).None? ==> r == Err(ErrorObject("TypeError", "Invalid URL"))
    ensures r.Ok? ==> ParseAbsolute(base).Some?
    ensures ParseAbsolute(base).Some? && ParseAbsolute(input).Some? ==> r == Ok(ParseAbsolute(input).value)
    ensures ParseAbsolute(base).Some? && ParseAbsolute(input).None? && !TrimChar.StartsWith(input, "//") ==>
      r.Ok? && r.value.origin == ParseAbsolute(base).value.origin
  {
    match ParseAbsolute(base)
    case None => Err(ErrorObject("TypeError", "Invalid URL"))
    case Some(b) =>
      match ParseAbsolute(input)
      case Some(u) => Ok(u)
      case None =>
        if TrimChar.StartsWith(input, "//") then
          match ParseAbsolute(SchemeOf(b) + input)
          case None => Err(ErrorObject("TypeError", "Invalid URL"))
          case Some(u) => Ok(u)
        else
          var (path, query) := SplitQuery(input);
          var pathname :=
            if path == "" then b.pathname
            else if path[0] == '/' then path
            else Directory(b.pathname) + path;
          var search :=
            if query.Some? then query.value
            else if path == "" then b.search
            else "";
          Ok(Url(b.origin, pathname, search))
  }

  /** Lower-casing twice is lower-casing once. */
  lemma AsciiLowerIdempotent(s: string)
    ensures AsciiLower(AsciiLower(s)) == AsciiLower(s)
  {
    var l := AsciiLower(s);
    assert forall i :: 0 <= i < |l| ==> AsciiLower(l)[i] == LowerChar(LowerChar(s[i])) == l[i];
  }

  /** The scheme is recognised in any letter case, and a parsed origin is lower-case. */
  lemma SchemeCaseInsensitive(s: string)
    ensures SchemeLength(AsciiLower(s)) == SchemeLength(s)
    ensures ParseAbsolute(s).Some? ==>
      AsciiLower(ParseAbsolute(s).value.origin) == ParseAbsolute(s).value.origin
  {
    AsciiLowerIdempotent(s);
    var (beforeQuery, _) := SplitQuery(s);
    var n := SchemeLength(s);
    if n > 0 && |beforeQuery| >= n {
      var rest := beforeQuery[n..];
      var slash := FindChar(rest, '/');
      var host := if slash == -1 then rest else rest[..slash];
      AsciiLowerIdempotent(beforeQuery[..n] + host);
    }
  }

  /** The base is parsed even when the input is absolute, so a page origin of "null" (a
    * sandboxed frame or a file page) or an empty base fails every input. */
  lemma AbsoluteInputNeedsBase(input: string)
    ensures Resolve(input, "null") == Err(ErrorObject("TypeError", "Invalid URL"))
    ensures Resolve(input, "") == Err(ErrorObject("TypeError", "Invalid URL"))
  {
    assert AsciiLower("null")[0] == 'n';
    assert SchemeLength("null") == 0;
  }

  /** The `pathname` setter: a path always starts with '/'. */
  function WithPathname(u: Url, path: string): (r: Url)
    ensures r.origin == u.origin && r.search == u.search
    ensures |r.pathname| > 0 && r.pathname[0] == '/'
  {
    u.(pathname := if |path| > 0 && path[0] == '/' then path else "/" + path)
  }

  /** The `search` setter: one leading '?' is dropped. */
  function WithSearch(u: Url, query: string): Url
  {
    u.(search := TrimChar.TrimCharStart(query, "?"))
  }

  // --- application/x-www-form-urlencoded serialization ---

  /** The UTF-8 encoding of a code point. */
  function Utf8(c: char): (bytes: seq<nat>)
    ensures forall i :: 0 <= i < |bytes| ==> bytes[i] < 256
  {
    var n := c as int;
    if n < 0x80 then [n]
    else if n < 0x800 then [0xC0 + n / 0x40, 0x80 + n % 0x40]
    else if n < 0x10000 then [0xE0 + n / 0x1000, 0x80 + (n / 0x40) % 0x40, 0x80 + n % 0x40]
    else [0xF0 + (n / 0x40000) % 8, 0x80 + (n / 0x1000) % 0x40, 0x80 + (n / 0x40) % 0x40, 0x80 + n % 0x40]
  }

  function HexDigit(d: nat): char
    requires d < 16
  {
    "0123456789ABCDEF"[d]
  }

  function PercentEncodeBytes(bytes: seq<nat>): string
    requires forall i :: 0 <= i < |bytes| ==> bytes[i] < 256
    decreases |bytes|
  {
    if bytes == [] then ""
    else ['%', HexDigit(bytes[0] / 16), HexDigit(bytes[0] % 16)] + PercentEncodeBytes(bytes[1..])
  }

  /** Code points left as they are by the application/x-www-form-urlencoded percent-encode set. */
  predicate FormSafe(c: char)
  {
    ('a' <= c <= 'z') || ('A' <= c <= 'Z') || ('0' <= c <= '9') || c == '*' || c == '-' || c == '.' || c == '_'
  }

  /** Form-encode one name or value: spaces become '+', everything unsafe is percent-encoded. */
  function FormEncode(s: string): string
    decreases |s|
  {
    if s == [] then ""
    else
      var head := if FormSafe(s[0]) then [s[0]] else if s[0] == ' ' then "+" else PercentEncodeBytes(Utf8(s[0]));
      head + FormEncode(s[1..])
  }

  /** `new URLSearchParams(init).toString()`: the pairs in insertion order, `name=value`, joined by '&'. */
  function SerializeForm(pairs: seq<(string, string)>): string
    decreases |pairs|
  {
    if pairs == [] then ""
    else
      var first := FormEncode(pairs[0].0) + "=" + FormEncode(pairs[0].1);
      if |pairs| == 1 then first else first + "&" + SerializeForm(pairs[1..])
  }
}

=== FILE: url_template.dfy ===
/** The URL-template collaborator (package `url-templater.ts`, which is not part of this model),
  * reduced to its interface: compile once, count placeholders, generate many. A template is
  * text with `{name}` placeholders; `{?name}` marks an optional one. */
module UrlTemplate {
  import opened Js
  import Urls

  datatype Part = Chr(c: char) | Hole(name: string, optional: bool)

  type Template = seq<Part>

  function HoleOf(inner: string): Part
  {
    if |inner| > 0 && inner[0] == '?' then Hole(inner[1..], true) else Hole(inner, false)
  }

  /** `urlTemplate(text)`: compile the template text; an unmatched '{' stays literal. */
  function Compile(text: string): Template
    decreases |text|
  {
    if text == [] then []
    else if text[0] == '{' && Urls.FindChar(text, '}') > 0 then
      var close := Urls.FindChar(text, '}');
      [HoleOf(text[1..close])] + Compile(text[close + 1..])
    else [Chr(text[0])] + Compile(text[1..])
  }

  /** `parametersCount`: the number of placeholders. */
  function ParametersCount(t: Template): nat
    decreases |t|
  {
    if t == [] then 0 else (if t[0].Hole? then 1 else 0) + ParametersCount(t[1..])
  }

  /** `generate(params)`: substitute each placeholder; an absent optional one is omitted,
    * an absent required one is an error. */
  function Generate(t: Template, params: map<string, string>): Result<string, Value>
    decreases |t|
  {
    if t == [] then Ok("")
    else
      var head: Result<string, Value> :=
        match t[0]
        case Chr(c) => Ok([c])
        case Hole(name, optional) =>
          if name in params then Ok(params[name])
          else if optional then Ok("")
          else Err(ErrorObject("TypeError", "Missing url parameter: " + name));
      if head.Err? then head
      else
        match Generate(t[1..], params)
        case Err(e) => Err(e)
        case Ok(rest) => Ok(head.value + rest)
  }

  /** A template without placeholders generates its own text, whatever the parameters. */
  lemma {:induction false} GenerateWithoutPlaceholders(text: string, params: map<string, string>)
    requires ParametersCount(Compile(text)) == 0
    ensures Generate(Compile(text), params) == Ok(text)
    decreases |text|
  {
    if text != [] {
      if text[0] == '{' && Urls.FindChar(text, '}') > 0 {
        assert false;
      } else {
        assert Compile(text)[1..] == Compile(text[1..]);
        GenerateWithoutPlaceholders(text[1..], params);
        assert text == [text[0]] + text[1..];
      }
    }
  }

}
